=== FILE: README.md ===
# Titanic dashboard: a Dafny model

This project models the core logic of a React dashboard for the Titanic passenger dataset. The dashboard walks the user through four steps, one tab each:

1. **Upload** a CSV file, or fetch the bundled sample.
2. **Clean** the records with four optional stages:
   - fill missing ages with the mean known age;
   - fill missing ports of embarkation with the most common port;
   - add a `FamilySize` column;
   - extract a normalised `Title` from the name.
3. **Explore** the records, in two views:
   - a searchable, sortable, paginated table;
   - charts that bucket passengers by sex, class, age group and fare band.
4. **Statistics**: a summary recomputed whenever the cleaned records change.

Passenger records are immutable datatypes held in sequences. Every operation of the shared store, the chart aggregations, the table pipeline, the upload gate, the cleaning panel and the tab workflow is a pure function of its inputs. Some inputs come from outside the code, so they are parameters of the model:

- the CSV parser's result: header fields, rows and error messages;
- the fetch result for the sample;
- the rendering of a number as a string (`show`).

The React state of the components and the shared store is one explicit value. Each user event is a transition of that value (`Dashboard.Step`).

Modules, in dependency order:

- **`Passengers`**: the record, and counting over record sequences.
- **`Numeric`**: `toFixed` rounding, sums, means and percentages on exact reals.
- **`Text`**: lower-casing, substring search, joining, number-to-string and string order.
- **`AgeSort`**: the numeric sort of ages.
- **`Statistics`**: the statistics summary.
- **`Embarkation`**: the port tally and the mode.
- **`Titles`**: the title scan and its normalisation.
- **`Cleaning`**: the four cleaning stages.
- **`Store`**: the shared store and its refresh.
- **`Charts`**: the chart aggregations.
- **`Table`**: row fields, columns, search and cell formatting.
- **`TableSort`**: the comparator and the sort.
- **`Paging`**: pages, Prev and Next, and the page-button window.
- **`TableView`**: the table's own state machine.
- **`Uploader`**: the upload path and the sample path.
- **`Cleaner`**: the cleaning panel.
- **`Dashboard`**: the tabs and the whole application.

Three points where the code's behaviour is easy to misread, and what the model does:

- **Title scan.** `Titles.RawTitle` takes the leftmost `\b([A-Za-z]+)\.` match anywhere in the name (`src/context/DataContext.tsx:192`), not just the token after the surname's comma.
- **Fare and Pclass.** `Fare` is optional because the code tests `p.Fare !== null` although the declared type is `number`. `Pclass` stays a plain number in the model, so the `p.Pclass !== null` half of the fare chart's test (`src/components/DataCharts.tsx:88`) always holds.
- **Cleaning checkboxes.** The checkboxes stay on screen and stay live after cleaning has run (`src/components/DataCleaner.tsx:97-162`). Only the Clean button is replaced by the banner (`:177`). A toggle in the 1.5 seconds between the press and `onSuccess` (`:28-34`) therefore lands after cleaning. The model folds that window into the Clean press: `Dashboard.PressCleanStep` moves straight to the Explore tab, which remounts the panel, so no reachable state has `isProcessed` set.

One quirk of the code is shown as a lemma rather than corrected, because the code does nothing unintended there. An upload with a valid header and no data rows passes every check and moves the dashboard to the Clean tab. That tab is disabled and has no records to show (`Dashboard.HeaderOnlyUploadOpensDisabledTab`).

## Model

| member | source | states |
|---|---|---|
| Passengers.Count | src/context/DataContext.tsx:89-91 | a filter's length never exceeds the record count |
| Passengers.CountZero | src/context/DataContext.tsx:104 | no record passes a filter exactly when its count is zero |
| Passengers.CountSplit | src/context/DataContext.tsx:90 | a predicate and its complement together count every record |
| Passengers.ValidAges | src/context/DataContext.tsx:94 | the known ages are exactly the non-null ages of the records, as many as the records that have one |
| Passengers.ValidAgesCounts | src/context/DataContext.tsx:94 | each age occurs in the known ages exactly as often as records carry it |
| Passengers.AgesPartition | src/context/DataContext.tsx:94-104 | records with a null age plus known ages make up all records |
| Numeric.Round | src/context/DataContext.tsx:147 | `parseFloat(x.toFixed(d))` gives a multiple of 10^-d within half a unit of `x`, a half going away from zero, with the sign of `x` |
| Numeric.RoundUnique | src/context/DataContext.tsx:147 | any grid point meeting that contract is the rounded value, so the contract fixes the result |
| Numeric.RoundOdd | src/context/DataContext.tsx:147 | rounding a negated value gives the negated rounding, as `toFixed` rounds the magnitude |
| Numeric.RoundHalves | src/context/DataContext.tsx:147 | 0.25 rounds to 0.3 and -0.25 to -0.3 at one decimal |
| Numeric.Mean | src/context/DataContext.tsx:96-98 | the mean times the count is the sum |
| Numeric.MeanBounds | src/context/DataContext.tsx:96-98 | the mean of values in [lo, hi] lies in [lo, hi] |
| Numeric.Percent | src/context/DataContext.tsx:91 | survivors / total × 100 lies in [0, 100]; for a positive total it is 0 exactly when none counts and 100 exactly when all do, and 0 for no total |
| Text.Lower | src/components/DataTable.tsx:44 | `toLowerCase` keeps the length, maps each character and leaves no upper-case letter |
| Text.Contains | src/components/DataTable.tsx:49 | `includes` holds exactly when the needle occurs at some position |
| Text.Join | src/components/DataUploader.tsx:45 | joining no names gives "", joining one gives that name, and the first name always leads |
| Text.JoinAppend | src/components/DataUploader.tsx:45 | joining one more name appends the separator and then that name |
| Text.JoinLength | src/components/DataUploader.tsx:45 | the joined text is as long as all the names plus one separator between each two |
| Text.NatToString | src/components/DataCharts.tsx:348 | the decimal rendering of a whole number is non-empty, all digits, with no leading zero |
| Text.NatToStringRoundTrip | src/components/DataCharts.tsx:348 | reading the digits back gives the number |
| Text.StrLeTotal | src/components/DataTable.tsx:65-66 | any two strings are ordered one way or the other by `<` |
| Text.StrLeTransitive | src/components/DataTable.tsx:65-66 | string order is transitive |
| Text.StrLeAntisymmetric | src/components/DataTable.tsx:65-66 | strings ordered both ways are equal |
| AgeSort.Sort | src/context/DataContext.tsx:95 | `sort((a, b) => a - b)` is ascending and a permutation of its input |
| AgeSort.SortKeepsCounts | src/context/DataContext.tsx:95 | sorting keeps how many ages lie below, or at most at, any value |
| AgeSort.OrderStatistic | src/context/DataContext.tsx:100 | in a sorted list, at most k entries lie below entry k and at least k+1 are at most it |
| Statistics.ComputeAgeStats | src/context/DataContext.tsx:93-104 | missing + known ages = all records. All figures are 0 without known ages. Otherwise min and max bound every known age. The median is an upper median of the known ages. The average is the mean to two decimals |
| Statistics.UpperMedian | src/context/DataContext.tsx:99-101 | `sorted[floor(n/2)]` is a known age with at most n/2 ages below it and more than n/2 at most it |
| Statistics.SortedExtremes | src/context/DataContext.tsx:102-103 | the sorted list's ends are known ages bounding all the others |
| Statistics.UpdateDataStats | src/context/DataContext.tsx:85-135 | empty cleaned data leaves the summary as it was. Otherwise it gives: total = count; survival rate = survivors percentage; the age figures; male and female counts summing to at most the total; class counts summing to at most the total |
| Statistics.UpdateIsIdempotent | src/context/DataContext.tsx:85-135 | recomputing the summary from the same records changes nothing |
| Statistics.MedianBetweenExtremes | src/context/DataContext.tsx:99-103 | min ≤ median ≤ max |
| Embarkation.Codes | src/context/DataContext.tsx:157-161 | no tallied code is empty |
| Embarkation.PortPositions | src/context/DataContext.tsx:157-161 | the positions of exactly the records with a truthy port, strictly increasing |
| Embarkation.CodesArePorts | src/context/DataContext.tsx:157-161 | code `k` is the port of the `k`-th record with a truthy port, so the codes follow record order |
| Embarkation.CodesCounts | src/context/DataContext.tsx:157-161 | each non-empty code occurs among the codes once per record carrying it |
| Embarkation.Tally | src/context/DataContext.tsx:156-161 | the code counts form a well-formed insertion-ordered map |
| Embarkation.TallyCounts | src/context/DataContext.tsx:156-161 | the tally holds exactly the codes seen, each with its number of occurrences |
| Embarkation.TallyOrder | src/context/DataContext.tsx:166 | `Object.entries` lists codes in order of first appearance |
| Embarkation.BestIndex | src/context/DataContext.tsx:166-171 | the scan's winner has the highest count and beats every entry before it strictly |
| Embarkation.PickModeSpec | src/context/DataContext.tsx:163-171 | the scan keeps its default when no entry exceeds the starting maximum, and otherwise ends at the winning entry |
| Embarkation.ModeOfSpec | src/context/DataContext.tsx:163-171 | the mode is "S" when no code is seen. Otherwise it is a seen code whose count no code exceeds, and a code seen earlier has a strictly smaller count (first-seen wins ties) |
| Embarkation.ModeSpec | src/context/DataContext.tsx:154-171 | the same, stated over the records' code list; the fill value is never empty |
| Embarkation.ModeIsSomePort | src/context/DataContext.tsx:154-171 | "S" when no record has a truthy port, otherwise the port some record carries |
| Embarkation.PortBeaten | src/context/DataContext.tsx:154-171 | no record's port is carried by more records than the mode, and one seen before any record carrying the mode is carried by fewer |
| Embarkation.ModeOverRecords | src/context/DataContext.tsx:154-171 | the whole choice over the records: the default, a carried port, the highest record count, and the first-seen tie rule |
| Embarkation.FillPort | src/context/DataContext.tsx:173-177 | filling a port changes no other column |
| Embarkation.FillMissingEmbarked | src/context/DataContext.tsx:154-179 | every falsy port becomes the mode, every truthy port is kept, no other column changes, and no port is left falsy |
| Embarkation.CodesOnlyReadEmbarked | src/context/DataContext.tsx:154-171 | the mode depends on the port column alone, so the age stage before it cannot change it |
| Titles.RunEnd | src/context/DataContext.tsx:192 | the letter run from `i` is maximal |
| Titles.MatchesAtIsRegexMatch | src/context/DataContext.tsx:192 | the scan's test at `i` is exactly a match of `\b([A-Za-z]+)\.` at `i` |
| Titles.FindTitle | src/context/DataContext.tsx:192 | the scan returns the first matching position, or none when no position matches |
| Titles.RawTitleIsLeftmostMatch | src/context/DataContext.tsx:192-193 | the raw title is the capture of the leftmost regex match, or "Mr" when nothing matches |
| Titles.NormalizeTitle | src/context/DataContext.tsx:196-204 | the whole table, each category by the titles that give it: Mr and Master only from themselves, Miss exactly from Mlle, Ms and Miss, Mrs exactly from Mme and Mrs, Officer exactly from the five ranks, Other exactly from every title not listed |
| Titles.NormalizeTwice | src/context/DataContext.tsx:196-204 | normalising a category again keeps it, except Officer, which is not in the kept list and becomes Other |
| Titles.NormalizeNotIdempotent | src/context/DataContext.tsx:200-203 | normalising twice differs from once: Dr → Officer → Other |
| Titles.UsualNameTitle | src/context/DataContext.tsx:192 | a "Surname, Title. rest" name yields that title |
| Titles.TitleExampleMr | src/context/DataContext.tsx:192-204 | "Braund, Mr. Owen Harris" gets Mr |
| Titles.TitleExampleOfficer | src/context/DataContext.tsx:192-204 | "Minahan, Dr. William Edward" gets Officer |
| Cleaning.AgeFill | src/context/DataContext.tsx:142-147 | the fill age is a multiple of 0.1 within 0.05 of the mean known age, a half going away from zero |
| Cleaning.FillAge | src/context/DataContext.tsx:145-150 | filling an age changes no other column |
| Cleaning.FillMissingAges | src/context/DataContext.tsx:141-151 | every null age becomes the fill age, every known age is kept, no other column changes, and no age is left null |
| Cleaning.FillMissingAgesIdempotent | src/context/DataContext.tsx:141-151 | a second age pass changes nothing |
| Cleaning.AddFamilySize | src/context/DataContext.tsx:182-187 | every record gets FamilySize = SibSp + Parch + 1 and nothing else changes |
| Cleaning.ExtractTitles | src/context/DataContext.tsx:190-207 | every record gets the normalised title of its name, always a category, and nothing else changes |
| Cleaning.DerivedStagesIdempotent | src/context/DataContext.tsx:182-207 | re-deriving FamilySize or Title changes nothing |
| Cleaning.CleanData | src/context/DataContext.tsx:137-211 | the run keeps count and order. Each record is that record through the enabled stages, using the raw data's fill age and mode |
| Cleaning.CleanRecordSpec | src/context/DataContext.tsx:138-208 | each stage writes only its own column; a disabled stage leaves that column as it was |
| Cleaning.CleanDataSpec | src/context/DataContext.tsx:137-211 | with all options off the result is the raw data; each enabled stage leaves no null age, no falsy port or a category title |
| Cleaning.DefaultCleaningCompletes | src/context/DataContext.tsx:137-211 | with every option on, every record ends with an age, a port, a FamilySize and a Title |
| Cleaning.WorkedExample | src/context/DataContext.tsx:141-179 | ages 22, null, 38, 26 fill the null with 28.7; ports S, S, null, null fill with S |
| Store.UpdateForgetsPrior | src/context/DataContext.tsx:85-135 | for non-empty records the summary does not depend on the previous one |
| Store.Refresh | src/components/Dashboard.tsx:14-18 | the effect touches only the summary, does nothing without cleaned data and leaves the summary current |
| Store.RefreshIdempotent | src/components/Dashboard.tsx:14-18 | refreshing a current store changes nothing |
| Store.SetCleaned | src/context/DataContext.tsx:211 | setting cleaned data, then the refresh it triggers, keeps the raw data and leaves the summary current |
| Store.LoadRows | src/components/DataUploader.tsx:51-55 | a load puts the same rows in raw and cleaned data, records the name and ends loading |
| Store.CleanStore | src/context/DataContext.tsx:137-211 | cleaning keeps the raw data and name, makes the cleaned data the raw records through the enabled stages, one per raw record, with a current summary |
| Store.CleanStoreRepeatable | src/context/DataContext.tsx:137-211 | cleaning twice with the same options is the same as once |
| Charts.Tally | src/components/DataCharts.tsx:23-30 | each bucket gains the survivors and casualties the index sends to it; names are kept |
| Charts.TallyTotals | src/components/DataCharts.tsx:23-30 | the bars' totals grow by exactly the records placed in some bucket |
| Charts.BucketSplit | src/components/DataCharts.tsx:25-29 | a bucket's survivors plus casualties are the records sent to it |
| Charts.SurvivalByGender | src/components/DataCharts.tsx:18-30 | the Female bar counts "female" records, the Male bar counts all others |
| Charts.GenderBarsCoverData | src/components/DataCharts.tsx:18-30 | the Female bar holds the female count; both bars together hold every record; survivors across them are all survivors |
| Charts.SurvivalByClass | src/components/DataCharts.tsx:33-46 | bar k counts the records of class k+1 |
| Charts.ClassBarsCoverData | src/components/DataCharts.tsx:33-46 | each class bar holds its class count; all bars hold every record and every survivor |
| Charts.AgeIndexRange | src/components/DataCharts.tsx:62 | a non-negative age lands in bucket k exactly when it lies in [10k, 10k+10), or is ≥ 60 for the last |
| Charts.AgeGroups | src/components/DataCharts.tsx:49-68 | seven named buckets, each counting the known ages its decade receives |
| Charts.AgeBarsCoverAges | src/components/DataCharts.tsx:59-68 | the age bars hold every record with a known age, and no other |
| Charts.AgeGroupLabelMismatch | src/components/DataCharts.tsx:50-62 | age 10 lands under "11-20", age 20 under "21-30" and age 60 under "61+" |
| Charts.LabelledAgeIndexRange | src/components/DataCharts.tsx:50-56 | with the corrected index an age lands in bucket k exactly when it lies in the range the label names |
| Charts.LabelledAgeGroups | src/components/DataCharts.tsx:49-68 | the corrected buckets count the known ages their labels name |
| Charts.LabelledAgeBarsCoverAges | src/components/DataCharts.tsx:59-68 | the corrected bars also hold exactly the records with a known age |
| Charts.SurvivalRates | src/components/DataCharts.tsx:275-281 | each rate lies in [0, 100]; it is 0 exactly without survivors and 100 exactly with survivors and no deaths |
| Charts.ClassFaresMembers | src/components/DataCharts.tsx:304-306 | a class's fares are exactly the non-null fares of that class |
| Charts.SumFares | src/components/DataCharts.tsx:87-92 | each class cell holds the sum and the number of that class's non-null fares |
| Charts.FareByClass | src/components/DataCharts.tsx:81-98 | each class cell holds the count, and the mean to two decimals, or 0 without fares |
| Charts.MinOf | src/components/DataCharts.tsx:310 | `Math.min` of a non-empty list is a member bounding all the others from below |
| Charts.MaxOf | src/components/DataCharts.tsx:311 | `Math.max` of a non-empty list is a member bounding all the others from above |
| Charts.FareSpreadOf | src/components/DataCharts.tsx:303-314 | a class with fares gets min ≤ mean ≤ max of its fares, with min and max taken from them; a class without fares gets none |
| Charts.FareChartsAgree | src/components/DataCharts.tsx:94-98 | the bar chart's average is the spread chart's mean to two decimals |
| Charts.BandIndex | src/components/DataCharts.tsx:335-342 | every non-negative fare has a band among the ten |
| Charts.BandIndexUnique | src/components/DataCharts.tsx:336-341 | a non-negative fare lies in exactly one band; a negative fare lies in none |
| Charts.FareBand | src/components/DataCharts.tsx:338-350 | a band's count is its records; its rate lies in [0, 100], is 0 exactly when the band has no survivor and 100 exactly when every passenger in a non-empty band survived |
| Charts.NonEmptyRows | src/components/DataCharts.tsx:352 | dropping empty bands keeps every non-empty band and no empty one |
| Charts.NonEmptyRowsKeepOrder | src/components/DataCharts.tsx:352 | the kept bands are a subsequence of the input, in the same order |
| Charts.FareBandSeries | src/components/DataCharts.tsx:335-352 | the plotted series holds every band with records and only such bands, in ascending fare order as a subsequence of the ten bands |
| Charts.FareBandsPartition | src/components/DataCharts.tsx:335-352 | the ten bands' counts add up to the records with a non-negative fare |
| Charts.PieData | src/components/DataCharts.tsx:101-105 | the two slices are the survivors and the rest, adding up to every record |
| Charts.PieAgreesWithBars | src/components/DataCharts.tsx:101-105 | the pie's slices equal the gender bars' survivors and casualties |
| Charts.ScatterPoints | src/components/DataCharts.tsx:71-78 | one point per record with both an age and a fare, and every such record is plotted |
| Charts.ScatterPointsFromData | src/components/DataCharts.tsx:71-78 | every point is the point of some record with an age and a fare |
| Table.Fields | src/context/DataContext.tsx:4-18 | a row's fields list the twelve declared columns in order, then FamilySize when present and Title last when present, with no key twice |
| Table.FieldKeys | src/context/DataContext.tsx:4-18 | a row's keys are the twelve declared columns followed by the derived columns it carries, FamilySize before Title |
| Table.Lookup | src/components/DataTable.tsx:57-58 | `row[key]` is a cell the row holds under that key, or null when it has no such key |
| Table.LookupAt | src/components/DataTable.tsx:57-58 | with distinct keys, looking up a field's key gives that field's value |
| Table.Columns | src/components/DataTable.tsx:20-26 | no data gives no columns; otherwise the columns are the first row's keys except Ticket and Cabin, namely the ten shown declared columns in file order followed by the derived columns the first row carries |
| Table.ShownMembers | src/components/DataTable.tsx:22-25 | the column filter keeps exactly the keys other than Ticket and Cabin |
| Table.RawColumns | src/components/DataTable.tsx:20-26 | a freshly loaded first row gives the ten visible declared columns in order |
| Table.CleanedColumns | src/components/DataTable.tsx:20-26 | a first row carrying both derived columns, as default cleaning leaves it, gives the ten visible declared columns, then FamilySize, then Title |
| Table.AnyMatches | src/components/DataTable.tsx:46-50 | a row matches exactly when some field's value, as a string, contains the term |
| Table.Filter | src/components/DataTable.tsx:45 | the kept rows are the input's rows that pass, as many as pass |
| Table.FilterKeepsOrder | src/components/DataTable.tsx:45 | the kept rows are the input's rows at strictly increasing positions, so order is kept |
| Table.Search | src/components/DataTable.tsx:43-52 | an empty term keeps every row. Otherwise a row is kept exactly when some field's value contains the lower-cased term |
| Table.SearchFindsTicket | src/components/DataTable.tsx:43-52 | a term occurring in a row's ticket finds that row, even though the Ticket column is hidden |
| Table.SearchIgnoresTermCase | src/components/DataTable.tsx:44 | terms equal up to case give the same result |
| Table.FormatCell | src/components/DataTable.tsx:82-86 | null shows "—", a boolean shows Yes or No, a number its string, a string itself |
| Table.MissingValuesShowDash | src/components/DataTable.tsx:82-86 | a missing Age, Fare, Cabin, Embarked or Title shows "—" |
| TableSort.SourceCompareNullsInconsistent | src/components/DataTable.tsx:61 | as written, two nulls compare as less than each other in both orders |
| TableSort.Ascending | src/components/DataTable.tsx:61-67 | the ascending comparator gives -1, 0 or 1 and puts a null before any value |
| TableSort.Compare | src/components/DataTable.tsx:61-67 | nulls come first ascending and last descending; two nulls are equal |
| TableSort.CompareMatchesSource | src/components/DataTable.tsx:56-68 | unless both values are null, the corrected comparator answers as the code's does |
| TableSort.CompareConsistent | src/components/DataTable.tsx:56-68 | the corrected comparator is antisymmetric and transitive, and so is a consistent comparator |
| TableSort.InsertRow | src/components/DataTable.tsx:56 | inserting a row adds exactly that row |
| TableSort.InsertRowSorted | src/components/DataTable.tsx:56 | inserting into a sorted list keeps it sorted |
| TableSort.SortRows | src/components/DataTable.tsx:56-68 | the sort output is a permutation of its input |
| TableSort.SortRowsSorted | src/components/DataTable.tsx:55-69 | the sort output is ordered by the comparator on the chosen field |
| TableSort.InsertRowTies | src/components/DataTable.tsx:55-69 | an inserted row lands in front of the rows it ties with, and the other tied rows keep their order |
| TableSort.SortRowsStable | src/components/DataTable.tsx:55-69 | the sort is stable: for every value, the rows tying with it come out in their input order |
| TableSort.NullsAtTheEnds | src/components/DataTable.tsx:61-62 | after sorting, nulls precede values ascending and follow them descending |
| TableSort.AscendingOrdersValues | src/components/DataTable.tsx:65-66 | ascending, no value follows a smaller one |
| Paging.TotalPages | src/components/DataTable.tsx:75 | `ceil(n/10)`: the fewest pages of ten that hold n rows; zero exactly for no rows |
| Paging.SliceIndex | src/components/DataTable.tsx:78 | a slice bound is clamped to the length |
| Paging.Slice | src/components/DataTable.tsx:78 | `slice` with ordered bounds is the clamped subsequence |
| Paging.PageRows | src/components/DataTable.tsx:76-79 | page p holds rows (p-1)·10 to p·10, clamped, and at most ten |
| Paging.PageSizes | src/components/DataTable.tsx:75-79 | pages up to the last are non-empty, all pages before it are full, and pages past it are empty |
| Paging.RowIsOnItsPage | src/components/DataTable.tsx:75-79 | row i is entry i mod 10 of page i/10 + 1, which exists |
| Paging.PagesCoverRows | src/components/DataTable.tsx:75-79 | the pages, in order, are all the rows |
| Paging.ShowingMatchesPage | src/components/DataTable.tsx:165 | "Showing a to b" names exactly the rows on the page |
| Paging.PrevNextSpec | src/components/DataTable.tsx:169-199 | Prev and Next stay within 1..total. Each undoes the other away from the ends. Each is a no-op exactly at its end, where its button is disabled |
| Paging.Range | src/components/DataTable.tsx:175-181 | a run of consecutive page numbers |
| Paging.PageButtonsWindow | src/components/DataTable.tsx:175-196 | the buttons are consecutive pages around the current one: at most five, all in 1..total, and including the current page |
| TableView.HandleSort | src/components/DataTable.tsx:29-36 | clicking the sorted column flips the direction; another column becomes the sort field, ascending |
| TableView.HandleSortTwice | src/components/DataTable.tsx:29-36 | two clicks on the sorted column restore the state; two on another column give descending |
| TableView.SetSearch | src/components/DataTable.tsx:99-102 | typing sets the term and returns to page 1 |
| TableView.Visible | src/components/DataTable.tsx:39-72 | the displayed order is a permutation of the search result |
| TableView.VisibleSpec | src/components/DataTable.tsx:39-72 | the search result sorted on the chosen field, with the same rows, and rows tying on that field in search order |
| TableView.StepKeepsValid | src/components/DataTable.tsx:169-199 | the page controls, typing (which returns to page 1) and sorting (which keeps the page) never leave the current page outside 1..total (or 1 when nothing matches) |
| TableView.NoDataFoundExactlyWhenNoMatch | src/components/DataTable.tsx:134-156 | the page is empty, and "No data found" shows, exactly when nothing matches |
| Uploader.MissingMembers | src/components/DataUploader.tsx:39-42 | the missing columns are exactly the required ones the header lacks |
| Uploader.MissingKeepsOrder | src/components/DataUploader.tsx:39-42 | they are listed in the required list's order |
| Uploader.MissingColumns | src/components/DataUploader.tsx:39-44 | the list is empty exactly when the header has every required column |
| Uploader.Fail | src/components/DataUploader.tsx:17-67 | a failure shows its message, ends loading and changes nothing else |
| Uploader.ProcessFile | src/components/DataUploader.tsx:17-67 | loading always ends; the dashboard moves on exactly when no error is shown, and then with a current summary |
| Uploader.ProcessFileSpec | src/components/DataUploader.tsx:17-67 | the gates apply in order: type, parser error, first row error, missing columns. A rejected file leaves the data alone. An accepted one loads its rows as raw and cleaned data under its name |
| Uploader.OnlySexMissing | src/components/DataUploader.tsx:39-42 | a header without Sex lacks exactly ["Sex"] |
| Uploader.MissingSexColumn | src/components/DataUploader.tsx:44-45 | such a file shows "Missing required columns: Sex" |
| Uploader.HandleSampleData | src/components/DataUploader.tsx:96-129 | the fetched rows load under "titanic.csv (sample)" with no checks. A bad response or a rejection shows its message and leaves the data alone. Loading always ends |
| Cleaner.SetOption | src/components/DataCleaner.tsx:20-26 | a checkbox sets its own option and no other |
| Cleaner.SetOptionUndo | src/components/DataCleaner.tsx:20-26 | setting an option back restores the options; the last change to a box wins |
| Cleaner.CanCleanSpec | src/components/DataCleaner.tsx:193-196 | the Clean button is enabled exactly when some option is on, as it is by default |
| Cleaner.Missing | src/components/DataCleaner.tsx:37-39 | missing ages plus known ages are all records; missing ports plus the truthy port codes the mode reads are all records; each count is 0 exactly when every record has a known age, a non-empty port, a non-empty cabin respectively |
| Cleaner.PortsPartition | src/components/DataCleaner.tsx:38 | every record either has a falsy port or contributes one code to the mode's input |
| Cleaner.CleaningClearsMissing | src/components/DataCleaner.tsx:37-39 | after cleaning, no age is missing (with the age stage), no port is missing (with the port stage), and the missing cabins are unchanged |
| Cleaner.HandleCleanData | src/components/DataCleaner.tsx:28-30 | cleaning uses the current options on the raw data, keeps the options and shows the processed banner |
| Dashboard.Enter | src/components/Dashboard.tsx:35-40 | entering a tab mounts its component afresh, the explorer on its charts, and leaves the store alone |
| Dashboard.SetView | src/components/DataExplorer.tsx:8-42 | choosing the shown view changes nothing; switching views leaves the store and tab alone and restarts the table from its initial state |
| Dashboard.ViewSwitchResetsTable | src/components/DataExplorer.tsx:39-43 | table controls do nothing while the charts show, and a trip through the charts brings the table back sorted on PassengerId ascending with no search on page 1 |
| Dashboard.SelectTab | src/components/ui/Tabs.tsx:22 | a disabled tab cannot be chosen; an enabled one becomes active; the store never changes |
| Dashboard.InitialSpec | src/components/Dashboard.tsx:11-25 | the dashboard starts on Upload, with the other three tabs disabled and unreachable |
| Dashboard.StepKeepsInvariant | src/components/Dashboard.tsx:14-40 | every event keeps three things: raw and cleaned data of equal length, a current summary, and a table page that exists |
| Dashboard.WorkflowAdvances | src/components/Dashboard.tsx:36-37 | a successful upload or sample load moves to Clean with the new rows; pressing an enabled Clean moves to Explore with the cleaned rows; a disabled Clean does nothing |
| Dashboard.TabsEnabledTogether | src/components/Dashboard.tsx:22-24 | in every reachable state, Explore and Statistics are enabled exactly when Clean is |
| Dashboard.HeaderOnlyUploadOpensDisabledTab | src/components/Dashboard.tsx:22-36 | a valid header with no rows still moves to the Clean tab, which is disabled |

## Left out

**Runtime and I/O**
- CSV parsing, the sample fetch, the File and drag-and-drop APIs: these are foreign I/O. Their outcomes are inputs of the model: the header fields, rows and errors; a bad response, a rejection or the parsed rows.
- The 1.5-second `setTimeout` before `onSuccess`, and the `loading := true` and `error := null` at the start of an attempt: each attempt is one transition, so the transient states are not observable in the model.
- React scheduling, batching and context plumbing: the store is one explicit value, and the refresh effect runs as part of each transition that changes the cleaned data.
- Rendering (JSX, the charts library, icons, CSS), the statistics view, the header and footer: these are display only. The explorer's choice between table and charts is state, and is modelled (`Dashboard.SetView`).

**Numbers**
- IEEE-754 arithmetic: ages, fares, sums and means are exact reals. `toFixed` is modelled on exact reals, rounding the magnitude half up and keeping the sign. A decimal such as 1.005, which a double holds slightly below its written value, rounds up in the model.
- Cleaning.FillMissingAges: the requirement that some age is known whenever an age is null stands in for the NaN fill value the code would write when every age is null. The same requirement is carried by `Cleaning.CleanData`, `Store.CleanStore` and `Cleaner.HandleCleanData` when the age stage is on, and by `Dashboard.Step`, `Dashboard.StepKeepsInvariant` and `Dashboard.WorkflowAdvances` for an enabled Clean press.
- Charts.FareSpreadOf: a class without fares gets no entry, where the code plots `Infinity`, `-Infinity` and `NaN`.
- Charts.SurvivalByClass, Charts.AgeGroups, Charts.FareByClass: these require a class in 1..3 and non-negative ages. Outside those ranges the code writes to a missing bucket and throws.
- Number-to-string (`String(x)`): this is the parameter `show`. Search and cell formatting are stated for any rendering.

**Text**
- Text.Lower: ASCII letters only. Unicode case mapping is not modelled.

**Table**
- TableSort.Compare: values of different kinds (number against string) are ranked by kind. JavaScript's coercing `<` is not modelled. Numbers compare numerically. Strings compare character by character on Unicode code points, where JavaScript's `<` compares UTF-16 code units. The two orders differ only when a character above U+FFFF meets one in U+E000–U+FFFF: the code puts "😀" (surrogate 0xD83D) before "！" (U+FF01), the model after it.
- TableSort.SortRows: an insertion sort, proved stable (`TableSort.SortRowsStable`). Section 23.1.3.30 of ECMA-262 requires `Array.prototype.sort` to be stable whenever the comparator is consistent, so for the consistent comparator `TableSort.Compare` the model's order is the one the standard prescribes. The code's own comparator is inconsistent only for two nulls (second row of "## Findings"); for such input the standard leaves the order implementation-defined, and the model does not reproduce any engine's choice.
- Table.Fields: key order is the declared column order followed by FamilySize and Title. The header order of an arbitrary CSV file, and columns outside the declared record, are not modelled.

**Parsing and ports**
- Uploader.ProcessFile: the header list is always present. An absent `meta.fields`, which makes every required column missing, is not a separate case.
- Uploader.ProcessFile: accepted rows carry every declared column. The gate checks only PassengerId, Survived, Pclass, Name and Sex, so a file lacking Age, Fare, SibSp or Parch passes it. The code then reads `undefined`: `p.Age !== null` counts it as a known age, so the mean age is NaN and no age is reported missing; the age chart indexes a NaN bucket and throws; `p.Fare !== null` adds `undefined` to the fare sums. The model's absent value is `null` only, because those outcomes are not real numbers.
- Embarkation.Tally: codes are kept in first-seen order. JavaScript lists integer-like object keys first in numeric order; port codes are letters, so that rule is not modelled.

**Display**
- The missing-value percentages in the cleaning panel: display only. The counts behind them are modelled (`Cleaner.Missing`).

## Findings

| source | as written | input that shows it | evidently intended | confidence | as-written member | corrected member |
|---|---|---|---|---|---|---|
| src/components/DataCharts.tsx:50-62 | bucket `min(floor(age/10), 6)` under the labels 0-10, 11-20, …, 61+ | a passenger aged 10 is counted in the "11-20" bar; one aged 60 in "61+" | each age counted under the label that names it: 0-10, 11-20, …, 51-60, 61+ | not executed | Charts.AgeGroupLabelMismatch | Charts.LabelledAgeGroups |
| src/components/DataTable.tsx:61 | a null left value returns -1 ascending without looking at the right value | two rows with a null in the sort column: each compares as less than the other, so the comparator is inconsistent (section 23.1.3.30 of ECMA-262) and the order is implementation-defined | two nulls compare equal, nulls first ascending and last descending | not executed | TableSort.SourceCompareNullsInconsistent | TableSort.CompareConsistent |

=== FILE: charts.dfy ===
/** The chart series the dashboard draws from the cleaned records: survival
    by sex, by class and by age group, survival rate per age group, mean fare
    per class, the fare range per class, survival rate per fare band, the
    overall survival pie and the age/fare scatter points. */
module Charts {
  import opened Passengers
  import Numeric
  import Text

  /** One bar group: how many passengers of the group survived and died. */
  datatype Bucket = Bucket(name: string, survived: nat, died: nat)

  /** The passengers a bucket-filling pass counts as survivors of bucket `k`. */
  function Survivors(index: Passenger -> int, k: int): Passenger -> bool
  {
    p => index(p) == k && p.Survived == 1
  }

  /** The passengers a bucket-filling pass counts as deaths of bucket `k`. */
  function Casualties(index: Passenger -> int, k: int): Passenger -> bool
  {
    p => index(p) == k && p.Survived != 1
  }

  /** The passengers a pass assigns to bucket `k`. */
  function InBucket(index: Passenger -> int, k: int): Passenger -> bool
  {
    p => index(p) == k
  }

  /** The passengers a pass over `n` buckets assigns to some bucket. */
  function Placed(index: Passenger -> int, n: nat): Passenger -> bool
  {
    p => 0 <= index(p) < n
  }

  /** The survivors a pass over `n` buckets assigns to some bucket. */
  function PlacedSurvivor(index: Passenger -> int, n: nat): Passenger -> bool
  {
    p => 0 <= index(p) < n && p.Survived == 1
  }

  /** `data.forEach(p => buckets[index(p)].survived/died += 1)`, where a
      negative index is a record the pass skips. */
  function Tally(data: seq<Passenger>, index: Passenger -> int, init: seq<Bucket>): (r: seq<Bucket>)
    requires forall i :: 0 <= i < |data| ==> index(data[i]) < |init|
    ensures |r| == |init|
    ensures forall k :: 0 <= k < |r| ==> r[k].name == init[k].name
    ensures forall k :: 0 <= k < |r| ==>
      && r[k].survived == init[k].survived + Count(data, Survivors(index, k))
      && r[k].died == init[k].died + Count(data, Casualties(index, k))
    decreases |data|
  {
    if |data| == 0 then init
    else
      var r := Tally(data[..|data| - 1], index, init);
      var p := data[|data| - 1];
      var k := index(p);
      if k < 0 then r
      else if p.Survived == 1 then r[k := r[k].(survived := r[k].survived + 1)]
      else r[k := r[k].(died := r[k].died + 1)]
  }

  function SurvivedTotal(bs: seq<Bucket>): nat
    decreases |bs|
  {
    if |bs| == 0 then 0 else SurvivedTotal(bs[..|bs| - 1]) + bs[|bs| - 1].survived
  }

  function DiedTotal(bs: seq<Bucket>): nat
    decreases |bs|
  {
    if |bs| == 0 then 0 else DiedTotal(bs[..|bs| - 1]) + bs[|bs| - 1].died
  }

  lemma {:induction false} SurvivedTotalUpdate(bs: seq<Bucket>, k: nat, b: Bucket)
    requires k < |bs|
    ensures SurvivedTotal(bs[k := b]) + bs[k].survived == SurvivedTotal(bs) + b.survived
    decreases |bs|
  {
    if k < |bs| - 1 {
      assert bs[k := b][..|bs| - 1] == bs[..|bs| - 1][k := b];
      SurvivedTotalUpdate(bs[..|bs| - 1], k, b);
    } else {
      assert bs[k := b][..|bs| - 1] == bs[..|bs| - 1];
    }
  }

  lemma {:induction false} DiedTotalUpdate(bs: seq<Bucket>, k: nat, b: Bucket)
    requires k < |bs|
    ensures DiedTotal(bs[k := b]) + bs[k].died == DiedTotal(bs) + b.died
    decreases |bs|
  {
    if k < |bs| - 1 {
      assert bs[k := b][..|bs| - 1] == bs[..|bs| - 1][k := b];
      DiedTotalUpdate(bs[..|bs| - 1], k, b);
    } else {
      assert bs[k := b][..|bs| - 1] == bs[..|bs| - 1];
    }
  }

  /** Empty bars add up to nothing. */
  lemma {:induction false} TotalsOfEmpty(bs: seq<Bucket>)
    requires forall k :: 0 <= k < |bs| ==> bs[k].survived == 0 && bs[k].died == 0
    ensures SurvivedTotal(bs) == 0 && DiedTotal(bs) == 0
    decreases |bs|
  {
    if |bs| > 0 {
      TotalsOfEmpty(bs[..|bs| - 1]);
    }
  }

  lemma TotalsOfThree(bs: seq<Bucket>)
    requires |bs| == 3
    ensures SurvivedTotal(bs) == bs[0].survived + bs[1].survived + bs[2].survived
    ensures DiedTotal(bs) == bs[0].died + bs[1].died + bs[2].died
  {
    var b2 := bs[..2];
    var b1 := bs[..1];
    assert b2[..1] == b1 && b1[..0] == [];
    assert SurvivedTotal(b1) == bs[0].survived && DiedTotal(b1) == bs[0].died;
    assert SurvivedTotal(b2) == bs[0].survived + bs[1].survived;
    assert DiedTotal(b2) == bs[0].died + bs[1].died;
  }

  /** A pass adds one to the bars for every record it places: the survived
      bars grow by the placed survivors, all bars by the placed records. */
  lemma {:induction false} TallyTotals(data: seq<Passenger>, index: Passenger -> int, init: seq<Bucket>)
    requires forall i :: 0 <= i < |data| ==> index(data[i]) < |init|
    ensures SurvivedTotal(Tally(data, index, init)) == SurvivedTotal(init) + Count(data, PlacedSurvivor(index, |init|))
    ensures SurvivedTotal(Tally(data, index, init)) + DiedTotal(Tally(data, index, init))
      == SurvivedTotal(init) + DiedTotal(init) + Count(data, Placed(index, |init|))
    decreases |data|
  {
    if |data| > 0 {
      var init' := data[..|data| - 1];
      TallyTotals(init', index, init);
      var r := Tally(init', index, init);
      var p := data[|data| - 1];
      var k := index(p);
      if k >= 0 {
        if p.Survived == 1 {
          SurvivedTotalUpdate(r, k, r[k].(survived := r[k].survived + 1));
          DiedTotalUpdate(r, k, r[k].(survived := r[k].survived + 1));
        } else {
          SurvivedTotalUpdate(r, k, r[k].(died := r[k].died + 1));
          DiedTotalUpdate(r, k, r[k].(died := r[k].died + 1));
        }
      }
    }
  }

  /** Within one bucket, survivors and deaths are the bucket's records. */
  lemma {:induction false} BucketSplit(data: seq<Passenger>, index: Passenger -> int, k: int)
    ensures Count(data, Survivors(index, k)) + Count(data, Casualties(index, k)) == Count(data, InBucket(index, k))
    decreases |data|
  {
    if |data| > 0 {
      BucketSplit(data[..|data| - 1], index, k);
    }
  }

  // ----- survival by sex -----

  /** `p.Sex === 'female' ? 0 : 1`: every record that is not "female" is
      counted in the Male bar. */
  function GenderIndex(p: Passenger): int
  {
    if p.Sex == "female" then 0 else 1
  }

  function SurvivalByGender(data: seq<Passenger>): (r: seq<Bucket>)
    ensures |r| == 2 && r[0].name == "Female" && r[1].name == "Male"
    ensures r[0].survived == Count(data, Survivors(GenderIndex, 0))
    ensures r[0].died == Count(data, Casualties(GenderIndex, 0))
    ensures r[1].survived == Count(data, Survivors(GenderIndex, 1))
    ensures r[1].died == Count(data, Casualties(GenderIndex, 1))
  {
    Tally(data, GenderIndex, [Bucket("Female", 0, 0), Bucket("Male", 0, 0)])
  }

  /** The Female bars hold exactly the female passengers, the Male bars
      everyone else, and their survivors are all the survivors. */
  lemma {:induction false} GenderBarsCoverData(data: seq<Passenger>)
    ensures var r := SurvivalByGender(data);
      && r[0].survived + r[0].died == Count(data, IsFemale)
      && r[0].survived + r[0].died + r[1].survived + r[1].died == |data|
      && r[0].survived + r[1].survived == Count(data, IsSurvivor)
  {
    var init := [Bucket("Female", 0, 0), Bucket("Male", 0, 0)];
    var r := SurvivalByGender(data);
    BucketSplit(data, GenderIndex, 0);
    CountCongruent(data, InBucket(GenderIndex, 0), IsFemale);
    TallyTotals(data, GenderIndex, init);
    CountEvery(data, Placed(GenderIndex, 2));
    CountCongruent(data, PlacedSurvivor(GenderIndex, 2), IsSurvivor);
    assert SurvivedTotal(r) == r[0].survived + r[1].survived;
    assert DiedTotal(r) == r[0].died + r[1].died;
  }

  // ----- survival by class -----

  /** `p.Pclass - 1`. */
  function ClassIndex(p: Passenger): int
  {
    p.Pclass - 1
  }

  /** A class outside 1..3 indexes past the three bars and the pass throws,
      so every class must be 1, 2 or 3. */
  predicate ValidClasses(data: seq<Passenger>)
  {
    forall i :: 0 <= i < |data| ==> 1 <= data[i].Pclass <= 3
  }

  function SurvivalByClass(data: seq<Passenger>): (r: seq<Bucket>)
    requires ValidClasses(data)
    ensures |r| == 3 && r[0].name == "1st Class" && r[1].name == "2nd Class" && r[2].name == "3rd Class"
    ensures forall k :: 0 <= k < 3 ==>
      r[k].survived == Count(data, Survivors(ClassIndex, k)) && r[k].died == Count(data, Casualties(ClassIndex, k))
  {
    Tally(data, ClassIndex, [Bucket("1st Class", 0, 0), Bucket("2nd Class", 0, 0), Bucket("3rd Class", 0, 0)])
  }

  /** The class bars hold every passenger once, the bars of class `k + 1`
      exactly that class, and their survivors are all the survivors. */
  lemma {:induction false} ClassBarsCoverData(data: seq<Passenger>)
    requires ValidClasses(data)
    ensures var r := SurvivalByClass(data);
      && r[0].survived + r[0].died == Count(data, InFirstClass)
      && r[1].survived + r[1].died == Count(data, InSecondClass)
      && r[2].survived + r[2].died == Count(data, InThirdClass)
    ensures SurvivedTotal(SurvivalByClass(data)) + DiedTotal(SurvivalByClass(data)) == |data|
    ensures SurvivedTotal(SurvivalByClass(data)) == Count(data, IsSurvivor)
  {
    var init := [Bucket("1st Class", 0, 0), Bucket("2nd Class", 0, 0), Bucket("3rd Class", 0, 0)];
    var r := SurvivalByClass(data);
    BucketSplit(data, ClassIndex, 0);
    BucketSplit(data, ClassIndex, 1);
    BucketSplit(data, ClassIndex, 2);
    CountCongruent(data, InBucket(ClassIndex, 0), InFirstClass);
    CountCongruent(data, InBucket(ClassIndex, 1), InSecondClass);
    CountCongruent(data, InBucket(ClassIndex, 2), InThirdClass);
    TallyTotals(data, ClassIndex, init);
    CountEvery(data, Placed(ClassIndex, 3));
    CountCongruent(data, PlacedSurvivor(ClassIndex, 3), IsSurvivor);
    TotalsOfThree(init);
  }

  // ----- survival by age group -----

  /** `Math.min(Math.floor(age / 10), 6)`; records without an age are skipped. */
  function AgeIndex(p: Passenger): int
  {
    match p.Age
    case None => -1
    case Some(a) => if (a / 10.0).Floor >= 6 then 6 else (a / 10.0).Floor
  }

  /** A negative age indexes before the first bar and the pass throws. */
  predicate NonNegativeAges(data: seq<Passenger>)
  {
    forall i :: 0 <= i < |data| ==> data[i].Age.Some? ==> data[i].Age.value >= 0.0
  }

  const AgeGroupNames: seq<string> := ["0-10", "11-20", "21-30", "31-40", "41-50", "51-60", "61+"]

  function EmptyAgeGroups(): (bs: seq<Bucket>)
    ensures |bs| == 7
  {
    seq(7, k requires 0 <= k < 7 => Bucket(AgeGroupNames[k], 0, 0))
  }

  /** Group `k < 6` holds the ages in `[10k, 10k + 10)`, group 6 the ages
      from 60 up. */
  lemma AgeIndexRange(a: real, k: int)
    requires a >= 0.0
    ensures var g := AgeIndex(Passenger(0, 0, 0, "", "", Some(a), 0, 0, "", None, None, None, None, None));
      && 0 <= g < 7
      && (g == k <==> (0 <= k < 6 && (10 * k) as real <= a < (10 * k + 10) as real) || (k == 6 && a >= 60.0))
  {
  }

  function AgeGroups(data: seq<Passenger>): (r: seq<Bucket>)
    requires NonNegativeAges(data)
    ensures |r| == 7
    ensures forall k :: 0 <= k < 7 ==> r[k].name == AgeGroupNames[k]
    ensures forall k :: 0 <= k < 7 ==>
      r[k].survived == Count(data, Survivors(AgeIndex, k)) && r[k].died == Count(data, Casualties(AgeIndex, k))
  {
    Tally(data, AgeIndex, EmptyAgeGroups())
  }

  /** The age bars count every record with an age exactly once. */
  lemma {:induction false} AgeBarsCoverAges(data: seq<Passenger>)
    requires NonNegativeAges(data)
    ensures SurvivedTotal(AgeGroups(data)) + DiedTotal(AgeGroups(data)) == Count(data, HasAge)
  {
    var init := EmptyAgeGroups();
    TotalsOfEmpty(init);
    TallyTotals(data, AgeIndex, init);
    CountCongruent(data, Placed(AgeIndex, 7), HasAge);
  }

  /** An age exactly on a decade is counted in the group whose label starts
      one above it: age 10 goes to the "11-20" bars, age 20 to "21-30", and
      age 60 to "61+". */
  lemma AgeGroupLabelMismatch()
    ensures AgeIndex(Passenger(0, 0, 0, "", "", Some(10.0), 0, 0, "", None, None, None, None, None)) == 1
    ensures AgeGroupNames[1] == "11-20"
    ensures AgeIndex(Passenger(0, 0, 0, "", "", Some(20.0), 0, 0, "", None, None, None, None, None)) == 2
    ensures AgeGroupNames[2] == "21-30"
    ensures AgeIndex(Passenger(0, 0, 0, "", "", Some(60.0), 0, 0, "", None, None, None, None, None)) == 6
    ensures AgeGroupNames[6] == "61+"
  {
  }

  /** The group index the labels describe: "0-10" holds ages up to 10,
      "11-20" to "51-60" the ages in `(10k, 10k + 10]`, "61+" those above 60. */
  function LabelledAgeIndex(p: Passenger): int
  {
    match p.Age
    case None => -1
    case Some(a) =>
      if a <= 10.0 then 0
      else
        var up := -((-a / 10.0).Floor);
        if up - 1 >= 6 then 6 else up - 1
  }

  /** The corrected index puts every non-negative age in the group its label
      names: integer ages `10k + 1 .. 10k + 10` in group `k`. */
  lemma {:induction false} LabelledAgeIndexRange(a: real, k: int)
    requires a >= 0.0
    ensures var g := LabelledAgeIndex(Passenger(0, 0, 0, "", "", Some(a), 0, 0, "", None, None, None, None, None));
      && 0 <= g < 7
      && (g == k <==>
          (k == 0 && a <= 10.0)
          || (1 <= k < 6 && (10 * k) as real < a <= (10 * k + 10) as real)
          || (k == 6 && a > 60.0))
  {
    if a > 10.0 {
      var f := (-a / 10.0).Floor;
      assert f as real <= -a / 10.0 < f as real + 1.0;
    }
  }

  /** Survival by age group with the corrected index. */
  function LabelledAgeGroups(data: seq<Passenger>): (r: seq<Bucket>)
    ensures |r| == 7
    ensures forall k :: 0 <= k < 7 ==> r[k].name == AgeGroupNames[k]
    ensures forall k :: 0 <= k < 7 ==>
      r[k].survived == Count(data, Survivors(LabelledAgeIndex, k)) && r[k].died == Count(data, Casualties(LabelledAgeIndex, k))
  {
    Tally(data, LabelledAgeIndex, EmptyAgeGroups())
  }

  /** The corrected bars also count every record with an age exactly once,
      and need no precondition on the ages. */
  lemma {:induction false} LabelledAgeBarsCoverAges(data: seq<Passenger>)
    ensures SurvivedTotal(LabelledAgeGroups(data)) + DiedTotal(LabelledAgeGroups(data)) == Count(data, HasAge)
  {
    var init := EmptyAgeGroups();
    TotalsOfEmpty(init);
    TallyTotals(data, LabelledAgeIndex, init);
    CountCongruent(data, Placed(LabelledAgeIndex, 7), HasAge);
  }

  // ----- survival rate per age group -----

  /** One point of a rate line. */
  datatype RatePoint = RatePoint(name: string, rate: real)

  /** `total > 0 ? (survived / total) * 100 : 0` for every bar group. */
  function SurvivalRates(groups: seq<Bucket>): (r: seq<RatePoint>)
    ensures |r| == |groups|
    ensures forall k :: 0 <= k < |r| ==> r[k].name == groups[k].name && 0.0 <= r[k].rate <= 100.0
    ensures forall k :: 0 <= k < |r| ==> (r[k].rate == 0.0 <==> groups[k].survived == 0)
    ensures forall k :: 0 <= k < |r| ==> (r[k].rate == 100.0 <==> groups[k].survived > 0 && groups[k].died == 0)
  {
    seq(|groups|, k requires 0 <= k < |groups| =>
      RatePoint(groups[k].name, Numeric.Percent(groups[k].survived, groups[k].survived + groups[k].died)))
  }

  // ----- fares per class -----

  /** `data.filter(p => p.Pclass === c && p.Fare !== null).map(p => p.Fare)`. */
  function ClassFares(data: seq<Passenger>, c: int): (fs: seq<real>)
    ensures |fs| <= |data|
    decreases |data|
  {
    if |data| == 0 then []
    else
      var p := data[|data| - 1];
      var fs := ClassFares(data[..|data| - 1], c);
      if p.Pclass == c && p.Fare.Some? then fs + [p.Fare.value] else fs
  }

  /** The class's fares are exactly the known fares of its passengers. */
  lemma {:induction false} ClassFaresMembers(data: seq<Passenger>, c: int)
    ensures forall x :: x in ClassFares(data, c) <==>
      exists i :: 0 <= i < |data| && data[i].Pclass == c && data[i].Fare == Some(x)
    decreases |data|
  {
    if |data| > 0 {
      var init := data[..|data| - 1];
      ClassFaresMembers(init, c);
      assert forall i :: 0 <= i < |init| ==> init[i] == data[i];
    }
  }

  /** One bar of the mean-fare chart: a running sum, then the mean. */
  datatype FareCell = FareCell(name: string, value: real, count: nat)

  /** A known fare with a class outside 1..3 indexes past the three cells
      and the pass throws. */
  predicate FaresHaveClasses(data: seq<Passenger>)
  {
    forall i :: 0 <= i < |data| ==> data[i].Fare.Some? ==> 1 <= data[i].Pclass <= 3
  }

  const FareCellNames: seq<string> := ["Class 1", "Class 2", "Class 3"]

  /** The first `forEach`: each known fare is added to its class's cell. */
  function SumFares(data: seq<Passenger>): (r: seq<FareCell>)
    requires FaresHaveClasses(data)
    ensures |r| == 3
    ensures forall k :: 0 <= k < 3 ==>
      && r[k].name == FareCellNames[k]
      && r[k].value == Numeric.Sum(ClassFares(data, k + 1))
      && r[k].count == |ClassFares(data, k + 1)|
    decreases |data|
  {
    if |data| == 0 then [FareCell("Class 1", 0.0, 0), FareCell("Class 2", 0.0, 0), FareCell("Class 3", 0.0, 0)]
    else
      var init := data[..|data| - 1];
      var p := data[|data| - 1];
      var r := SumFares(init);
      if p.Fare.None? then r
      else
        var k := p.Pclass - 1;
        assert ClassFares(data, k + 1) == ClassFares(init, k + 1) + [p.Fare.value];
        Numeric.SumAppendOne(ClassFares(init, k + 1), p.Fare.value);
        r[k := r[k].(value := r[k].value + p.Fare.value, count := r[k].count + 1)]
  }

  /** `fareByClass`: the mean known fare of each class to two decimals, 0 for
      a class without a known fare, and how many fares it averages. */
  function FareByClass(data: seq<Passenger>): (r: seq<FareCell>)
    requires FaresHaveClasses(data)
    ensures |r| == 3
    ensures forall k :: 0 <= k < 3 ==>
      var fs := ClassFares(data, k + 1);
      && r[k].name == FareCellNames[k]
      && r[k].count == |fs|
      && r[k].value == (if |fs| > 0 then Numeric.Round(Numeric.Mean(fs), 100) else 0.0)
  {
    var sums := SumFares(data);
    seq(3, k requires 0 <= k < 3 =>
      if sums[k].count > 0 then sums[k].(value := Numeric.Round(sums[k].value / sums[k].count as real, 100)) else sums[k])
  }

  /** The smallest element of a non-empty sequence, `Math.min(...xs)`. */
  function MinOf(xs: seq<real>): (m: real)
    requires |xs| > 0
    ensures m in xs && forall i :: 0 <= i < |xs| ==> m <= xs[i]
    decreases |xs|
  {
    if |xs| == 1 then xs[0]
    else
      var m := MinOf(xs[..|xs| - 1]);
      assert forall i :: 0 <= i < |xs| - 1 ==> xs[..|xs| - 1][i] == xs[i];
      if xs[|xs| - 1] < m then xs[|xs| - 1] else m
  }

  /** The largest element of a non-empty sequence, `Math.max(...xs)`. */
  function MaxOf(xs: seq<real>): (m: real)
    requires |xs| > 0
    ensures m in xs && forall i :: 0 <= i < |xs| ==> xs[i] <= m
    decreases |xs|
  {
    if |xs| == 1 then xs[0]
    else
      var m := MaxOf(xs[..|xs| - 1]);
      assert forall i :: 0 <= i < |xs| - 1 ==> xs[..|xs| - 1][i] == xs[i];
      if xs[|xs| - 1] > m then xs[|xs| - 1] else m
  }

  /** One bar group of the fare-range chart. */
  datatype FareSpread = FareSpread(name: string, min: real, max: real, avg: real)

  /** The fare range of class `c`; `None` where a class has no known fare
      (the chart then shows the empty minimum, maximum and mean of JavaScript,
      which are not real numbers). */
  function FareSpreadOf(data: seq<Passenger>, c: int): (r: Option<FareSpread>)
    ensures r.None? <==> |ClassFares(data, c)| == 0
    ensures r.Some? ==>
      var fs := ClassFares(data, c);
      && r.value.min in fs && r.value.max in fs
      && (forall i :: 0 <= i < |fs| ==> r.value.min <= fs[i] <= r.value.max)
      && r.value.min <= r.value.avg <= r.value.max
      && r.value.avg == Numeric.Mean(fs)
  {
    var fs := ClassFares(data, c);
    if |fs| == 0 then None
    else
      var lo := MinOf(fs);
      var hi := MaxOf(fs);
      Numeric.MeanBounds(fs, lo, hi);
      Some(FareSpread("Class " + Text.NatToString(if c < 0 then 0 else c), lo, hi, Numeric.Sum(fs) / |fs| as real))
  }

  /** The two fare charts agree: the mean-fare bar is the range chart's mean
      rounded to cents, so it lies within half a cent of it. */
  lemma {:induction false} FareChartsAgree(data: seq<Passenger>, k: nat)
    requires FaresHaveClasses(data)
    requires k < 3
    requires FareSpreadOf(data, k + 1).Some?
    ensures var v := FareByClass(data)[k].value;
      var avg := FareSpreadOf(data, k + 1).value.avg;
      Numeric.HalfAway(avg, v, 0.005) && Numeric.OnGrid(v, 100)
  {
    var fs := ClassFares(data, k + 1);
    var m := Numeric.Mean(fs);
    assert |fs| > 0;
    assert FareByClass(data)[k].value == Numeric.Round(m, 100);
    assert FareSpreadOf(data, k + 1).value.avg == m;
    RoundToCents(m);
  }

  /** Rounding to cents stays within half a cent. */
  lemma RoundToCents(x: real)
    ensures Numeric.HalfAway(x, Numeric.Round(x, 100), 0.005) && Numeric.OnGrid(Numeric.Round(x, 100), 100)
  {
    assert 1.0 / (2 * 100) as real == 0.005;
  }

  // ----- survival rate per fare band -----

  /** Band `i` holds the fares in `[30i, 30i + 30)`; the last band, `i = 9`,
      has no upper bound. */
  predicate InBand(f: real, i: nat)
  {
    (30 * i) as real <= f && (i < 9 ==> f < (30 * i + 30) as real)
  }

  function InFareBand(i: nat): Passenger -> bool
  {
    (p: Passenger) => p.Fare.Some? && InBand(p.Fare.value, i)
  }

  function BandSurvivor(i: nat): Passenger -> bool
  {
    (p: Passenger) => p.Fare.Some? && InBand(p.Fare.value, i) && p.Survived == 1
  }

  predicate HasNonNegativeFare(p: Passenger)
  {
    p.Fare.Some? && p.Fare.value >= 0.0
  }

  /** The band a non-negative fare falls in. */
  function BandIndex(f: real): (i: nat)
    requires f >= 0.0
    ensures i < 10
  {
    var k := (f / 30.0).Floor;
    if k >= 9 then 9 else k
  }

  /** Every non-negative fare lies in exactly one of the ten bands, and a
      negative fare in none. */
  lemma BandIndexUnique(f: real, i: nat)
    requires i < 10
    ensures f >= 0.0 ==> (InBand(f, i) <==> i == BandIndex(f))
    ensures f < 0.0 ==> !InBand(f, i)
  {
  }

  /** One point of the fare-band line. */
  datatype BandRow = BandRow(name: string, rate: real, count: nat)

  /** `` i < 9 ? `$${30i}-${30i + 30}` : `$${30i}+` ``. */
  function BandName(i: nat): string
  {
    if i < 9 then "$" + Text.NatToString(30 * i) + "-" + Text.NatToString(30 * i + 30)
    else "$" + Text.NatToString(30 * i) + "+"
  }

  /** The band's passenger count and survival rate, filtered from the data. */
  function FareBand(data: seq<Passenger>, i: nat): (row: BandRow)
    ensures row.count == Count(data, InFareBand(i))
    ensures 0.0 <= row.rate <= 100.0
    ensures row.count == 0 ==> row.rate == 0.0
    ensures row.rate == 0.0 <==> Count(data, BandSurvivor(i)) == 0
    ensures row.rate == 100.0 <==> row.count > 0 && Count(data, BandSurvivor(i)) == row.count
  {
    var n := Count(data, InFareBand(i));
    BandSurvivorsInBand(data, i);
    BandRow(BandName(i), Numeric.Percent(Count(data, BandSurvivor(i)), n), n)
  }

  lemma {:induction false} BandSurvivorsInBand(data: seq<Passenger>, i: nat)
    ensures Count(data, BandSurvivor(i)) <= Count(data, InFareBand(i))
    decreases |data|
  {
    if |data| > 0 {
      BandSurvivorsInBand(data[..|data| - 1], i);
    }
  }

  /** `.filter(d => d.count > 0)`. */
  function NonEmptyRows(rows: seq<BandRow>): (r: seq<BandRow>)
    ensures |r| <= |rows|
    ensures forall k :: 0 <= k < |r| ==> r[k].count > 0 && r[k] in rows
    ensures forall k :: 0 <= k < |rows| && rows[k].count > 0 ==> rows[k] in r
    decreases |rows|
  {
    if |rows| == 0 then []
    else
      var rest := rows[1..];
      assert forall k :: 0 <= k < |rest| ==> rest[k] == rows[k + 1];
      (if rows[0].count > 0 then [rows[0]] else []) + NonEmptyRows(rest)
  }

  /** The filter keeps the rows it retains in their original order. */
  lemma {:induction false} NonEmptyRowsKeepOrder(rows: seq<BandRow>)
    ensures Subsequence(NonEmptyRows(rows), rows)
    decreases |rows|
  {
    if |rows| > 0 {
      var rest := NonEmptyRows(rows[1..]);
      NonEmptyRowsKeepOrder(rows[1..]);
      if rows[0].count > 0 {
        assert NonEmptyRows(rows) == [rows[0]] + rest;
        assert ([rows[0]] + rest)[1..] == rest;
      } else {
        assert NonEmptyRows(rows) == rest;
        if |rest| > 0 {
          assert rest[0].count > 0;
        }
      }
    }
  }

  /** `[...Array(10)].map((_, i) => ...)`: the ten bands in order. */
  function BandRows(data: seq<Passenger>): (rows: seq<BandRow>)
    ensures |rows| == 10
    ensures forall i :: 0 <= i < 10 ==> rows[i] == FareBand(data, i)
  {
    seq(10, i requires 0 <= i < 10 => FareBand(data, i))
  }

  /** The fare-band line: the bands that hold a passenger, and only those. */
  function FareBandSeries(data: seq<Passenger>): (r: seq<BandRow>)
    ensures |r| <= 10
    ensures forall k :: 0 <= k < |r| ==> r[k].count > 0 && r[k] in BandRows(data)
    ensures forall i :: 0 <= i < 10 && Count(data, InFareBand(i)) > 0 ==> BandRows(data)[i] in r
    ensures Subsequence(r, BandRows(data))
  {
    NonEmptyRowsKeepOrder(BandRows(data));
    NonEmptyRows(BandRows(data))
  }

  /** Total of the first `n` band counts. */
  function BandCountSum(data: seq<Passenger>, n: nat): nat
  {
    if n == 0 then 0 else BandCountSum(data, n - 1) + Count(data, InFareBand(n - 1))
  }

  /** How many of the first `n` bands hold `p`. */
  function BandsHolding(p: Passenger, n: nat): nat
  {
    if n == 0 then 0 else BandsHolding(p, n - 1) + (if InFareBand(n - 1)(p) then 1 else 0)
  }

  lemma {:induction false} BandsHoldingBelow(p: Passenger, n: nat)
    requires n <= 10
    ensures BandsHolding(p, n) == (if HasNonNegativeFare(p) && BandIndex(p.Fare.value) < n then 1 else 0)
  {
    if n > 0 {
      BandsHoldingBelow(p, n - 1);
      if p.Fare.Some? {
        BandIndexUnique(p.Fare.value, n - 1);
      }
    }
  }

  lemma {:induction false} BandCountSumStep(data: seq<Passenger>, n: nat)
    requires |data| > 0
    ensures BandCountSum(data, n) == BandCountSum(data[..|data| - 1], n) + BandsHolding(data[|data| - 1], n)
  {
    if n > 0 {
      BandCountSumStep(data, n - 1);
    }
  }

  /** The ten bands partition the passengers with a non-negative known fare:
      their counts add up to exactly that number of passengers. */
  lemma {:induction false} FareBandsPartition(data: seq<Passenger>)
    ensures BandCountSum(data, 10) == Count(data, HasNonNegativeFare)
    decreases |data|
  {
    if |data| == 0 {
      BandCountSumEmpty(data, 10);
    } else {
      FareBandsPartition(data[..|data| - 1]);
      BandCountSumStep(data, 10);
      BandsHoldingBelow(data[|data| - 1], 10);
    }
  }

  lemma {:induction false} BandCountSumEmpty(data: seq<Passenger>, n: nat)
    requires |data| == 0
    ensures BandCountSum(data, n) == 0
  {
    if n > 0 {
      BandCountSumEmpty(data, n - 1);
    }
  }

  // ----- overall survival pie -----

  datatype PieSlice = PieSlice(name: string, value: nat)

  function PieData(data: seq<Passenger>): (r: seq<PieSlice>)
    ensures |r| == 2 && r[0].name == "Survived" && r[1].name == "Did Not Survive"
    ensures r[0].value == Count(data, IsSurvivor)
    ensures r[0].value + r[1].value == |data|
  {
    var survived := Count(data, IsSurvivor);
    [PieSlice("Survived", survived), PieSlice("Did Not Survive", |data| - survived)]
  }

  /** The pie and the bar charts count the same survivors and deaths. */
  lemma {:induction false} PieAgreesWithBars(data: seq<Passenger>)
    ensures var pie := PieData(data);
      var bars := SurvivalByGender(data);
      && pie[0].value == bars[0].survived + bars[1].survived
      && pie[1].value == bars[0].died + bars[1].died
  {
    GenderBarsCoverData(data);
  }

  // ----- age/fare scatter -----

  datatype ScatterPoint = ScatterPoint(age: real, fare: real, pclass: int, survived: bool)

  predicate HasAgeAndFare(p: Passenger)
  {
    p.Age.Some? && p.Fare.Some?
  }

  function PointOf(p: Passenger): ScatterPoint
    requires HasAgeAndFare(p)
  {
    ScatterPoint(p.Age.value, p.Fare.value, p.Pclass, p.Survived == 1)
  }

  /** `validData.map(...)`: one point per record with both an age and a fare. */
  function ScatterPoints(data: seq<Passenger>): (r: seq<ScatterPoint>)
    ensures |r| == Count(data, HasAgeAndFare)
    ensures forall i :: 0 <= i < |data| && HasAgeAndFare(data[i]) ==> PointOf(data[i]) in r
    decreases |data|
  {
    if |data| == 0 then []
    else
      var init := data[..|data| - 1];
      var p := data[|data| - 1];
      assert forall i :: 0 <= i < |init| ==> init[i] == data[i];
      var r := ScatterPoints(init);
      if HasAgeAndFare(p) then
        var r' := r + [PointOf(p)];
        assert forall k :: 0 <= k < |r| ==> r'[k] == r[k];
        r'
      else r
  }

  /** Every point is the point of some record having both values. */
  lemma {:induction false} ScatterPointsFromData(data: seq<Passenger>)
    ensures forall k :: 0 <= k < |ScatterPoints(data)| ==>
      exists i :: 0 <= i < |data| && HasAgeAndFare(data[i]) && ScatterPoints(data)[k] == PointOf(data[i])
    decreases |data|
  {
    if |data| > 0 {
      var init := data[..|data| - 1];
      var n := |data| - 1;
      ScatterPointsFromData(init);
      var r := ScatterPoints(init);
      var out := ScatterPoints(data);
      assert out == if HasAgeAndFare(data[n]) then r + [PointOf(data[n])] else r;
      forall k | 0 <= k < |out|
        ensures exists i :: 0 <= i < |data| && HasAgeAndFare(data[i]) && out[k] == PointOf(data[i])
      {
        if k < |r| {
          assert out[k] == r[k];
          var i :| 0 <= i < |init| && HasAgeAndFare(init[i]) && r[k] == PointOf(init[i]);
          assert data[i] == init[i];
        } else {
          assert HasAgeAndFare(data[n]) && out[k] == PointOf(data[n]);
        }
      }
    } else {
      assert ScatterPoints(data) == [];
    }
  }
}

=== FILE: cleaner.dfy ===
/** The cleaning step's panel: the four option checkboxes, the Clean button
    and its enable condition, and the missing-value counts shown for the raw
    records. */
module Cleaner {
  import opened Passengers
  import Embarkation
  import Cleaning
  import Store

  /** The checkboxes, by their `name` attribute. */
  datatype OptionName = FillMissingAges | FillMissingEmbarked | AddFamilySize | ExtractTitle

  /** Every option starts checked. */
  const DefaultOptions := Cleaning.CleaningOptions(true, true, true, true)

  function Get(o: Cleaning.CleaningOptions, n: OptionName): bool
  {
    match n
    case FillMissingAges => o.fillMissingAges
    case FillMissingEmbarked => o.fillMissingEmbarked
    case AddFamilySize => o.addFamilySize
    case ExtractTitle => o.extractTitle
  }

  /** `handleOptionChange`: `{...prev, [name]: checked}`. */
  function SetOption(o: Cleaning.CleaningOptions, n: OptionName, checked: bool): (r: Cleaning.CleaningOptions)
    ensures Get(r, n) == checked
    ensures forall m :: m != n ==> Get(r, m) == Get(o, m)
  {
    match n
    case FillMissingAges => o.(fillMissingAges := checked)
    case FillMissingEmbarked => o.(fillMissingEmbarked := checked)
    case AddFamilySize => o.(addFamilySize := checked)
    case ExtractTitle => o.(extractTitle := checked)
  }

  /** Options are determined by their four values. */
  lemma {:induction false} OptionsByValues(a: Cleaning.CleaningOptions, b: Cleaning.CleaningOptions)
    requires forall n :: Get(a, n) == Get(b, n)
    ensures a == b
  {
    assert Get(a, FillMissingAges) == Get(b, FillMissingAges);
    assert Get(a, FillMissingEmbarked) == Get(b, FillMissingEmbarked);
    assert Get(a, AddFamilySize) == Get(b, AddFamilySize);
    assert Get(a, ExtractTitle) == Get(b, ExtractTitle);
  }

  /** Unticking what was just ticked (or the reverse) restores the options;
      a second change to the same box overrides the first. */
  lemma SetOptionUndo(o: Cleaning.CleaningOptions, n: OptionName, checked: bool, again: bool)
    ensures SetOption(SetOption(o, n, checked), n, Get(o, n)) == o
    ensures SetOption(SetOption(o, n, checked), n, again) == SetOption(o, n, again)
  {
    OptionsByValues(SetOption(SetOption(o, n, checked), n, Get(o, n)), o);
    OptionsByValues(SetOption(SetOption(o, n, checked), n, again), SetOption(o, n, again));
  }

  /** `Object.values(options).some(Boolean)`. */
  predicate CanClean(o: Cleaning.CleaningOptions)
  {
    o.fillMissingAges || o.fillMissingEmbarked || o.addFamilySize || o.extractTitle
  }

  /** The Clean button is enabled exactly when some box is ticked; with the
      defaults it is. */
  lemma CanCleanSpec(o: Cleaning.CleaningOptions)
    ensures CanClean(o) <==> exists n :: Get(o, n)
    ensures CanClean(DefaultOptions)
  {
    if CanClean(o) {
      if o.fillMissingAges { assert Get(o, FillMissingAges); }
      else if o.fillMissingEmbarked { assert Get(o, FillMissingEmbarked); }
      else if o.addFamilySize { assert Get(o, AddFamilySize); }
      else { assert Get(o, ExtractTitle); }
    }
  }

  predicate LacksCabin(p: Passenger) { Embarkation.IsFalsy(p.Cabin) }

  predicate LacksPort(p: Passenger) { Embarkation.IsFalsy(p.Embarked) }

  datatype MissingCounts = MissingCounts(ages: nat, embarked: nat, cabins: nat)

  /** Every record either lacks a port or contributes one code to the
      mode's input. */
  lemma {:induction false} PortsPartition(rs: seq<Passenger>)
    ensures Count(rs, LacksPort) + |Embarkation.Codes(rs)| == |rs|
    decreases |rs|
  {
    if |rs| > 0 {
      PortsPartition(rs[..|rs| - 1]);
    }
  }

  /** The panel's counts: ages strictly null, ports and cabins falsy.  The
      records with a known age and those with a truthy port are the rest. */
  function Missing(rs: seq<Passenger>): (m: MissingCounts)
    ensures m.ages + |ValidAges(rs)| == |rs|
    ensures m.embarked + |Embarkation.Codes(rs)| == |rs|
    ensures m.cabins <= |rs|
    ensures m.ages == 0 <==> forall i :: 0 <= i < |rs| ==> rs[i].Age.Some?
    ensures m.embarked == 0 <==>
      forall i :: 0 <= i < |rs| ==> rs[i].Embarked.Some? && rs[i].Embarked.value != ""
    ensures m.cabins == 0 <==>
      forall i :: 0 <= i < |rs| ==> rs[i].Cabin.Some? && rs[i].Cabin.value != ""
  {
    AgesPartition(rs);
    PortsPartition(rs);
    CountZero(rs, LacksAge);
    CountZero(rs, LacksPort);
    CountZero(rs, LacksCabin);
    MissingCounts(Count(rs, LacksAge), Count(rs, LacksPort), Count(rs, LacksCabin))
  }

  /** After cleaning, the filled columns have nothing missing and the
      cabins, which no stage touches, are missing as often as before. */
  lemma {:induction false} CleaningClearsMissing(raw: seq<Passenger>, opts: Cleaning.CleaningOptions)
    requires opts.fillMissingAges ==> Cleaning.AgeFillDefined(raw)
    ensures opts.fillMissingAges ==> Missing(Cleaning.CleanData(raw, opts)).ages == 0
    ensures opts.fillMissingEmbarked ==> Missing(Cleaning.CleanData(raw, opts)).embarked == 0
    ensures Missing(Cleaning.CleanData(raw, opts)).cabins == Missing(raw).cabins
    ensures !opts.fillMissingAges ==> Missing(Cleaning.CleanData(raw, opts)).ages == Missing(raw).ages
  {
    var r := Cleaning.CleanData(raw, opts);
    Cleaning.CleanDataSpec(raw, opts);
    CountZero(r, LacksAge);
    CountZero(r, LacksPort);
    forall i | 0 <= i < |raw|
      ensures r[i].Cabin == raw[i].Cabin
      ensures !opts.fillMissingAges ==> r[i].Age == raw[i].Age
    {
      Cleaning.CleanRecordSpec(raw[i], Cleaning.AgeFillOr0(raw), Embarkation.Mode(raw), opts);
    }
    CountPointwise(r, raw, LacksCabin);
    if !opts.fillMissingAges {
      CountPointwise(r, raw, LacksAge);
    }
  }

  /** The panel's own state: the options and whether cleaning has run. */
  datatype CleanerState = CleanerState(options: Cleaning.CleaningOptions, isProcessed: bool)

  const InitialCleaner := CleanerState(DefaultOptions, false)

  /** `handleCleanData`: clean the store's raw records with the current
      options and show the processed banner. */
  function HandleCleanData(s: Store.Store, c: CleanerState): (r: (Store.Store, CleanerState))
    requires c.options.fillMissingAges ==> Cleaning.AgeFillDefined(s.rawData)
    ensures r.0.rawData == s.rawData && r.0.cleanedData == Cleaning.CleanData(s.rawData, c.options)
    ensures r.0.fileName == s.fileName && Store.StatsCurrent(r.0)
    ensures r.1.options == c.options && r.1.isProcessed
  {
    (Store.CleanStore(s, c.options), c.(isProcessed := true))
  }
}

=== FILE: cleaning.dfy ===
/** `cleanData`: four optional stages applied in a fixed order to a copy of
    the raw records: fill null ages with the rounded mean age, fill falsy
    embarkation codes with the most common code, attach FamilySize, attach
    the normalised Title. */
module Cleaning {
  import opened Passengers
  import Numeric
  import Embarkation
  import Titles

  datatype CleaningOptions = CleaningOptions(
    fillMissingAges: bool,
    fillMissingEmbarked: bool,
    addFamilySize: bool,
    extractTitle: bool)

  /** The age stage has a number to write: no age is null, or some age is
      known.  (With every age null the mean is 0/0, which is NaN.) */
  predicate AgeFillDefined(rs: seq<Passenger>)
  {
    Count(rs, LacksAge) == 0 || |ValidAges(rs)| > 0
  }

  /** `parseFloat(avgAge.toFixed(1))`: the mean known age to one decimal. */
  function AgeFill(rs: seq<Passenger>): (v: real)
    requires |ValidAges(rs)| > 0
    ensures Numeric.OnGrid(v, 10)
    ensures Numeric.HalfAway(Numeric.Mean(ValidAges(rs)), v, 0.05)
  {
    var v := Numeric.Round(Numeric.Mean(ValidAges(rs)), 10);
    assert 1.0 / (2 * 10) as real == 0.05;
    v
  }

  /** The age fill value where one exists; it is never written otherwise. */
  function AgeFillOr0(rs: seq<Passenger>): real
  {
    if |ValidAges(rs)| > 0 then AgeFill(rs) else 0.0
  }

  /** One record of the age stage: a null age becomes `fill`. */
  function FillAge(p: Passenger, fill: real): (q: Passenger)
    ensures q.(Age := p.Age) == p
  {
    if p.Age.None? then p.(Age := Some(fill)) else p
  }

  /** The age stage: null ages become the fill value, nothing else changes. */
  function FillMissingAges(rs: seq<Passenger>): (r: seq<Passenger>)
    requires AgeFillDefined(rs)
    ensures |r| == |rs|
    ensures forall i :: 0 <= i < |rs| ==> r[i] == FillAge(rs[i], AgeFillOr0(rs))
    ensures forall i :: 0 <= i < |rs| ==> r[i].(Age := rs[i].Age) == rs[i]
    ensures forall i :: 0 <= i < |rs| && rs[i].Age.Some? ==> r[i].Age == rs[i].Age
    ensures forall i :: 0 <= i < |rs| && rs[i].Age.None? ==>
      |ValidAges(rs)| > 0 && r[i].Age == Some(AgeFill(rs))
    ensures forall i :: 0 <= i < |r| ==> r[i].Age.Some?
  {
    CountZero(rs, LacksAge);
    var fill := AgeFillOr0(rs);
    seq(|rs|, i requires 0 <= i < |rs| => FillAge(rs[i], fill))
  }

  /** Filling twice is filling once: after the first pass no age is null. */
  lemma FillMissingAgesIdempotent(rs: seq<Passenger>)
    requires AgeFillDefined(rs)
    ensures AgeFillDefined(FillMissingAges(rs))
    ensures FillMissingAges(FillMissingAges(rs)) == FillMissingAges(rs)
  {
    var r := FillMissingAges(rs);
    CountZero(r, LacksAge);
  }

  /** One record of the family-size stage: the passenger plus siblings,
      spouses, parents and children aboard. */
  function WithFamilySize(p: Passenger): (q: Passenger)
    ensures q.(FamilySize := p.FamilySize) == p
  {
    p.(FamilySize := Some(p.SibSp + p.Parch + 1))
  }

  /** The family-size stage: `FamilySize = SibSp + Parch + 1` on every record. */
  function AddFamilySize(rs: seq<Passenger>): (r: seq<Passenger>)
    ensures |r| == |rs|
    ensures forall i :: 0 <= i < |rs| ==> r[i] == WithFamilySize(rs[i])
    ensures forall i :: 0 <= i < |rs| ==> r[i].(FamilySize := rs[i].FamilySize) == rs[i]
    ensures forall i :: 0 <= i < |rs| ==> r[i].FamilySize == Some(rs[i].SibSp + rs[i].Parch + 1)
  {
    seq(|rs|, i requires 0 <= i < |rs| => WithFamilySize(rs[i]))
  }

  /** One record of the title stage. */
  function WithTitle(p: Passenger): (q: Passenger)
    ensures q.(Title := p.Title) == p
  {
    p.(Title := Some(Titles.TitleOf(p.Name)))
  }

  /** The title stage: `Title` is the normalised title of the record's name. */
  function ExtractTitles(rs: seq<Passenger>): (r: seq<Passenger>)
    ensures |r| == |rs|
    ensures forall i :: 0 <= i < |rs| ==> r[i] == WithTitle(rs[i])
    ensures forall i :: 0 <= i < |rs| ==> r[i].(Title := rs[i].Title) == rs[i]
    ensures forall i :: 0 <= i < |rs| ==> r[i].Title == Some(Titles.TitleOf(rs[i].Name))
    ensures forall i :: 0 <= i < |rs| ==> Titles.IsCategory(r[i].Title.value)
  {
    seq(|rs|, i requires 0 <= i < |rs| => WithTitle(rs[i]))
  }

  /** The derived columns are computed from source columns they never
      overwrite, so re-deriving them changes nothing. */
  lemma DerivedStagesIdempotent(rs: seq<Passenger>)
    ensures AddFamilySize(AddFamilySize(rs)) == AddFamilySize(rs)
    ensures ExtractTitles(ExtractTitles(rs)) == ExtractTitles(rs)
  {
  }

  /** One record through the four stages, given the two data-wide fill values. */
  function CleanRecord(p: Passenger, ageFill: real, port: string, opts: CleaningOptions): Passenger
  {
    var a := if opts.fillMissingAges then FillAge(p, ageFill) else p;
    var b := if opts.fillMissingEmbarked then Embarkation.FillPort(a, port) else a;
    var c := if opts.addFamilySize then WithFamilySize(b) else b;
    if opts.extractTitle then WithTitle(c) else c
  }

  /** The whole cleaning run: record by record, it is `CleanRecord` with the
      mean known age and the most common code of the raw data; the
      embarkation stage runs after the age stage but sees the same codes. */
  function CleanData(raw: seq<Passenger>, opts: CleaningOptions): (r: seq<Passenger>)
    requires opts.fillMissingAges ==> AgeFillDefined(raw)
    ensures |r| == |raw|
    ensures forall i :: 0 <= i < |raw| ==>
      r[i] == CleanRecord(raw[i], AgeFillOr0(raw), Embarkation.Mode(raw), opts)
  {
    var fill := AgeFillOr0(raw);
    var port := Embarkation.Mode(raw);
    var a := if opts.fillMissingAges then FillMissingAges(raw) else raw;
    Embarkation.CodesOnlyReadEmbarked(a, raw);
    var b := if opts.fillMissingEmbarked then Embarkation.FillMissingEmbarked(a) else a;
    var c := if opts.addFamilySize then AddFamilySize(b) else b;
    var d := if opts.extractTitle then ExtractTitles(c) else c;
    d
  }

  /** What the four stages do to one record: each enabled stage leaves its
      guarantee, each disabled stage leaves its column as it was, and no
      stage touches a column other than its own. */
  lemma CleanRecordSpec(p: Passenger, fill: real, port: string, opts: CleaningOptions)
    ensures var q := CleanRecord(p, fill, port, opts);
      && q.(Age := p.Age, Embarked := p.Embarked, FamilySize := p.FamilySize, Title := p.Title) == p
      && q.Age == (if opts.fillMissingAges && p.Age.None? then Some(fill) else p.Age)
      && q.Embarked == (if opts.fillMissingEmbarked && Embarkation.IsFalsy(p.Embarked) then Some(port) else p.Embarked)
      && q.FamilySize == (if opts.addFamilySize then Some(p.SibSp + p.Parch + 1) else p.FamilySize)
      && q.Title == (if opts.extractTitle then Some(Titles.TitleOf(p.Name)) else p.Title)
  {
  }

  /** The stages' guarantees over the whole data set: with the age stage no
      age is null, with the embarkation stage no code is falsy, with the
      title stage every title is a category; all options off is the identity. */
  lemma {:induction false} CleanDataSpec(raw: seq<Passenger>, opts: CleaningOptions)
    requires opts.fillMissingAges ==> AgeFillDefined(raw)
    ensures !opts.fillMissingAges && !opts.fillMissingEmbarked && !opts.addFamilySize && !opts.extractTitle ==>
      CleanData(raw, opts) == raw
    ensures opts.fillMissingAges ==> forall i :: 0 <= i < |raw| ==> CleanData(raw, opts)[i].Age.Some?
    ensures opts.fillMissingEmbarked ==> forall i :: 0 <= i < |raw| ==> !Embarkation.IsFalsy(CleanData(raw, opts)[i].Embarked)
    ensures opts.extractTitle ==> forall i :: 0 <= i < |raw| ==> Titles.IsCategory(CleanData(raw, opts)[i].Title.value)
  {
    var r := CleanData(raw, opts);
    var port := Embarkation.Mode(raw);
    Embarkation.ModeSpec(raw);
    forall i | 0 <= i < |raw|
      ensures !opts.fillMissingAges && !opts.fillMissingEmbarked && !opts.addFamilySize && !opts.extractTitle ==> r[i] == raw[i]
      ensures opts.fillMissingAges ==> r[i].Age.Some?
      ensures opts.fillMissingEmbarked ==> !Embarkation.IsFalsy(r[i].Embarked)
      ensures opts.extractTitle ==> Titles.IsCategory(r[i].Title.value)
    {
      CleanRecordSpec(raw[i], AgeFillOr0(raw), port, opts);
    }
  }

  /** With the default options every stage runs: no age is null, no code is
      falsy, and every record carries FamilySize and a title category. */
  lemma DefaultCleaningCompletes(raw: seq<Passenger>)
    requires AgeFillDefined(raw)
    ensures var r := CleanData(raw, CleaningOptions(true, true, true, true));
      forall i :: 0 <= i < |r| ==>
        r[i].Age.Some? && !Embarkation.IsFalsy(r[i].Embarked) && r[i].FamilySize.Some? && r[i].Title.Some?
  {
    CleanDataSpec(raw, CleaningOptions(true, true, true, true));
  }

  /** Four records with ages 22, null, 38, 26 and ports S, S, null, null. */
  const Alice := Passenger(1, 0, 3, "Braund, Mr. Owen Harris", "male", Some(22.0), 1, 0, "A/5 21171", Some(7.25), None, Some("S"), None, None)
  const Beth := Passenger(2, 1, 1, "Cumings, Mrs. John Bradley", "female", None, 1, 0, "PC 17599", Some(71.2833), Some("C85"), Some("S"), None, None)
  const Carol := Passenger(3, 1, 3, "Heikkinen, Miss. Laina", "female", Some(38.0), 0, 0, "STON/O2. 3101282", Some(7.925), None, None, None, None)
  const Dora := Passenger(4, 1, 1, "Futrelle, Mrs. Jacques Heath", "female", Some(26.0), 1, 0, "113803", Some(53.1), Some("C123"), None, None, None)
  const Sample := [Alice, Beth, Carol, Dora]

  lemma SamplePrefixes()
    ensures Sample[..3] == [Alice, Beth, Carol] && [Alice, Beth, Carol][..2] == [Alice, Beth]
    ensures [Alice, Beth][..1] == [Alice] && [Alice][..0] == []
  {
  }

  /** The sample's known ages, in record order. */
  lemma SampleAges()
    ensures ValidAges(Sample) == [22.0, 38.0, 26.0]
  {
    SamplePrefixes();
    assert ValidAges([Alice]) == [22.0];
    assert ValidAges([Alice, Beth]) == [22.0];
    assert ValidAges([Alice, Beth, Carol]) == [22.0, 38.0];
  }

  /** The sample's non-empty port codes, in record order. */
  lemma SampleCodes()
    ensures Embarkation.Codes(Sample) == ["S", "S"]
  {
    SamplePrefixes();
    assert Embarkation.Codes([Alice]) == ["S"];
    assert Embarkation.Codes([Alice, Beth]) == ["S", "S"];
    assert Embarkation.Codes([Alice, Beth, Carol]) == ["S", "S"];
  }

  /** On the four sample records the missing age becomes 28.7 (the mean
      28.666... to one decimal) and both missing ports become S. */
  lemma WorkedExample()
    ensures AgeFillDefined(Sample)
    ensures AgeFill(Sample) == 28.7
    ensures Embarkation.Mode(Sample) == "S"
  {
    SampleAges();
    var ages := [22.0, 38.0, 26.0];
    assert ages[..2] == [22.0, 38.0] && [22.0, 38.0][..1] == [22.0] && [22.0][..0] == [];
    assert Numeric.Sum(ages) == 86.0;
    assert Numeric.Mean(ages) == 86.0 / 3.0;
    assert (86.0 / 3.0 * 10.0 + 0.5).Floor == 287;
    SampleCodes();
    Embarkation.ModeSpec(Sample);
  }
}

=== FILE: dashboard.dfy ===
/** The dashboard: four tabs gated on the store's contents, the step
    components they mount, and the whole application as one state with the
    events its controls raise.  A component's own state starts afresh each
    time its tab is entered, as React remounts it. */
module Dashboard {
  import opened Passengers
  import Cleaning
  import Store
  import Uploader
  import Cleaner
  import TableView

  datatype Tab = UploadTab | CleanTab | ExploreTab | StatsTab

  /** The tab list's `disabled` flags: Clean needs raw records, Explore and
      Statistics need cleaned ones; Upload is always available. */
  predicate Disabled(t: Tab, s: Store.Store)
  {
    match t
    case UploadTab => false
    case CleanTab => |s.rawData| == 0
    case ExploreTab => |s.cleanedData| == 0
    case StatsTab => |s.cleanedData| == 0
  }

  /** The explorer's two views, chosen by its Table View and Charts View
      buttons. */
  datatype ExplorerView = ShowingCharts | ShowingTable

  datatype App = App(
    store: Store.Store,
    tab: Tab,
    uploader: Uploader.UploaderState,
    cleaner: Cleaner.CleanerState,
    view: ExplorerView,
    table: TableView.TableState)

  /** The store empty, the Upload tab active. */
  const Initial := App(Store.Empty, UploadTab, Uploader.InitialUploader, Cleaner.InitialCleaner, ShowingCharts, TableView.Initial)

  /** Switching to `t` mounts its component afresh; the explorer opens on
      its charts. */
  function Enter(a: App, t: Tab): (r: App)
    ensures r.store == a.store && r.tab == t
    ensures r.uploader == Uploader.InitialUploader && r.cleaner == Cleaner.InitialCleaner
    ensures r.view == ShowingCharts && r.table == TableView.Initial
  {
    App(a.store, t, Uploader.InitialUploader, Cleaner.InitialCleaner, ShowingCharts, TableView.Initial)
  }

  /** `setView(v)`: choosing the view already shown changes nothing; the
      other view unmounts the table or mounts it afresh, so the table starts
      again from its initial state. */
  function SetView(a: App, v: ExplorerView): (r: App)
    ensures r.view == v
    ensures r.store == a.store && r.tab == a.tab && r.uploader == a.uploader && r.cleaner == a.cleaner
    ensures v == a.view ==> r == a
    ensures v != a.view ==> r.table == TableView.Initial
  {
    if v == a.view then a else a.(view := v, table := TableView.Initial)
  }

  /** A tab button: `!tab.disabled && onChange(tab.id)`; choosing the active
      tab changes nothing. */
  function SelectTab(a: App, t: Tab): (r: App)
    ensures Disabled(t, a.store) ==> r == a
    ensures !Disabled(t, a.store) ==> r.tab == t
    ensures r.store == a.store
  {
    if Disabled(t, a.store) || t == a.tab then a else Enter(a, t)
  }

  /** What the user can do: pick a file (with what the parser made of it),
      load the sample (with what the fetch returned), tick a cleaning box,
      press Clean, use the table, or click a tab. */
  datatype Event =
    | ChooseFile(file: Uploader.FileInfo, parse: Uploader.ParseOutcome)
    | UseSample(fetch: Uploader.FetchOutcome)
    | Toggle(option: Cleaner.OptionName, checked: bool)
    | PressClean
    | ChooseView(v: ExplorerView)
    | UseTable(e: TableView.Event)
    | ClickTab(t: Tab)

  /** An upload attempt's outcome; success moves on to the Clean tab. */
  function AfterUpload(a: App, o: Uploader.Outcome): App
  {
    var b := a.(store := o.store, uploader := o.ui);
    if o.advance then Enter(b, CleanTab) else b
  }

  /** The Clean button is on screen and enabled. */
  predicate CleanEnabled(a: App)
  {
    a.tab == CleanTab && !a.cleaner.isProcessed && Cleaner.CanClean(a.cleaner.options)
  }

  /** The mean age the age stage writes exists (it would be NaN otherwise). */
  predicate CleanDefined(a: App)
  {
    a.cleaner.options.fillMissingAges ==> Cleaning.AgeFillDefined(a.store.rawData)
  }

  /** The Clean button: when enabled, clean and open Explore. */
  function PressCleanStep(a: App): App
    requires CleanEnabled(a) ==> CleanDefined(a)
  {
    if CleanEnabled(a) then
      var (s, c) := Cleaner.HandleCleanData(a.store, a.cleaner);
      Enter(a.(store := s, cleaner := c), ExploreTab)
    else a
  }

  /** A table control: it acts only while the table is shown. */
  function UseTableStep(a: App, te: TableView.Event, show: real -> string): App
  {
    if a.tab == ExploreTab && a.view == ShowingTable
    then a.(table := TableView.Step(a.store.cleanedData, show, a.table, te))
    else a
  }

  /** One event.  Each control acts only while its tab is showing. */
  function Step(a: App, e: Event, show: real -> string): (r: App)
    requires e == PressClean && CleanEnabled(a) ==> CleanDefined(a)
  {
    match e
    case ChooseFile(f, parse) =>
      if a.tab == UploadTab then AfterUpload(a, Uploader.ProcessFile(a.store, a.uploader, f, parse)) else a
    case UseSample(fetch) =>
      if a.tab == UploadTab then AfterUpload(a, Uploader.HandleSampleData(a.store, a.uploader, fetch)) else a
    case Toggle(n, checked) =>
      if a.tab == CleanTab
      then a.(cleaner := a.cleaner.(options := Cleaner.SetOption(a.cleaner.options, n, checked)))
      else a
    case PressClean => PressCleanStep(a)
    case ChooseView(v) =>
      if a.tab == ExploreTab then SetView(a, v) else a
    case UseTable(te) => UseTableStep(a, te, show)
    case ClickTab(t) => SelectTab(a, t)
  }

  /** What holds in every reachable state: raw and cleaned data have the
      same length, the summary describes the cleaned data, and the table's
      page exists. */
  predicate Invariant(a: App, show: real -> string)
  {
    && |a.store.cleanedData| == |a.store.rawData|
    && Store.StatsCurrent(a.store)
    && (a.tab == ExploreTab ==> TableView.Valid(a.store.cleanedData, show, a.table))
  }

  /** At start only the Upload tab can be chosen. */
  lemma InitialSpec(show: real -> string)
    ensures Invariant(Initial, show)
    ensures Initial.tab == UploadTab
    ensures Disabled(CleanTab, Initial.store) && Disabled(ExploreTab, Initial.store) && Disabled(StatsTab, Initial.store)
    ensures forall t :: SelectTab(Initial, t).tab == UploadTab
  {
    Store.EmptyIsCurrent();
    TableView.InitialValid([], show);
  }

  /** An upload attempt that either loads rows or leaves the data alone
      keeps the invariant. */
  lemma AfterUploadKeepsInvariant(a: App, o: Uploader.Outcome, show: real -> string)
    requires Invariant(a, show) && a.tab == UploadTab
    requires o.advance ==> |o.store.cleanedData| == |o.store.rawData| && Store.StatsCurrent(o.store)
    requires !o.advance ==> (o.store.rawData == a.store.rawData && o.store.cleanedData == a.store.cleanedData
      && o.store.dataStats == a.store.dataStats)
    ensures Invariant(AfterUpload(a, o), show)
  {
    TableView.InitialValid(o.store.cleanedData, show);
  }

  /** Pressing an enabled Clean button opens Explore on the cleaned store. */
  lemma PressCleanResult(a: App, show: real -> string)
    requires CleanEnabled(a) && CleanDefined(a)
    ensures Step(a, PressClean, show).store == Store.CleanStore(a.store, a.cleaner.options)
    ensures Step(a, PressClean, show).tab == ExploreTab
    ensures Step(a, PressClean, show).table == TableView.Initial
  {
    assert Step(a, PressClean, show) == PressCleanStep(a);
    PressCleanEnters(a);
  }

  /** The enabled Clean button enters Explore with the cleaned store. */
  lemma PressCleanEnters(a: App)
    requires CleanEnabled(a) && CleanDefined(a)
    ensures PressCleanStep(a) == Enter(a.(store := Store.CleanStore(a.store, a.cleaner.options),
      cleaner := a.cleaner.(isProcessed := true)), ExploreTab)
  {
    var s := Store.CleanStore(a.store, a.cleaner.options);
    var c := a.cleaner.(isProcessed := true);
    assert Cleaner.HandleCleanData(a.store, a.cleaner) == (s, c);
  }

  lemma CleanKeepsInvariant(a: App, show: real -> string)
    requires Invariant(a, show) && CleanEnabled(a) && CleanDefined(a)
    ensures Invariant(Step(a, PressClean, show), show)
  {
    PressCleanResult(a, show);
    TableView.InitialValid(Store.CleanStore(a.store, a.cleaner.options).cleanedData, show);
  }

  lemma ChooseFileKeepsInvariant(a: App, f: Uploader.FileInfo, parse: Uploader.ParseOutcome, show: real -> string)
    requires Invariant(a, show)
    ensures Invariant(Step(a, ChooseFile(f, parse), show), show)
  {
    if a.tab == UploadTab {
      var o := Uploader.ProcessFile(a.store, a.uploader, f, parse);
      Uploader.ProcessFileSpec(a.store, a.uploader, f, parse);
      assert Step(a, ChooseFile(f, parse), show) == AfterUpload(a, o);
      AfterUploadKeepsInvariant(a, o, show);
    } else {
      assert Step(a, ChooseFile(f, parse), show) == a;
    }
  }

  lemma UseSampleKeepsInvariant(a: App, fetch: Uploader.FetchOutcome, show: real -> string)
    requires Invariant(a, show)
    ensures Invariant(Step(a, UseSample(fetch), show), show)
  {
    if a.tab == UploadTab {
      var o := Uploader.HandleSampleData(a.store, a.uploader, fetch);
      assert Step(a, UseSample(fetch), show) == AfterUpload(a, o);
      AfterUploadKeepsInvariant(a, o, show);
    } else {
      assert Step(a, UseSample(fetch), show) == a;
    }
  }

  lemma UseTableKeepsInvariant(a: App, te: TableView.Event, show: real -> string)
    requires Invariant(a, show)
    ensures Invariant(Step(a, UseTable(te), show), show)
  {
    assert Step(a, UseTable(te), show) == UseTableStep(a, te, show);
    if a.tab == ExploreTab && a.view == ShowingTable {
      TableView.StepKeepsValid(a.store.cleanedData, show, a.table, te);
    }
  }

  /** Every event keeps the invariant. */
  lemma {:induction false} StepKeepsInvariant(a: App, e: Event, show: real -> string)
    requires Invariant(a, show)
    requires e == PressClean && CleanEnabled(a) ==> CleanDefined(a)
    ensures Invariant(Step(a, e, show), show)
  {
    match e
    case ChooseFile(f, parse) =>
      ChooseFileKeepsInvariant(a, f, parse, show);
    case UseSample(fetch) =>
      UseSampleKeepsInvariant(a, fetch, show);
    case Toggle(n, checked) =>
      assert Step(a, e, show).store == a.store && Step(a, e, show).tab == a.tab;
      assert Step(a, e, show).table == a.table;
    case PressClean =>
      if CleanEnabled(a) {
        CleanKeepsInvariant(a, show);
      } else {
        assert Step(a, e, show) == a;
      }
    case ChooseView(v) =>
      assert Step(a, e, show) == (if a.tab == ExploreTab then SetView(a, v) else a);
      TableView.InitialValid(a.store.cleanedData, show);
    case UseTable(te) =>
      UseTableKeepsInvariant(a, te, show);
    case ClickTab(t) =>
      assert Step(a, e, show) == SelectTab(a, t);
      TableView.InitialValid(a.store.cleanedData, show);
  }

  /** The workflow's forward steps: a successful upload opens Clean, and
      cleaning opens Explore with the cleaned records in the store. */
  lemma WorkflowAdvances(a: App, e: Event, show: real -> string)
    requires e == PressClean && CleanEnabled(a) ==> CleanDefined(a)
    ensures e.ChooseFile? && a.tab == UploadTab && Uploader.ProcessFile(a.store, a.uploader, e.file, e.parse).advance ==>
      Step(a, e, show).tab == CleanTab && Step(a, e, show).store.rawData == e.parse.rows
    ensures e.UseSample? && a.tab == UploadTab && e.fetch.FetchedRows? ==>
      Step(a, e, show).tab == CleanTab && Step(a, e, show).store.rawData == e.fetch.rows
    ensures e == PressClean && CleanEnabled(a) ==>
      Step(a, e, show).tab == ExploreTab
      && Step(a, e, show).store.cleanedData == Cleaning.CleanData(a.store.rawData, a.cleaner.options)
    ensures e == PressClean && !CleanEnabled(a) ==> Step(a, e, show) == a
  {
    if e.ChooseFile? && a.tab == UploadTab {
      Uploader.ProcessFileSpec(a.store, a.uploader, e.file, e.parse);
    }
  }

  /** The table's controls act only while the table is shown, and a trip
      through the charts brings the table back in its initial state: sorted
      on PassengerId ascending, no search, page 1. */
  lemma ViewSwitchResetsTable(a: App, te: TableView.Event, show: real -> string)
    requires a.tab == ExploreTab
    ensures a.view == ShowingCharts ==> Step(a, UseTable(te), show) == a
    ensures var b := Step(Step(a, ChooseView(ShowingCharts), show), ChooseView(ShowingTable), show);
      b.view == ShowingTable && b.table == TableView.Initial && b.store == a.store
    ensures Step(a, ChooseView(a.view), show) == a
  {
    var c := Step(a, ChooseView(ShowingCharts), show);
    assert c == SetView(a, ShowingCharts);
    assert c.tab == ExploreTab;
    assert Step(c, ChooseView(ShowingTable), show) == SetView(c, ShowingTable);
  }

  /** Since raw and cleaned data always have the same length, Explore and
      Statistics are available exactly when Clean is. */
  lemma TabsEnabledTogether(a: App, show: real -> string)
    requires Invariant(a, show)
    ensures Disabled(ExploreTab, a.store) <==> Disabled(CleanTab, a.store)
    ensures Disabled(StatsTab, a.store) <==> Disabled(CleanTab, a.store)
  {
  }

  /** The success path does not check the tab it opens: a CSV holding only
      a header passes every check and lands on Clean while Clean is
      disabled. */
  lemma HeaderOnlyUploadOpensDisabledTab(a: App, show: real -> string)
    requires a.tab == UploadTab
    ensures var e := ChooseFile(Uploader.FileInfo("empty.csv", "text/csv"),
        Uploader.Parsed(Uploader.RequiredColumns, [], []));
      Step(a, e, show).tab == CleanTab && Disabled(CleanTab, Step(a, e, show).store)
  {
    var f := Uploader.FileInfo("empty.csv", "text/csv");
    var parse := Uploader.Parsed(Uploader.RequiredColumns, [], []);
    assert forall k :: 0 <= k < |Uploader.RequiredColumns| ==> Uploader.RequiredColumns[k] in Uploader.RequiredColumns;
    assert Uploader.IsCsv(f);
    Uploader.ProcessFileSpec(a.store, a.uploader, f, parse);
  }
}

=== FILE: embarked.dfy ===
/** The fill value of the missing-embarkation stage: the most common port
    code, counted in a first-seen-ordered tally and picked by a strict-`>`
    scan, so that the earliest code wins a tie; `"S"` when no code is known. */
module Embarkation {
  import opened Passengers

  /** `!p.Embarked`: the code is `null` or the empty string. */
  predicate IsFalsy(e: Option<string>)
  {
    e.None? || e.value == ""
  }

  /** The truthy embarkation codes, in record order. */
  function Codes(rs: seq<Passenger>): (cs: seq<string>)
    ensures forall k :: 0 <= k < |cs| ==> cs[k] != ""
    decreases |rs|
  {
    if |rs| == 0 then []
    else
      var last := rs[|rs| - 1].Embarked;
      Codes(rs[..|rs| - 1]) + (if IsFalsy(last) then [] else [last.value])
  }

  /** `Codes` one record at a time, from the end. */
  lemma CodesStep(rs: seq<Passenger>)
    requires |rs| > 0
    ensures Codes(rs) == Codes(rs[..|rs| - 1])
      + (if IsFalsy(rs[|rs| - 1].Embarked) then [] else [rs[|rs| - 1].Embarked.value])
  {
  }

  /** Positions of the records whose port is truthy, in record order. */
  function PortPositions(rs: seq<Passenger>): (pos: seq<nat>)
    ensures forall k :: 0 <= k < |pos| ==> pos[k] < |rs| && !IsFalsy(rs[pos[k]].Embarked)
    ensures forall k, l :: 0 <= k < l < |pos| ==> pos[k] < pos[l]
    ensures forall i :: 0 <= i < |rs| && !IsFalsy(rs[i].Embarked) ==> i in pos
    decreases |rs|
  {
    if |rs| == 0 then []
    else
      var n := |rs| - 1;
      var pos := PortPositions(rs[..n]);
      assert forall k :: 0 <= k < |pos| ==> rs[pos[k]] == rs[..n][pos[k]];
      pos + (if IsFalsy(rs[n].Embarked) then [] else [n])
  }

  /** Entry `k` of `Codes` is the port of the `k`-th record whose port is
      truthy. */
  lemma {:induction false} CodesArePorts(rs: seq<Passenger>)
    ensures |Codes(rs)| == |PortPositions(rs)|
    ensures forall k :: 0 <= k < |Codes(rs)| ==> rs[PortPositions(rs)[k]].Embarked == Some(Codes(rs)[k])
    decreases |rs|
  {
    if |rs| > 0 {
      var n := |rs| - 1;
      CodesArePorts(rs[..n]);
      CodesStep(rs);
      var init := Codes(rs[..n]);
      var pos := PortPositions(rs[..n]);
      var more := if IsFalsy(rs[n].Embarked) then [] else [n];
      assert PortPositions(rs) == pos + more;
      forall k | 0 <= k < |Codes(rs)|
        ensures rs[PortPositions(rs)[k]].Embarked == Some(Codes(rs)[k])
      {
        if k < |init| {
          assert PortPositions(rs)[k] == pos[k] && Codes(rs)[k] == init[k];
          assert rs[pos[k]] == rs[..n][pos[k]];
        } else {
          assert PortPositions(rs)[k] == n && Codes(rs)[k] == rs[n].Embarked.value;
        }
      }
    }
  }

  /** `p.Embarked === c`. */
  function PortIs(c: string): Passenger -> bool
  {
    (p: Passenger) => p.Embarked == Some(c)
  }

  /** Number of occurrences of `c` in `cs`. */
  function Occ(cs: seq<string>, c: string): nat
    decreases |cs|
  {
    if |cs| == 0 then 0 else Occ(cs[..|cs| - 1], c) + (if cs[|cs| - 1] == c then 1 else 0)
  }

  /** Position of the first occurrence of `c` in `cs`. */
  function FirstIndex(cs: seq<string>, c: string): (i: nat)
    requires c in cs
    ensures i < |cs| && cs[i] == c
    ensures forall j :: 0 <= j < i ==> cs[j] != c
    decreases |cs|
  {
    if cs[0] == c then 0 else 1 + FirstIndex(cs[1..], c)
  }

  /** `embarkedCounts`: a JavaScript object, i.e. a map from code to count
      together with the order in which its keys were inserted. */
  datatype Counts = Counts(order: seq<string>, count: map<string, nat>)

  /** The object's keys are exactly the inserted ones, each inserted once. */
  ghost predicate WellFormed(o: Counts)
  {
    && (forall i, j :: 0 <= i < j < |o.order| ==> o.order[i] != o.order[j])
    && (forall k :: k in o.count <==> k in o.order)
  }

  /** `counts[c] = (counts[c] || 0) + 1`: a new key goes to the end of the order. */
  function Bump(o: Counts, c: string): (r: Counts)
    requires WellFormed(o)
    ensures WellFormed(r)
    ensures c in r.count
  {
    if c in o.count then Counts(o.order, o.count[c := o.count[c] + 1])
    else Counts(o.order + [c], o.count[c := 1])
  }

  /** `embarkedCounts` after the `forEach` over the records' codes. */
  function Tally(cs: seq<string>): (o: Counts)
    ensures WellFormed(o)
    decreases |cs|
  {
    if |cs| == 0 then Counts([], map[]) else Bump(Tally(cs[..|cs| - 1]), cs[|cs| - 1])
  }

  /** One `[key, count]` pair of `Object.entries(embarkedCounts)`. */
  datatype Entry = Entry(key: string, count: nat)

  /** `Object.entries`: the pairs in key-insertion order. */
  function Entries(o: Counts): (es: seq<Entry>)
    requires WellFormed(o)
    ensures |es| == |o.order|
    ensures forall i :: 0 <= i < |es| ==> es[i] == Entry(o.order[i], o.count[o.order[i]])
  {
    seq(|o.order|, i requires 0 <= i < |o.order| => Entry(o.order[i], o.count[o.order[i]]))
  }

  lemma {:induction false} FirstIndexAppend(cs: seq<string>, c: string, x: string)
    requires x in cs
    ensures FirstIndex(cs + [c], x) == FirstIndex(cs, x)
    decreases |cs|
  {
    if cs[0] != x {
      assert (cs + [c])[1..] == cs[1..] + [c];
      FirstIndexAppend(cs[1..], c, x);
    }
  }

  lemma FirstIndexLast(cs: seq<string>, c: string)
    requires c !in cs
    ensures FirstIndex(cs + [c], c) == |cs|
  {
  }

  lemma {:induction false} OccAbsent(cs: seq<string>, c: string)
    requires c !in cs
    ensures Occ(cs, c) == 0
    decreases |cs|
  {
    if |cs| > 0 {
      OccAbsent(cs[..|cs| - 1], c);
    }
  }

  lemma {:induction false} OccPresent(cs: seq<string>, c: string)
    requires c in cs
    ensures Occ(cs, c) > 0
    decreases |cs|
  {
    if cs[|cs| - 1] != c {
      assert c in cs[..|cs| - 1];
      OccPresent(cs[..|cs| - 1], c);
    }
  }

  /** A non-empty code occurs in `Codes` once per record that carries it. */
  lemma {:induction false} CodesCounts(rs: seq<Passenger>, c: string)
    ensures c != "" ==> Occ(Codes(rs), c) == Count(rs, PortIs(c))
    decreases |rs|
  {
    if |rs| > 0 {
      var n := |rs| - 1;
      var init := Codes(rs[..n]);
      CodesStep(rs);
      CodesCounts(rs[..n], c);
      assert Count(rs, PortIs(c)) == Count(rs[..n], PortIs(c)) + (if PortIs(c)(rs[n]) then 1 else 0);
      if !IsFalsy(rs[n].Embarked) {
        var v := rs[n].Embarked.value;
        assert Codes(rs) == init + [v];
        assert (init + [v])[..|init|] == init;
        assert Occ(init + [v], c) == Occ(init, c) + (if v == c then 1 else 0);
        assert PortIs(c)(rs[n]) == (v == c);
      } else {
        assert Codes(rs) == init;
        assert c != "" ==> !PortIs(c)(rs[n]);
      }
    }
  }

  lemma PrefixOfAppend(a: seq<string>, b: seq<string>, t: seq<string>)
    requires a <= b
    ensures a <= b + t
  {
    assert (b + t)[..|a|] == b[..|a|];
  }

  /** The codes of a prefix of the records are a prefix of the codes. */
  lemma {:induction false} CodesPrefix(rs: seq<Passenger>, n: nat)
    requires n <= |rs|
    ensures Codes(rs[..n]) <= Codes(rs)
    decreases |rs|
  {
    if n < |rs| {
      var m := |rs| - 1;
      assert rs[..m][..n] == rs[..n];
      CodesPrefix(rs[..m], n);
      CodesStep(rs);
      PrefixOfAppend(Codes(rs[..n]), Codes(rs[..m]), if IsFalsy(rs[m].Embarked) then [] else [rs[m].Embarked.value]);
    } else {
      assert rs[..n] == rs;
    }
  }

  /** The tally has one key per distinct code, holding its exact number of
      occurrences. */
  lemma {:induction false} TallyCounts(cs: seq<string>)
    ensures forall k :: k in Tally(cs).count <==> k in cs
    ensures forall k :: k in Tally(cs).count ==> Tally(cs).count[k] == Occ(cs, k)
    decreases |cs|
  {
    if |cs| > 0 {
      var init := cs[..|cs| - 1];
      var c := cs[|cs| - 1];
      assert cs == init + [c];
      TallyCounts(init);
      if c !in init {
        OccAbsent(init, c);
      }
    }
  }

  /** The tally's keys are ordered by where each code was first seen. */
  lemma {:induction false} TallyOrder(cs: seq<string>)
    ensures forall i :: 0 <= i < |Tally(cs).order| ==> Tally(cs).order[i] in cs
    ensures forall i, j :: 0 <= i < j < |Tally(cs).order| ==>
      FirstIndex(cs, Tally(cs).order[i]) < FirstIndex(cs, Tally(cs).order[j])
    decreases |cs|
  {
    if |cs| > 0 {
      var init := cs[..|cs| - 1];
      var c := cs[|cs| - 1];
      assert cs == init + [c];
      TallyOrder(init);
      TallyCounts(init);
      var o := Tally(init);
      forall i | 0 <= i < |o.order|
        ensures FirstIndex(cs, o.order[i]) == FirstIndex(init, o.order[i])
      {
        FirstIndexAppend(init, c, o.order[i]);
      }
      if c !in o.count {
        FirstIndexLast(init, c);
      }
    }
  }

  /** The strict-`>` scan over the tally entries. */
  function PickMode(es: seq<Entry>, best: string, max: nat): string
    decreases |es|
  {
    if |es| == 0 then best
    else if es[0].count > max then PickMode(es[1..], es[0].key, es[0].count)
    else PickMode(es[1..], best, max)
  }

  /** Position of the entry the scan settles on: the first entry with the
      largest count above `max`, or -1 when no count exceeds `max`. */
  function BestIndex(es: seq<Entry>, max: nat): (k: int)
    ensures -1 <= k < |es|
    ensures k == -1 <==> forall j :: 0 <= j < |es| ==> es[j].count <= max
    ensures k >= 0 ==> es[k].count > max
    ensures k >= 0 ==> forall j :: 0 <= j < |es| ==> es[j].count <= es[k].count
    ensures k >= 0 ==> forall j :: 0 <= j < k ==> es[j].count < es[k].count
    decreases |es|
  {
    if |es| == 0 then -1
    else
      var tail := es[1..];
      assert forall j :: 1 <= j < |es| ==> es[j] == tail[j - 1];
      if es[0].count > max then
        var t := BestIndex(tail, es[0].count);
        if t < 0 then 0 else t + 1
      else
        var t := BestIndex(tail, max);
        if t < 0 then -1 else t + 1
  }

  /** The strict-`>` scan returns the key at `BestIndex`, or keeps `best`. */
  lemma {:induction false} PickModeSpec(es: seq<Entry>, best: string, max: nat)
    ensures PickMode(es, best, max) == (if BestIndex(es, max) < 0 then best else es[BestIndex(es, max)].key)
    decreases |es|
  {
    if |es| > 0 {
      if es[0].count > max {
        PickModeSpec(es[1..], es[0].key, es[0].count);
      } else {
        PickModeSpec(es[1..], best, max);
      }
    }
  }

  /** `mostCommonEmbarked`: the scan from `'S'` with count 0 over the tally. */
  function ModeOf(cs: seq<string>): string
  {
    PickMode(Entries(Tally(cs)), "S", 0)
  }

  function Mode(rs: seq<Passenger>): string
  {
    ModeOf(Codes(rs))
  }

  /** With some code present the scan settles on an entry of the tally. */
  lemma ModeOfFound(cs: seq<string>)
    requires |cs| > 0
    ensures 0 <= BestIndex(Entries(Tally(cs)), 0)
    ensures ModeOf(cs) == Entries(Tally(cs))[BestIndex(Entries(Tally(cs)), 0)].key
    ensures ModeOf(cs) in cs
  {
    var o := Tally(cs);
    var es := Entries(o);
    TallyCounts(cs);
    PickModeSpec(es, "S", 0);
    assert cs[0] in o.count;
    assert cs[0] in o.order;
    var i0 :| 0 <= i0 < |o.order| && o.order[i0] == cs[0];
    OccPresent(cs, cs[0]);
    assert es[i0].count > 0;
    var k := BestIndex(es, 0);
    assert k >= 0;
    assert ModeOf(cs) == es[k].key == o.order[k];
    assert o.order[k] in o.count;
  }

  /** Two tally keys, ordered by first occurrence. */
  lemma TallyOrderAt(cs: seq<string>, i: int, j: int)
    requires 0 <= i < j < |Tally(cs).order|
    ensures Tally(cs).order[i] in cs && Tally(cs).order[j] in cs
    ensures FirstIndex(cs, Tally(cs).order[i]) < FirstIndex(cs, Tally(cs).order[j])
  {
    TallyOrder(cs);
  }

  /** The mode against one code `c` of the list. */
  lemma ModeOfBeats(cs: seq<string>, c: string)
    requires c in cs
    ensures ModeOf(cs) in cs
    ensures Occ(cs, c) <= Occ(cs, ModeOf(cs))
    ensures FirstIndex(cs, c) < FirstIndex(cs, ModeOf(cs)) ==> Occ(cs, c) < Occ(cs, ModeOf(cs))
  {
    ModeOfFound(cs);
    var o := Tally(cs);
    var es := Entries(o);
    var k := BestIndex(es, 0);
    var m := es[k].key;
    TallyCounts(cs);
    assert c in o.count;
    assert c in o.order;
    var j :| 0 <= j < |o.order| && o.order[j] == c;
    assert es[j].count == Occ(cs, c);
    assert m == o.order[k] && es[k].count == Occ(cs, m);
    assert es[j].count <= es[k].count;
    if k < j {
      TallyOrderAt(cs, k, j);
      assert FirstIndex(cs, m) < FirstIndex(cs, c);
    } else if j < k {
      assert es[j].count < es[k].count;
    }
  }

  /** Over a list of codes: `"S"` for no codes, otherwise a code at least as
      frequent as every code and more frequent than every code seen earlier. */
  lemma {:induction false} ModeOfSpec(cs: seq<string>)
    ensures |cs| == 0 ==> ModeOf(cs) == "S"
    ensures |cs| > 0 ==> ModeOf(cs) in cs
    ensures forall c :: c in cs ==>
      && ModeOf(cs) in cs
      && Occ(cs, c) <= Occ(cs, ModeOf(cs))
      && (FirstIndex(cs, c) < FirstIndex(cs, ModeOf(cs)) ==> Occ(cs, c) < Occ(cs, ModeOf(cs)))
  {
    if |cs| > 0 {
      ModeOfFound(cs);
      forall c | c in cs
        ensures Occ(cs, c) <= Occ(cs, ModeOf(cs))
        ensures FirstIndex(cs, c) < FirstIndex(cs, ModeOf(cs)) ==> Occ(cs, c) < Occ(cs, ModeOf(cs))
      {
        ModeOfBeats(cs, c);
      }
    } else {
      assert Tally(cs).order == [];
    }
  }

  /** The fill value is `"S"` when no record carries a code; otherwise it is a
      code that occurs at least as often as every other code, and strictly
      more often than every code first seen before it. */
  lemma {:induction false} ModeSpec(rs: seq<Passenger>)
    ensures Mode(rs) != ""
    ensures |Codes(rs)| == 0 ==> Mode(rs) == "S"
    ensures |Codes(rs)| > 0 ==> Mode(rs) in Codes(rs)
    ensures forall c :: c in Codes(rs) ==>
      && Mode(rs) in Codes(rs)
      && Occ(Codes(rs), c) <= Occ(Codes(rs), Mode(rs))
      && (FirstIndex(Codes(rs), c) < FirstIndex(Codes(rs), Mode(rs)) ==> Occ(Codes(rs), c) < Occ(Codes(rs), Mode(rs)))
  {
    ModeOfSpec(Codes(rs));
  }

  /** A truthy port of a record is among the codes, at an index no later
      than the number of truthy ports up to that record. */
  lemma PortInCodes(rs: seq<Passenger>, i: nat)
    requires i < |rs| && !IsFalsy(rs[i].Embarked)
    ensures rs[i].Embarked.value in Codes(rs)
    ensures FirstIndex(Codes(rs), rs[i].Embarked.value) < |Codes(rs[..i + 1])|
  {
    var pre := rs[..i + 1];
    var p := Codes(pre);
    CodesPrefix(rs, i + 1);
    CodesArePorts(pre);
    assert pre[i] == rs[i];
    var k :| 0 <= k < |PortPositions(pre)| && PortPositions(pre)[k] == i;
    assert p[k] == rs[i].Embarked.value;
    assert Codes(rs)[k] == p[k];
  }

  /** A code no record up to `i` carries is first seen after all the codes
      of those records. */
  lemma AbsentBefore(rs: seq<Passenger>, i: nat, m: string)
    requires i < |rs|
    requires forall j :: 0 <= j <= i ==> rs[j].Embarked != Some(m)
    requires m in Codes(rs)
    ensures FirstIndex(Codes(rs), m) >= |Codes(rs[..i + 1])|
  {
    var pre := rs[..i + 1];
    var p := Codes(pre);
    CodesPrefix(rs, i + 1);
    CodesArePorts(pre);
    forall t | 0 <= t < |p|
      ensures Codes(rs)[t] != m
    {
      var q := PortPositions(pre)[t];
      assert pre[q] == rs[q];
      assert Codes(rs)[t] == p[t];
    }
  }

  /** A record's port against the mode: no more frequent, and strictly less
      frequent when it shows up before the first record carrying the mode. */
  lemma PortBeaten(rs: seq<Passenger>, i: nat)
    requires i < |rs| && !IsFalsy(rs[i].Embarked)
    ensures Count(rs, PortIs(rs[i].Embarked.value)) <= Count(rs, PortIs(Mode(rs)))
    ensures (forall j :: 0 <= j <= i ==> rs[j].Embarked != Some(Mode(rs))) ==>
      Count(rs, PortIs(rs[i].Embarked.value)) < Count(rs, PortIs(Mode(rs)))
  {
    var c := rs[i].Embarked.value;
    var m := Mode(rs);
    PortInCodes(rs, i);
    ModeOfBeats(Codes(rs), c);
    CodesCounts(rs, c);
    CodesCounts(rs, m);
    if forall j :: 0 <= j <= i ==> rs[j].Embarked != Some(m) {
      AbsentBefore(rs, i, m);
    }
  }

  /** The fill value stated over the records themselves: `"S"` when no
      record has a truthy port; otherwise the port of some record, carried
      by at least as many records as any other port, and by strictly more
      records than a port that shows up before the mode does. */
  lemma ModeOverRecords(rs: seq<Passenger>)
    ensures (forall i :: 0 <= i < |rs| ==> IsFalsy(rs[i].Embarked)) ==> Mode(rs) == "S"
    ensures (exists i :: 0 <= i < |rs| && !IsFalsy(rs[i].Embarked)) ==>
      exists j :: 0 <= j < |rs| && rs[j].Embarked == Some(Mode(rs))
    ensures forall i :: 0 <= i < |rs| && !IsFalsy(rs[i].Embarked) ==>
      Count(rs, PortIs(rs[i].Embarked.value)) <= Count(rs, PortIs(Mode(rs)))
    ensures forall i ::
      (0 <= i < |rs| && !IsFalsy(rs[i].Embarked) && forall j :: 0 <= j <= i ==> rs[j].Embarked != Some(Mode(rs))) ==>
      Count(rs, PortIs(rs[i].Embarked.value)) < Count(rs, PortIs(Mode(rs)))
  {
    ModeIsSomePort(rs);
    forall i | 0 <= i < |rs| && !IsFalsy(rs[i].Embarked)
      ensures Count(rs, PortIs(rs[i].Embarked.value)) <= Count(rs, PortIs(Mode(rs)))
      ensures (forall j :: 0 <= j <= i ==> rs[j].Embarked != Some(Mode(rs))) ==>
        Count(rs, PortIs(rs[i].Embarked.value)) < Count(rs, PortIs(Mode(rs)))
    {
      PortBeaten(rs, i);
    }
  }

  /** `"S"` when no record has a truthy port, some record's port otherwise. */
  lemma ModeIsSomePort(rs: seq<Passenger>)
    ensures (forall i :: 0 <= i < |rs| ==> IsFalsy(rs[i].Embarked)) ==> Mode(rs) == "S"
    ensures (exists i :: 0 <= i < |rs| && !IsFalsy(rs[i].Embarked)) ==>
      exists j :: 0 <= j < |rs| && rs[j].Embarked == Some(Mode(rs))
  {
    ModeSpec(rs);
    CodesArePorts(rs);
    var cs := Codes(rs);
    if |cs| > 0 {
      var j0 := PortPositions(rs)[0];
      assert !IsFalsy(rs[j0].Embarked);
      var k :| 0 <= k < |cs| && cs[k] == Mode(rs);
      assert rs[PortPositions(rs)[k]].Embarked == Some(Mode(rs));
    } else {
      forall i | 0 <= i < |rs| && !IsFalsy(rs[i].Embarked)
        ensures i in PortPositions(rs)
      {
      }
    }
  }

  /** One record of the embarkation stage: a falsy code becomes `port`. */
  function FillPort(p: Passenger, port: string): (q: Passenger)
    ensures q.(Embarked := p.Embarked) == p
  {
    if IsFalsy(p.Embarked) then p.(Embarked := Some(port)) else p
  }

  /** `fillMissingEmbarked`: every falsy code becomes the mode, the rest of
      every record is untouched. */
  function FillMissingEmbarked(rs: seq<Passenger>): (r: seq<Passenger>)
    ensures |r| == |rs|
    ensures forall i :: 0 <= i < |rs| ==> r[i] == FillPort(rs[i], Mode(rs))
    ensures forall i :: 0 <= i < |rs| ==> r[i].(Embarked := rs[i].Embarked) == rs[i]
    ensures forall i :: 0 <= i < |rs| && !IsFalsy(rs[i].Embarked) ==> r[i].Embarked == rs[i].Embarked
    ensures forall i :: 0 <= i < |rs| && IsFalsy(rs[i].Embarked) ==> r[i].Embarked == Some(Mode(rs))
    ensures forall i :: 0 <= i < |rs| ==> !IsFalsy(r[i].Embarked)
  {
    var port := Mode(rs);
    ModeSpec(rs);
    seq(|rs|, i requires 0 <= i < |rs| => FillPort(rs[i], port))
  }

  /** The codes, hence the mode, depend on nothing but the Embarked field. */
  lemma {:induction false} CodesOnlyReadEmbarked(a: seq<Passenger>, b: seq<Passenger>)
    requires |a| == |b|
    requires forall i :: 0 <= i < |a| ==> a[i].Embarked == b[i].Embarked
    ensures Codes(a) == Codes(b)
    ensures Mode(a) == Mode(b)
    decreases |a|
  {
    if |a| > 0 {
      CodesOnlyReadEmbarked(a[..|a| - 1], b[..|b| - 1]);
    }
  }
}

=== FILE: numeric.dfy ===
/** Exact-real stand-ins for the few numeric operations of the dashboard:
    `toFixed` rounding, sums, means and percentages. */
module Numeric {

  /** `parseFloat(x.toFixed(d))` read on exact reals, with `scale = 10^d`:
      the multiple of `1/scale` nearest to `x`. `toFixed` rounds the
      magnitude and puts the sign back, so halves go away from zero:
      0.25 becomes 0.3 and -0.25 becomes -0.3. */
  function Round(x: real, scale: nat): (r: real)
    requires scale > 0
    ensures OnGrid(r, scale)
    ensures HalfAway(x, r, 1.0 / (2 * scale) as real)
    ensures x >= 0.0 ==> 0.0 <= r
    ensures x <= 0.0 ==> r <= 0.0
  {
    if x < 0.0 then
      var m := RoundMagnitude(-x, scale);
      OnGridNegate(m, scale);
      -m
    else RoundMagnitude(x, scale)
  }

  /** The rounding `toFixed` applies to a magnitude: halves round up. */
  function RoundMagnitude(x: real, scale: nat): (r: real)
    requires scale > 0
    ensures OnGrid(r, scale)
    ensures x - 1.0 / (2 * scale) as real < r <= x + 1.0 / (2 * scale) as real
    ensures x >= 0.0 ==> 0.0 <= r
  {
    var f := (x * scale as real + 0.5).Floor as real;
    RoundBounds(x, scale, f);
    f / scale as real
  }

  lemma OnGridNegate(m: real, scale: nat)
    requires OnGrid(m, scale)
    ensures OnGrid(-m, scale)
  {
    var k := (m * scale as real).Floor;
    assert -m * scale as real == (-k) as real;
  }

  /** `r` lies within `half` of `x`, the interval closed on the side away
      from zero: where `x` sits halfway between two candidates, the one
      farther from zero is taken. */
  predicate HalfAway(x: real, r: real, half: real)
  {
    if x >= 0.0 then x - half < r <= x + half else x - half <= r < x + half
  }

  /** `x` is a whole multiple of `1/scale`. */
  predicate OnGrid(x: real, scale: nat)
  {
    (x * scale as real).Floor as real == x * scale as real
  }

  /** Dividing the floor `f` of `x * scale + 1/2` by `scale` lands within
      `1/(2 scale)` of `x`, on the grid. */
  lemma RoundBounds(x: real, scale: nat, f: real)
    requires scale > 0
    requires f == (x * scale as real + 0.5).Floor as real
    ensures OnGrid(f / scale as real, scale)
    ensures x - 1.0 / (2 * scale) as real < f / scale as real <= x + 1.0 / (2 * scale) as real
    ensures x >= 0.0 ==> 0.0 <= f / scale as real
  {
    var s := scale as real;
    assert (2 * scale) as real == 2.0 * s;
    var r := f / s;
    assert r * s == f;
    assert x * s - 0.5 < f <= x * s + 0.5;
    var lo := x - 1.0 / (2.0 * s);
    var hi := x + 1.0 / (2.0 * s);
    assert lo * s == x * s - 0.5;
    assert hi * s == x * s + 0.5;
    ScaleMonotone(lo, r, s);
    ScaleMonotoneLe(r, hi, s);
  }

  lemma ScaleMonotone(a: real, b: real, s: real)
    requires s > 0.0
    requires a * s < b * s
    ensures a < b
  {
  }

  lemma ScaleMonotoneLe(a: real, b: real, s: real)
    requires s > 0.0
    requires a * s <= b * s
    ensures a <= b
  {
  }

  /** `toFixed` is symmetric in the sign. */
  lemma RoundOdd(x: real, scale: nat)
    requires scale > 0
    ensures Round(-x, scale) == -Round(x, scale)
  {
    if x == 0.0 {
      assert (0.0 * scale as real + 0.5).Floor == 0;
    }
  }

  /** A half rounds away from zero on either side. */
  lemma RoundHalves()
    ensures Round(0.25, 10) == 0.3
    ensures Round(-0.25, 10) == -0.3
  {
    assert (0.25 * 10.0 + 0.5).Floor == 3;
  }

  /** The contract of `Round` has one solution: a grid point in the interval
      it names is the rounded value. */
  lemma RoundUnique(x: real, scale: nat, r: real)
    requires scale > 0
    requires OnGrid(r, scale)
    requires HalfAway(x, r, 1.0 / (2 * scale) as real)
    ensures r == Round(x, scale)
  {
    if x < 0.0 {
      OnGridNegate(r, scale);
      RoundMagnitudeUnique(-x, scale, -r);
    } else {
      RoundMagnitudeUnique(x, scale, r);
    }
  }

  /** The grid point in `(y - 1/(2 scale), y + 1/(2 scale)]` is the one
      `RoundMagnitude` picks. */
  lemma RoundMagnitudeUnique(y: real, scale: nat, r: real)
    requires scale > 0
    requires OnGrid(r, scale)
    requires y - 1.0 / (2 * scale) as real < r <= y + 1.0 / (2 * scale) as real
    ensures r == RoundMagnitude(y, scale)
  {
    var i := GridIndex(r, scale);
    ScaleInterval(y, scale, r);
    MagnitudeAt(y, scale, i);
    assert r == (r * scale as real) / scale as real;
  }

  /** The half-step interval around `y`, measured in steps. */
  lemma ScaleInterval(y: real, scale: nat, r: real)
    requires scale > 0
    requires y - 1.0 / (2 * scale) as real < r <= y + 1.0 / (2 * scale) as real
    ensures y * scale as real - 0.5 < r * scale as real <= y * scale as real + 0.5
  {
    var h := 1.0 / (2 * scale) as real;
    assert (2 * scale) as real == 2.0 * scale as real;
    assert h * scale as real == 0.5;
    MulLt(y - h, r, scale as real);
    MulLe(r, y + h, scale as real);
    assert (y - h) * scale as real == y * scale as real - h * scale as real;
    assert (y + h) * scale as real == y * scale as real + h * scale as real;
  }

  /** `RoundMagnitude` lands on the step the floor picks. */
  lemma MagnitudeAt(y: real, scale: nat, i: int)
    requires scale > 0
    requires y * scale as real - 0.5 < i as real <= y * scale as real + 0.5
    ensures RoundMagnitude(y, scale) == i as real / scale as real
  {
    FloorUnique(y * scale as real + 0.5, i);
  }

  /** The whole number of steps a grid point lies at. */
  lemma GridIndex(r: real, scale: nat) returns (i: int)
    requires OnGrid(r, scale)
    ensures i as real == r * scale as real
  {
    i := (r * scale as real).Floor;
  }

  lemma FloorUnique(z: real, i: int)
    requires z - 1.0 < i as real <= z
    ensures i == z.Floor
  {
  }

  lemma MulLt(a: real, b: real, s: real)
    requires s > 0.0 && a < b
    ensures a * s < b * s
  {
    if a * s >= b * s {
      ScaleMonotoneLe(b, a, s);
    }
  }

  lemma MulLe(a: real, b: real, s: real)
    requires s > 0.0 && a <= b
    ensures a * s <= b * s
  {
    if a * s > b * s {
      ScaleMonotone(b, a, s);
    }
  }

  /** Sum of a sequence, `xs.reduce((a, b) => a + b, 0)`. */
  function Sum(xs: seq<real>): real
    decreases |xs|
  {
    if |xs| == 0 then 0.0 else Sum(xs[..|xs| - 1]) + xs[|xs| - 1]
  }

  lemma SumAppendOne(xs: seq<real>, x: real)
    ensures Sum(xs + [x]) == Sum(xs) + x
  {
    assert (xs + [x])[..|xs|] == xs;
  }

  /** Arithmetic mean of a non-empty sequence. */
  function Mean(xs: seq<real>): (m: real)
    requires |xs| > 0
    ensures m * |xs| as real == Sum(xs)
  {
    Sum(xs) / |xs| as real
  }

  lemma {:induction false} SumBounds(xs: seq<real>, lo: real, hi: real)
    requires forall i :: 0 <= i < |xs| ==> lo <= xs[i] <= hi
    ensures |xs| as real * lo <= Sum(xs) <= |xs| as real * hi
    decreases |xs|
  {
    if |xs| > 0 {
      var n := |xs| as real;
      var init := xs[..|xs| - 1];
      assert forall i :: 0 <= i < |init| ==> init[i] == xs[i];
      var m := |init| as real;
      SumBounds(init, lo, hi);
      assert m * lo <= Sum(init) <= m * hi;
      assert m + 1.0 == n;
      assert Sum(xs) == Sum(init) + xs[|xs| - 1];
      assert lo <= xs[|xs| - 1] <= hi;
      assert m * lo + lo == n * lo;
      assert m * hi + hi == n * hi;
    }
  }

  /** The mean lies between any lower and upper bound of the elements. */
  lemma MeanBounds(xs: seq<real>, lo: real, hi: real)
    requires |xs| > 0
    requires forall i :: 0 <= i < |xs| ==> lo <= xs[i] <= hi
    ensures lo <= Mean(xs) <= hi
  {
    SumBounds(xs, lo, hi);
    var n := |xs| as real;
    assert Mean(xs) * n == Sum(xs);
    ScaleMonotoneLe(lo, Mean(xs), n);
    ScaleMonotoneLe(Mean(xs), hi, n);
  }

  /** `total > 0 ? (part / total) * 100 : 0`. */
  function Percent(part: int, total: int): (r: real)
    ensures 0 <= part <= total ==> 0.0 <= r <= 100.0
    ensures total > 0 && part == total ==> r == 100.0
    ensures part == 0 ==> r == 0.0
    ensures total <= 0 ==> r == 0.0
    ensures total > 0 ==> (r == 0.0 <==> part == 0)
    ensures total > 0 ==> (r == 100.0 <==> part == total)
  {
    if total > 0 then
      var q := part as real / total as real;
      assert 0 <= part <= total ==> 0.0 <= q <= 1.0;
      assert q * total as real == part as real;
      q * 100.0
    else 0.0
  }
}

=== FILE: paging.dfy ===
/** The explorer table's pagination: ten rows a page, the slice a page
    shows, the "Showing a to b of n" line, the Previous/Next buttons and the
    window of at most five page buttons. */
module Paging {

  const RowsPerPage: nat := 10

  function Min(a: int, b: int): int { if a <= b then a else b }

  function Max(a: int, b: int): int { if a >= b then a else b }

  /** `Math.ceil(n / rowsPerPage)`. */
  function TotalPages(n: nat): (t: nat)
    ensures n <= t * RowsPerPage
    ensures t > 0 ==> (t - 1) * RowsPerPage < n
    ensures t == 0 <==> n == 0
  {
    (n + RowsPerPage - 1) / RowsPerPage
  }

  /** An index argument of `Array.prototype.slice`: negative counts from
      the end, and the result is clamped to `[0, len]`. */
  function SliceIndex(x: int, len: nat): (r: nat)
    ensures r <= len
    ensures 0 <= x <= len ==> r == x
    ensures x > len ==> r == len
  {
    if x < 0 then Max(len + x, 0)
    else Min(x, len)
  }

  /** `s.slice(start, end)`. */
  function Slice<T>(s: seq<T>, start: int, end: int): (r: seq<T>)
    ensures |r| <= |s|
    ensures 0 <= start <= end ==> r == s[Min(start, |s|)..Min(end, |s|)]
  {
    var from := SliceIndex(start, |s|);
    var to := SliceIndex(end, |s|);
    if from < to then s[from..to] else []
  }

  /** `paginatedData`: the rows of page `page`, counted from 1. */
  function PageRows<T>(rows: seq<T>, page: int): (r: seq<T>)
    ensures page >= 1 ==> r == rows[Min((page - 1) * RowsPerPage, |rows|)..Min(page * RowsPerPage, |rows|)]
    ensures |r| <= RowsPerPage
  {
    var start := (page - 1) * RowsPerPage;
    Slice(rows, start, start + RowsPerPage)
  }

  /** A page in range is never empty, a page past the last is, and only the
      last page can be short. */
  lemma PageSizes<T>(rows: seq<T>, page: int)
    requires page >= 1
    ensures page <= TotalPages(|rows|) ==> |PageRows(rows, page)| > 0
    ensures page > TotalPages(|rows|) ==> PageRows(rows, page) == []
    ensures page < TotalPages(|rows|) ==> |PageRows(rows, page)| == RowsPerPage
  {
  }

  /** Row `i` is on page `i / 10 + 1`, at position `i % 10`. */
  lemma RowIsOnItsPage<T>(rows: seq<T>, i: nat)
    requires i < |rows|
    ensures i / RowsPerPage + 1 <= TotalPages(|rows|)
    ensures var page := PageRows(rows, i / RowsPerPage + 1);
      i % RowsPerPage < |page| && page[i % RowsPerPage] == rows[i]
  {
  }

  /** Pages 1 to `k`, one after the other. */
  function FirstPages<T>(rows: seq<T>, k: nat): seq<T>
  {
    if k == 0 then [] else FirstPages(rows, k - 1) + PageRows(rows, k)
  }

  /** The first `k` pages are the first `10k` rows. */
  lemma {:induction false} FirstPagesArePrefix<T>(rows: seq<T>, k: nat)
    ensures FirstPages(rows, k) == rows[..Min(k * RowsPerPage, |rows|)]
  {
    if k > 0 {
      FirstPagesArePrefix(rows, k - 1);
      var a := Min((k - 1) * RowsPerPage, |rows|);
      var b := Min(k * RowsPerPage, |rows|);
      assert rows[..a] + rows[a..b] == rows[..b];
    }
  }

  /** Paging loses and repeats nothing: all pages together are the rows. */
  lemma PagesCoverRows<T>(rows: seq<T>)
    ensures FirstPages(rows, TotalPages(|rows|)) == rows
  {
    FirstPagesArePrefix(rows, TotalPages(|rows|));
  }

  /** The "Showing a to b of n results" numbers. */
  function ShowingFrom(n: nat, page: int): int
  {
    Min(n, (page - 1) * RowsPerPage + 1)
  }

  function ShowingTo(n: nat, page: int): int
  {
    Min(page * RowsPerPage, n)
  }

  /** On a page in range the line names exactly the rows the page shows, in
      1-based numbering. */
  lemma ShowingMatchesPage<T>(rows: seq<T>, page: int)
    requires 1 <= page <= TotalPages(|rows|)
    ensures 1 <= ShowingFrom(|rows|, page) <= ShowingTo(|rows|, page) <= |rows|
    ensures PageRows(rows, page) == rows[ShowingFrom(|rows|, page) - 1..ShowingTo(|rows|, page)]
  {
  }

  /** The Previous button: `Math.max(prev - 1, 1)`. */
  function PrevPage(page: int): int
  {
    Max(page - 1, 1)
  }

  /** The Next button: `Math.min(prev + 1, totalPages)`. */
  function NextPage(page: int, total: nat): int
  {
    Min(page + 1, total)
  }

  /** The buttons keep the page in range, undo each other away from the
      ends, and are disabled exactly where they would do nothing. */
  lemma PrevNextSpec(page: int, total: nat)
    requires 1 <= page <= total
    ensures 1 <= PrevPage(page) <= total && 1 <= NextPage(page, total) <= total
    ensures page > 1 ==> NextPage(PrevPage(page), total) == page
    ensures page < total ==> PrevPage(NextPage(page, total)) == page
    ensures page == 1 <==> PrevPage(page) == page
    ensures page == total <==> NextPage(page, total) == page
  {
  }

  /** The label of the `i`-th page button: pages 1 to 5, or a window from
      two before the current page once past page 3 of more than five. */
  function ButtonAt(i: nat, page: int, total: nat): int
  {
    if total > 5 && page > 3 then page - 2 + i else i + 1
  }

  /** The buttons from the `i`-th on, dropping labels past the last page. */
  function ButtonsFrom(i: nat, page: int, total: nat): seq<int>
    decreases Min(5, total) - i
  {
    if i >= Min(5, total) then []
    else
      var b := ButtonAt(i, page, total);
      (if b > total then [] else [b]) + ButtonsFrom(i + 1, page, total)
  }

  function PageButtons(page: int, total: nat): seq<int>
  {
    ButtonsFrom(0, page, total)
  }

  /** `[lo, lo + 1, ..., hi]`. */
  function Range(lo: int, hi: int): (r: seq<int>)
    ensures |r| == Max(hi - lo + 1, 0)
    ensures forall k :: 0 <= k < |r| ==> r[k] == lo + k
    decreases hi - lo
  {
    if lo > hi then [] else [lo] + Range(lo + 1, hi)
  }

  /** The first and last page button. */
  function WindowLo(page: int, total: nat): int
  {
    if total > 5 && page > 3 then page - 2 else 1
  }

  function WindowHi(page: int, total: nat): int
  {
    if total > 5 && page > 3 then Min(page + 2, total) else Min(5, total)
  }

  lemma {:induction false} ButtonsFromRange(i: nat, page: int, total: nat)
    requires i <= Min(5, total)
    requires page >= 1
    ensures ButtonsFrom(i, page, total) == Range(ButtonAt(i, page, total), WindowHi(page, total))
    decreases Min(5, total) - i
  {
    if i < Min(5, total) {
      ButtonsFromRange(i + 1, page, total);
      var b := ButtonAt(i, page, total);
      if b > total {
        assert ButtonAt(i + 1, page, total) > WindowHi(page, total);
      }
    }
  }

  /** The page buttons are the consecutive pages from `WindowLo` to
      `WindowHi`: within the pages, at most five, and always including the
      current page. */
  lemma PageButtonsWindow(page: int, total: nat)
    requires 1 <= page <= total
    ensures PageButtons(page, total) == Range(WindowLo(page, total), WindowHi(page, total))
    ensures 1 <= WindowLo(page, total) <= page <= WindowHi(page, total) <= total
    ensures page in PageButtons(page, total)
    ensures |PageButtons(page, total)| <= 5
    ensures forall b :: b in PageButtons(page, total) ==> 1 <= b <= total
  {
    ButtonsFromRange(0, page, total);
    var r := PageButtons(page, total);
    assert r[page - WindowLo(page, total)] == page;
  }
}

=== FILE: passengers.dfy ===
/** The passenger record of the Titanic dataset and the counting helpers the
    cleaning, statistics and chart modules share. */
module Passengers {

  /** A value that may be absent: `null` in a parsed CSV cell. */
  datatype Option<+T> = None | Some(value: T)

  /** One passenger row.  Age and Fare are parsed numbers or `null`; Cabin and
      Embarked are strings or `null`.  FamilySize and Title are the two derived
      columns that cleaning may attach; `None` means the key is not present. */
  datatype Passenger = Passenger(
    PassengerId: int,
    Survived: int,
    Pclass: int,
    Name: string,
    Sex: string,
    Age: Option<real>,
    SibSp: int,
    Parch: int,
    Ticket: string,
    Fare: Option<real>,
    Cabin: Option<string>,
    Embarked: Option<string>,
    FamilySize: Option<int>,
    Title: Option<string>)

  /** `m` is `s` with some elements dropped, order kept: what a `.filter`
      leaves of its input. */
  predicate Subsequence<T(==)>(m: seq<T>, s: seq<T>)
    decreases |s|
  {
    if |m| == 0 then true
    else if |s| == 0 then false
    else if m[0] == s[0] then Subsequence(m[1..], s[1..])
    else Subsequence(m, s[1..])
  }

  predicate IsSurvivor(p: Passenger) { p.Survived == 1 }
  predicate HasAge(p: Passenger) { p.Age.Some? }
  predicate LacksAge(p: Passenger) { p.Age.None? }
  predicate IsMale(p: Passenger) { p.Sex == "male" }
  predicate IsFemale(p: Passenger) { p.Sex == "female" }
  predicate InFirstClass(p: Passenger) { p.Pclass == 1 }
  predicate InSecondClass(p: Passenger) { p.Pclass == 2 }
  predicate InThirdClass(p: Passenger) { p.Pclass == 3 }

  /** Number of records satisfying `p`, i.e. `rs.filter(p).length`. */
  function Count(rs: seq<Passenger>, p: Passenger -> bool): (n: nat)
    ensures n <= |rs|
    decreases |rs|
  {
    if |rs| == 0 then 0
    else Count(rs[..|rs| - 1], p) + (if p(rs[|rs| - 1]) then 1 else 0)
  }

  lemma {:induction false} CountAppend(a: seq<Passenger>, b: seq<Passenger>, p: Passenger -> bool)
    ensures Count(a + b, p) == Count(a, p) + Count(b, p)
    decreases |b|
  {
    if |b| == 0 {
      assert a + b == a;
    } else {
      assert (a + b)[..|a + b| - 1] == a + b[..|b| - 1];
      CountAppend(a, b[..|b| - 1], p);
    }
  }

  /** `Count` is zero exactly when no record satisfies the predicate. */
  lemma {:induction false} CountZero(rs: seq<Passenger>, p: Passenger -> bool)
    ensures Count(rs, p) == 0 <==> forall i :: 0 <= i < |rs| ==> !p(rs[i])
    decreases |rs|
  {
    if |rs| > 0 {
      CountZero(rs[..|rs| - 1], p);
      assert forall i :: 0 <= i < |rs| - 1 ==> rs[..|rs| - 1][i] == rs[i];
    }
  }

  /** Two predicates that agree on every record count the same records. */
  lemma {:induction false} CountCongruent(rs: seq<Passenger>, p: Passenger -> bool, q: Passenger -> bool)
    requires forall i :: 0 <= i < |rs| ==> p(rs[i]) == q(rs[i])
    ensures Count(rs, p) == Count(rs, q)
    decreases |rs|
  {
    if |rs| > 0 {
      var init := rs[..|rs| - 1];
      assert forall i :: 0 <= i < |init| ==> init[i] == rs[i];
      CountCongruent(init, p, q);
    }
  }

  /** Two record sets that agree record by record on a predicate count the
      same number of records. */
  lemma {:induction false} CountPointwise(a: seq<Passenger>, b: seq<Passenger>, p: Passenger -> bool)
    requires |a| == |b|
    requires forall i :: 0 <= i < |a| ==> p(a[i]) == p(b[i])
    ensures Count(a, p) == Count(b, p)
    decreases |a|
  {
    if |a| > 0 {
      CountPointwise(a[..|a| - 1], b[..|b| - 1], p);
    }
  }

  /** A predicate every record satisfies counts every record. */
  lemma {:induction false} CountEvery(rs: seq<Passenger>, p: Passenger -> bool)
    requires forall i :: 0 <= i < |rs| ==> p(rs[i])
    ensures Count(rs, p) == |rs|
    decreases |rs|
  {
    if |rs| > 0 {
      CountEvery(rs[..|rs| - 1], p);
    }
  }

  /** Records satisfying two mutually exclusive predicates are never counted twice. */
  lemma {:induction false} CountDisjoint(rs: seq<Passenger>, p: Passenger -> bool, q: Passenger -> bool)
    requires forall x :: !(p(x) && q(x))
    ensures Count(rs, p) + Count(rs, q) <= |rs|
    decreases |rs|
  {
    if |rs| > 0 {
      CountDisjoint(rs[..|rs| - 1], p, q);
    }
  }

  /** A predicate and its complement split the records between them. */
  lemma {:induction false} CountSplit(rs: seq<Passenger>, p: Passenger -> bool, q: Passenger -> bool)
    requires forall x :: p(x) != q(x)
    ensures Count(rs, p) + Count(rs, q) == |rs|
    decreases |rs|
  {
    if |rs| > 0 {
      CountSplit(rs[..|rs| - 1], p, q);
    }
  }

  /** Three pairwise exclusive predicates count at most every record once. */
  lemma {:induction false} CountDisjoint3(rs: seq<Passenger>, p: Passenger -> bool, q: Passenger -> bool, s: Passenger -> bool)
    requires forall x :: !(p(x) && q(x)) && !(p(x) && s(x)) && !(q(x) && s(x))
    ensures Count(rs, p) + Count(rs, q) + Count(rs, s) <= |rs|
    decreases |rs|
  {
    if |rs| > 0 {
      CountDisjoint3(rs[..|rs| - 1], p, q, s);
    }
  }

  /** The non-null ages, in record order:
      `rs.filter(p => p.Age !== null).map(p => p.Age)`. */
  function ValidAges(rs: seq<Passenger>): (ages: seq<real>)
    ensures |ages| == Count(rs, HasAge)
    ensures forall x :: x in ages <==> exists i :: 0 <= i < |rs| && rs[i].Age == Some(x)
    decreases |rs|
  {
    if |rs| == 0 then []
    else
      var init := rs[..|rs| - 1];
      var last := rs[|rs| - 1];
      assert forall i :: 0 <= i < |init| ==> init[i] == rs[i];
      ValidAges(init) + (if last.Age.Some? then [last.Age.value] else [])
  }

  /** The records whose age is exactly `x`. */
  function AgeIs(x: real): Passenger -> bool
  {
    (p: Passenger) => p.Age == Some(x)
  }

  /** Each age occurs in `ValidAges` once per record that has it. */
  lemma {:induction false} ValidAgesCounts(rs: seq<Passenger>, x: real)
    ensures multiset(ValidAges(rs))[x] == Count(rs, AgeIs(x))
    decreases |rs|
  {
    if |rs| > 0 {
      ValidAgesCounts(rs[..|rs| - 1], x);
    }
  }

  /** Every record either has an age or lacks one. */
  lemma AgesPartition(rs: seq<Passenger>)
    ensures Count(rs, LacksAge) + |ValidAges(rs)| == |rs|
  {
    CountSplit(rs, LacksAge, HasAge);
  }

  /** `ValidAges` looks at nothing but the Age field. */
  lemma {:induction false} ValidAgesOnlyReadAge(a: seq<Passenger>, b: seq<Passenger>)
    requires |a| == |b|
    requires forall i :: 0 <= i < |a| ==> a[i].Age == b[i].Age
    ensures ValidAges(a) == ValidAges(b)
    decreases |a|
  {
    if |a| > 0 {
      ValidAgesOnlyReadAge(a[..|a| - 1], b[..|b| - 1]);
    }
  }
}

=== FILE: sorting.dfy ===
/** Ascending sort of numbers, `[...xs].sort((a, b) => a - b)`, and the
    order-statistic facts the age median, minimum and maximum rely on. */
module AgeSort {

  predicate Sorted(s: seq<real>)
  {
    forall i, j :: 0 <= i < j < |s| ==> s[i] <= s[j]
  }

  /** Places `x` before the first element not below it. */
  function Insert(x: real, s: seq<real>): (r: seq<real>)
    ensures multiset(r) == multiset(s) + multiset{x}
    ensures |r| == |s| + 1
    decreases |s|
  {
    if |s| == 0 then [x]
    else if x <= s[0] then [x] + s
    else
      assert s == [s[0]] + s[1..];
      [s[0]] + Insert(x, s[1..])
  }

  /** The tail of a sorted sequence is sorted. */
  lemma SortedTail(s: seq<real>)
    requires Sorted(s) && |s| > 0
    ensures Sorted(s[1..])
  {
    forall i, j | 0 <= i < j < |s| - 1
      ensures s[1..][i] <= s[1..][j]
    {
      assert s[1..][i] == s[i + 1] && s[1..][j] == s[j + 1];
    }
  }

  /** A head no larger than every element of a sorted tail keeps it sorted. */
  lemma PrependSorted(h: real, t: seq<real>)
    requires Sorted(t)
    requires forall k :: 0 <= k < |t| ==> h <= t[k]
    ensures Sorted([h] + t)
  {
    var r := [h] + t;
    forall i, j | 0 <= i < j < |r|
      ensures r[i] <= r[j]
    {
      assert r[j] == t[j - 1];
      if i > 0 {
        assert r[i] == t[i - 1];
      }
    }
  }

  /** Inserting into a sorted sequence keeps it sorted. */
  lemma {:induction false} InsertSorted(x: real, s: seq<real>)
    requires Sorted(s)
    ensures Sorted(Insert(x, s))
    decreases |s|
  {
    if |s| == 0 {
    } else if x <= s[0] {
      PrependSorted(x, s);
    } else {
      SortedTail(s);
      var tail := Insert(x, s[1..]);
      InsertSorted(x, s[1..]);
      forall k | 0 <= k < |tail|
        ensures s[0] <= tail[k]
      {
        assert tail[k] in multiset(tail);
        if tail[k] != x {
          assert tail[k] in multiset(s[1..]);
          assert s[1..][0] == s[1];
          var m :| 0 <= m < |s[1..]| && s[1..][m] == tail[k];
          assert s[0] <= s[m + 1];
        }
      }
      PrependSorted(s[0], tail);
    }
  }

  /** Insertion sort: an ascending permutation of `s`. */
  function Sort(s: seq<real>): (r: seq<real>)
    ensures Sorted(r)
    ensures multiset(r) == multiset(s)
    ensures |r| == |s|
    decreases |s|
  {
    if |s| == 0 then []
    else
      assert s == [s[0]] + s[1..];
      InsertSorted(s[0], Sort(s[1..]));
      Insert(s[0], Sort(s[1..]))
  }

  /** Number of elements strictly below `v`. */
  function CountBelow(s: seq<real>, v: real): nat
    decreases |s|
  {
    if |s| == 0 then 0 else (if s[0] < v then 1 else 0) + CountBelow(s[1..], v)
  }

  /** Number of elements at most `v`. */
  function CountAtMost(s: seq<real>, v: real): nat
    decreases |s|
  {
    if |s| == 0 then 0 else (if s[0] <= v then 1 else 0) + CountAtMost(s[1..], v)
  }

  /** Inserting adds `x` to the counts below and at most any bound. */
  lemma {:induction false} InsertCounts(x: real, s: seq<real>, v: real)
    ensures CountBelow(Insert(x, s), v) == CountBelow(s, v) + (if x < v then 1 else 0)
    ensures CountAtMost(Insert(x, s), v) == CountAtMost(s, v) + (if x <= v then 1 else 0)
    decreases |s|
  {
    if |s| > 0 && x > s[0] {
      InsertCounts(x, s[1..], v);
      var r := Insert(x, s);
      assert r == [s[0]] + Insert(x, s[1..]);
      assert r[0] == s[0] && r[1..] == Insert(x, s[1..]);
    } else if |s| > 0 {
      var r := Insert(x, s);
      assert r == [x] + s;
      assert r[0] == x && r[1..] == s;
    }
  }

  /** Sorting neither adds nor removes an element below (or at most) any bound. */
  lemma {:induction false} SortKeepsCounts(s: seq<real>, v: real)
    ensures CountBelow(Sort(s), v) == CountBelow(s, v)
    ensures CountAtMost(Sort(s), v) == CountAtMost(s, v)
    decreases |s|
  {
    if |s| > 0 {
      SortKeepsCounts(s[1..], v);
      InsertCounts(s[0], Sort(s[1..]), v);
    }
  }

  lemma {:induction false} NoneBelow(s: seq<real>, v: real)
    requires forall i :: 0 <= i < |s| ==> v <= s[i]
    ensures CountBelow(s, v) == 0
    decreases |s|
  {
    if |s| > 0 {
      NoneBelow(s[1..], v);
    }
  }

  /** In a sorted sequence the element at position `k` has at most `k`
      elements strictly below it and at least `k + 1` elements at most it. */
  lemma {:induction false} OrderStatistic(s: seq<real>, k: nat)
    requires Sorted(s)
    requires k < |s|
    ensures CountBelow(s, s[k]) <= k
    ensures CountAtMost(s, s[k]) >= k + 1
    decreases k
  {
    if k == 0 {
      NoneBelow(s, s[0]);
    } else {
      OrderStatistic(s[1..], k - 1);
      assert s[1..][k - 1] == s[k];
    }
  }
}

=== FILE: statistics.dfy ===
/** The statistics summary `updateDataStats` publishes for the cleaned
    records: passenger total, survival rate, age figures, sex and class counts. */
module Statistics {
  import opened Passengers
  import Numeric
  import AgeSort

  datatype AgeStats = AgeStats(average: real, median: real, min: real, max: real, missing: nat)
  datatype GenderDistribution = GenderDistribution(male: nat, female: nat)
  datatype ClassDistribution = ClassDistribution(first: nat, second: nat, third: nat)

  datatype DataStats = DataStats(
    totalPassengers: nat,
    survivalRate: real,
    ageStats: AgeStats,
    genderDistribution: GenderDistribution,
    classDistribution: ClassDistribution)

  /** The summary the store starts with: every figure zero. */
  const InitialStats: DataStats :=
    DataStats(0, 0.0, AgeStats(0.0, 0.0, 0.0, 0.0, 0), GenderDistribution(0, 0), ClassDistribution(0, 0, 0))

  /** Age figures over the non-null ages: mean to two decimals, the upper
      median `sorted[floor(n/2)]`, the extremes, and the number of null ages.
      Without any valid age the four figures are 0. */
  function ComputeAgeStats(rs: seq<Passenger>): (a: AgeStats)
    ensures a.missing + |ValidAges(rs)| == |rs|
    ensures |ValidAges(rs)| == 0 ==> a.average == 0.0 && a.median == 0.0 && a.min == 0.0 && a.max == 0.0
    ensures |ValidAges(rs)| > 0 ==>
      var ages := ValidAges(rs);
      && a.min in ages && a.max in ages && a.median in ages
      && (forall i :: 0 <= i < |ages| ==> a.min <= ages[i] <= a.max)
      && AgeSort.CountBelow(ages, a.median) <= |ages| / 2
      && AgeSort.CountAtMost(ages, a.median) >= |ages| / 2 + 1
      && Numeric.OnGrid(a.average, 100)
      && Numeric.HalfAway(Numeric.Mean(ages), a.average, 0.005)
  {
    var ages := ValidAges(rs);
    AgesPartition(rs);
    if |ages| == 0 then AgeStats(0.0, 0.0, 0.0, 0.0, Count(rs, LacksAge))
    else
      var sorted := AgeSort.Sort(ages);
      var n := |sorted|;
      SortedExtremes(ages, sorted);
      UpperMedian(ages, sorted);
      var average := Numeric.Round(Numeric.Mean(ages), 100);
      CentsBounds(Numeric.Mean(ages), average);
      AgeStats(average, sorted[n / 2], sorted[0], sorted[n - 1], Count(rs, LacksAge))
  }

  lemma CentsBounds(x: real, r: real)
    requires r == Numeric.Round(x, 100)
    ensures Numeric.OnGrid(r, 100)
    ensures Numeric.HalfAway(x, r, 0.005)
  {
    assert 1.0 / (2 * 100) as real == 0.005;
  }

  /** `sorted[floor(n/2)]` is an age with at most `floor(n/2)` ages below it
      and more than `floor(n/2)` ages at most it. */
  lemma UpperMedian(ages: seq<real>, sorted: seq<real>)
    requires |ages| > 0
    requires sorted == AgeSort.Sort(ages)
    ensures sorted[|sorted| / 2] in ages
    ensures AgeSort.CountBelow(ages, sorted[|sorted| / 2]) <= |ages| / 2
    ensures AgeSort.CountAtMost(ages, sorted[|sorted| / 2]) >= |ages| / 2 + 1
  {
    var m := sorted[|sorted| / 2];
    AgeSort.SortKeepsCounts(ages, m);
    AgeSort.OrderStatistic(sorted, |sorted| / 2);
    assert m in multiset(sorted);
  }

  /** The first and last element of the sorted ages bound every age, and are ages. */
  lemma SortedExtremes(ages: seq<real>, sorted: seq<real>)
    requires |ages| > 0
    requires sorted == AgeSort.Sort(ages)
    ensures sorted[0] in ages && sorted[|sorted| - 1] in ages
    ensures forall i :: 0 <= i < |ages| ==> sorted[0] <= ages[i] <= sorted[|sorted| - 1]
  {
    ExtremesOf(ages, sorted);
  }

  /** The ends of any ascending permutation bound the ages and are ages. */
  lemma ExtremesOf(ages: seq<real>, sorted: seq<real>)
    requires |ages| > 0
    requires AgeSort.Sorted(sorted) && multiset(sorted) == multiset(ages)
    ensures |sorted| == |ages|
    ensures sorted[0] in ages && sorted[|sorted| - 1] in ages
    ensures forall i :: 0 <= i < |ages| ==> sorted[0] <= ages[i] <= sorted[|sorted| - 1]
  {
    assert |multiset(sorted)| == |multiset(ages)|;
    assert sorted[0] in multiset(sorted);
    assert sorted[|sorted| - 1] in multiset(sorted);
    forall i | 0 <= i < |ages|
      ensures sorted[0] <= ages[i] <= sorted[|sorted| - 1]
    {
      assert ages[i] in multiset(sorted);
      var j :| 0 <= j < |sorted| && sorted[j] == ages[i];
      assert sorted[0] <= sorted[j] <= sorted[|sorted| - 1];
    }
  }

  /** `updateDataStats`: does nothing on an empty record set, otherwise
      replaces the summary wholesale with figures computed from `rs`. */
  function UpdateDataStats(rs: seq<Passenger>, prior: DataStats): (s: DataStats)
    ensures |rs| == 0 ==> s == prior
    ensures |rs| > 0 ==>
      && s.totalPassengers == |rs|
      && s.survivalRate == Numeric.Percent(Count(rs, IsSurvivor), |rs|)
      && 0.0 <= s.survivalRate <= 100.0
      && s.ageStats == ComputeAgeStats(rs)
      && s.ageStats.missing + |ValidAges(rs)| == s.totalPassengers
      && s.genderDistribution == GenderDistribution(Count(rs, IsMale), Count(rs, IsFemale))
      && s.genderDistribution.male + s.genderDistribution.female <= s.totalPassengers
      && s.classDistribution == ClassDistribution(Count(rs, InFirstClass), Count(rs, InSecondClass), Count(rs, InThirdClass))
      && s.classDistribution.first + s.classDistribution.second + s.classDistribution.third <= s.totalPassengers
  {
    if |rs| == 0 then prior
    else
      CountDisjoint(rs, IsMale, IsFemale);
      CountDisjoint3(rs, InFirstClass, InSecondClass, InThirdClass);
      DataStats(
        |rs|,
        Numeric.Percent(Count(rs, IsSurvivor), |rs|),
        ComputeAgeStats(rs),
        GenderDistribution(Count(rs, IsMale), Count(rs, IsFemale)),
        ClassDistribution(Count(rs, InFirstClass), Count(rs, InSecondClass), Count(rs, InThirdClass)))
  }

  /** On non-empty input the summary depends on the records only, so running
      the refresh again changes nothing. */
  lemma UpdateIsIdempotent(rs: seq<Passenger>, prior: DataStats)
    ensures UpdateDataStats(rs, UpdateDataStats(rs, prior)) == UpdateDataStats(rs, prior)
  {
  }

  /** The upper median lies between the minimum and the maximum. */
  lemma MedianBetweenExtremes(rs: seq<Passenger>)
    ensures ComputeAgeStats(rs).min <= ComputeAgeStats(rs).median <= ComputeAgeStats(rs).max
  {
    var a := ComputeAgeStats(rs);
    var ages := ValidAges(rs);
    if |ages| > 0 {
      var k :| 0 <= k < |ages| && ages[k] == a.median;
    }
  }
}

=== FILE: store.dfy ===
/** The shared data store: raw and cleaned records, the statistics summary,
    the loading flag and the file name, with the dashboard's refresh of the
    summary whenever the cleaned records change. */
module Store {
  import opened Passengers
  import Statistics
  import Cleaning

  datatype Store = Store(
    rawData: seq<Passenger>,
    cleanedData: seq<Passenger>,
    dataStats: Statistics.DataStats,
    loading: bool,
    fileName: string)

  /** The provider's initial state: no data, the zero summary, not loading. */
  const Empty := Store([], [], Statistics.InitialStats, false, "")

  /** The summary a non-empty record set has, whatever came before. */
  lemma {:induction false} UpdateForgetsPrior(rs: seq<Passenger>, a: Statistics.DataStats, b: Statistics.DataStats)
    requires |rs| > 0
    ensures Statistics.UpdateDataStats(rs, a) == Statistics.UpdateDataStats(rs, b)
  {
  }

  /** The summary is the one computed from the cleaned records, when there
      are any. */
  predicate StatsCurrent(s: Store)
  {
    |s.cleanedData| > 0 ==> s.dataStats == Statistics.UpdateDataStats(s.cleanedData, Statistics.InitialStats)
  }

  lemma EmptyIsCurrent()
    ensures StatsCurrent(Empty)
  {
  }

  /** The dashboard's effect: recompute the summary when there are cleaned
      records, leave everything else alone. */
  function Refresh(s: Store): (r: Store)
    ensures r.(dataStats := s.dataStats) == s
    ensures |s.cleanedData| == 0 ==> r == s
    ensures StatsCurrent(r)
  {
    if |s.cleanedData| > 0 then
      UpdateForgetsPrior(s.cleanedData, s.dataStats, Statistics.InitialStats);
      s.(dataStats := Statistics.UpdateDataStats(s.cleanedData, s.dataStats))
    else s
  }

  /** Refreshing a current store changes nothing. */
  lemma RefreshIdempotent(s: Store)
    requires StatsCurrent(s)
    ensures Refresh(s) == s
  {
    if |s.cleanedData| > 0 {
      UpdateForgetsPrior(s.cleanedData, s.dataStats, Statistics.InitialStats);
      Statistics.UpdateIsIdempotent(s.cleanedData, Statistics.InitialStats);
    }
  }

  /** `setCleanedData(rows)` followed by the refresh it triggers. */
  function SetCleaned(s: Store, rows: seq<Passenger>): (r: Store)
    ensures r.cleanedData == rows && r.rawData == s.rawData
    ensures r.loading == s.loading && r.fileName == s.fileName
    ensures StatsCurrent(r)
    ensures |rows| == 0 ==> r.dataStats == s.dataStats
  {
    Refresh(s.(cleanedData := rows))
  }

  /** A successful load: the rows become both the raw and the cleaned data,
      the name is recorded and loading ends. */
  function LoadRows(s: Store, rows: seq<Passenger>, name: string): (r: Store)
    ensures r.rawData == rows && r.cleanedData == rows
    ensures r.fileName == name && !r.loading
    ensures StatsCurrent(r)
  {
    SetCleaned(s.(rawData := rows, fileName := name, loading := false), rows)
  }

  /** `cleanData(options)`: the cleaned records are the raw records through
      the enabled stages; the raw records are kept. */
  function CleanStore(s: Store, opts: Cleaning.CleaningOptions): (r: Store)
    requires opts.fillMissingAges ==> Cleaning.AgeFillDefined(s.rawData)
    ensures r.rawData == s.rawData && r.fileName == s.fileName && r.loading == s.loading
    ensures r.cleanedData == Cleaning.CleanData(s.rawData, opts)
    ensures |r.cleanedData| == |s.rawData|
    ensures StatsCurrent(r)
  {
    SetCleaned(s, Cleaning.CleanData(s.rawData, opts))
  }

  /** Cleaning again with the same options gives the same store. */
  lemma CleanStoreRepeatable(s: Store, opts: Cleaning.CleaningOptions)
    requires opts.fillMissingAges ==> Cleaning.AgeFillDefined(s.rawData)
    ensures CleanStore(CleanStore(s, opts), opts) == CleanStore(s, opts)
  {
    var r := CleanStore(s, opts);
    assert r.(cleanedData := Cleaning.CleanData(s.rawData, opts)) == r;
    RefreshIdempotent(r);
  }
}

=== FILE: table.dfy ===
/** The explorer table's view of a record: its key/value pairs in key order,
    the columns shown, the free-text search over every value and the text a
    cell displays.  Numbers are rendered by a `show` parameter standing for
    JavaScript's `String(number)`. */
module Table {
  import opened Passengers
  import Text

  /** A JavaScript value held by a record key. */
  datatype Cell = Null | Bool(b: bool) | Num(x: real) | Text(s: string)

  /** One `[key, value]` pair of a record. */
  datatype Field = Field(key: string, value: Cell)

  function IntCell(n: int): Cell { Num(n as real) }

  function RealCell(v: Option<real>): Cell
  {
    match v
    case None => Null
    case Some(x) => Num(x)
  }

  function TextCell(v: Option<string>): Cell
  {
    match v
    case None => Null
    case Some(s) => Text(s)
  }

  /** The dataset's columns in file order, then the derived columns in the
      order cleaning adds them. */
  const BaseKeys: seq<string> :=
    ["PassengerId", "Survived", "Pclass", "Name", "Sex", "Age", "SibSp", "Parch", "Ticket", "Fare", "Cabin", "Embarked"]

  /** No column name is repeated, and neither derived column is a base one. */
  lemma BaseKeysDistinct()
    ensures forall i, j :: 0 <= i < j < |BaseKeys| ==> BaseKeys[i] != BaseKeys[j]
    ensures "FamilySize" !in BaseKeys && "Title" !in BaseKeys
  {
  }

  /** The base columns' pairs, in file order. */
  function BaseFields(p: Passenger): (fs: seq<Field>)
    ensures |fs| == 12
    ensures forall k :: 0 <= k < 12 ==> fs[k].key == BaseKeys[k]
  {
    [ Field("PassengerId", IntCell(p.PassengerId)),
      Field("Survived", IntCell(p.Survived)),
      Field("Pclass", IntCell(p.Pclass)),
      Field("Name", Text(p.Name)),
      Field("Sex", Text(p.Sex)),
      Field("Age", RealCell(p.Age)),
      Field("SibSp", IntCell(p.SibSp)),
      Field("Parch", IntCell(p.Parch)),
      Field("Ticket", Text(p.Ticket)),
      Field("Fare", RealCell(p.Fare)),
      Field("Cabin", TextCell(p.Cabin)),
      Field("Embarked", TextCell(p.Embarked)) ]
  }

  /** The derived pairs cleaning attached: FamilySize, then Title. */
  function ExtraFields(p: Passenger): (fs: seq<Field>)
    ensures forall k :: 0 <= k < |fs| ==> fs[k].key in {"FamilySize", "Title"}
    ensures forall i, j :: 0 <= i < j < |fs| ==> fs[i].key != fs[j].key
    ensures p.FamilySize.None? ==> forall k :: 0 <= k < |fs| ==> fs[k].key != "FamilySize"
    ensures p.Title.None? ==> forall k :: 0 <= k < |fs| ==> fs[k].key != "Title"
  {
    (match p.FamilySize case None => [] case Some(n) => [Field("FamilySize", IntCell(n))])
    + (match p.Title case None => [] case Some(t) => [Field("Title", Text(t))])
  }

  /** `Object.entries(p)`: the base columns, then FamilySize and Title when
      cleaning attached them. */
  function Fields(p: Passenger): (fs: seq<Field>)
    ensures |fs| >= 12 && fs[..12] == BaseFields(p)
    ensures forall k :: 0 <= k < 12 ==> fs[k].key == BaseKeys[k]
    ensures forall k :: 12 <= k < |fs| ==> fs[k].key in {"FamilySize", "Title"}
    ensures forall i, j :: 0 <= i < j < |fs| ==> fs[i].key != fs[j].key
    ensures p.FamilySize.None? ==> forall k :: 0 <= k < |fs| ==> fs[k].key != "FamilySize"
    ensures p.Title.None? ==> forall k :: 0 <= k < |fs| ==> fs[k].key != "Title"
    ensures |fs| == 12 + (if p.FamilySize.Some? then 1 else 0) + (if p.Title.Some? then 1 else 0)
    ensures p.FamilySize.Some? ==> fs[12] == Field("FamilySize", IntCell(p.FamilySize.value))
    ensures p.Title.Some? ==> fs[|fs| - 1] == Field("Title", Text(p.Title.value))
  {
    var base := BaseFields(p);
    var extra := ExtraFields(p);
    var fs := base + extra;
    BaseKeysDistinct();
    assert forall k :: 0 <= k < 12 ==> fs[k] == base[k];
    assert forall k :: 12 <= k < |fs| ==> fs[k] == extra[k - 12];
    assert forall k :: 0 <= k < 12 ==> base[k].key in BaseKeys;
    assert fs[..12] == base;
    fs
  }

  /** `row[key]`: the value under `key`; a key the record lacks reads as
      `undefined`, which every consumer treats like `null`. */
  function Lookup(fs: seq<Field>, key: string): (c: Cell)
    ensures c != Null ==> exists k :: 0 <= k < |fs| && fs[k] == Field(key, c)
    ensures (forall k :: 0 <= k < |fs| ==> fs[k].key != key) ==> c == Null
    decreases |fs|
  {
    if |fs| == 0 then Null
    else if fs[0].key == key then fs[0].value
    else
      var c := Lookup(fs[1..], key);
      assert forall k :: 0 <= k < |fs| - 1 ==> fs[1..][k] == fs[k + 1];
      c
  }

  /** With distinct keys, looking up the key at position `k` finds its value. */
  lemma {:induction false} LookupAt(fs: seq<Field>, k: nat)
    requires k < |fs|
    requires forall i, j :: 0 <= i < j < |fs| ==> fs[i].key != fs[j].key
    ensures Lookup(fs, fs[k].key) == fs[k].value
    decreases k
  {
    if k > 0 {
      assert fs[0].key != fs[k].key;
      LookupAt(fs[1..], k - 1);
    }
  }

  function CellOf(p: Passenger, key: string): Cell
  {
    Lookup(Fields(p), key)
  }

  /** The keys of a record's pairs, in order. */
  function Keys(fs: seq<Field>): (keys: seq<string>)
    ensures |keys| == |fs|
    ensures forall k :: 0 <= k < |fs| ==> keys[k] == fs[k].key
  {
    seq(|fs|, k requires 0 <= k < |fs| => fs[k].key)
  }

  /** The keys the table shows: all but Ticket and Cabin, in order. */
  function Shown(keys: seq<string>): (cols: seq<string>)
    ensures |cols| <= |keys|
    decreases |keys|
  {
    if |keys| == 0 then []
    else
      var rest := Shown(keys[1..]);
      if keys[0] == "Ticket" || keys[0] == "Cabin" then rest else [keys[0]] + rest
  }

  /** The shown keys are exactly the record's keys other than Ticket and Cabin. */
  lemma {:induction false} ShownMembers(keys: seq<string>)
    ensures forall x :: x in Shown(keys) <==> x in keys && x != "Ticket" && x != "Cabin"
    decreases |keys|
  {
    if |keys| > 0 {
      ShownMembers(keys[1..]);
      assert keys == [keys[0]] + keys[1..];
    }
  }

  /** The base columns the table shows, in file order. */
  const ShownBaseKeys: seq<string> := ["PassengerId", "Survived", "Pclass", "Name", "Sex", "Age", "SibSp", "Parch", "Fare", "Embarked"]

  /** The derived keys a record carries, in the order cleaning adds them. */
  function DerivedKeys(p: Passenger): seq<string>
  {
    (if p.FamilySize.Some? then ["FamilySize"] else []) + (if p.Title.Some? then ["Title"] else [])
  }

  /** A record's keys are the base keys, then its derived keys. */
  lemma FieldKeys(p: Passenger)
    ensures Keys(Fields(p)) == BaseKeys + DerivedKeys(p)
  {
    var fs := Fields(p);
    var ks := Keys(fs);
    var want := BaseKeys + DerivedKeys(p);
    assert |ks| == |want|;
    forall k | 0 <= k < |ks|
      ensures ks[k] == want[k]
    {
      if k >= 12 {
        if p.FamilySize.Some? && k == 12 {
        } else {
          assert p.Title.Some? && k == |fs| - 1;
        }
      }
    }
  }

  /** `columns`: the first record's keys without Ticket and Cabin, so the ten
      shown base columns in file order and then the derived columns the
      record carries; no columns for an empty table. */
  function Columns(data: seq<Passenger>): (cols: seq<string>)
    ensures |data| == 0 ==> cols == []
    ensures |data| > 0 ==> forall x :: x in cols <==>
      x != "Ticket" && x != "Cabin" && x in Keys(Fields(data[0]))
    ensures |data| > 0 ==> cols == ShownBaseKeys + DerivedKeys(data[0])
  {
    if |data| == 0 then []
    else
      var p := data[0];
      ShownMembers(Keys(Fields(p)));
      FieldKeys(p);
      ShownAppend(BaseKeys, DerivedKeys(p));
      ShownBase();
      ShownKeepsVisible(DerivedKeys(p));
      Shown(Keys(Fields(p)))
  }

  /** A record of the raw dataset shows its ten base columns other than
      Ticket and Cabin, in file order. */
  lemma RawColumns(data: seq<Passenger>)
    requires |data| > 0 && data[0].FamilySize.None? && data[0].Title.None?
    ensures Columns(data) == ["PassengerId", "Survived", "Pclass", "Name", "Sex", "Age", "SibSp", "Parch", "Fare", "Embarked"]
  {
    assert DerivedKeys(data[0]) == [];
    assert ShownBaseKeys + [] == ShownBaseKeys;
  }

  /** A record with both derived columns, as default cleaning leaves it,
      shows them last, FamilySize before Title. */
  lemma CleanedColumns(data: seq<Passenger>)
    requires |data| > 0 && data[0].FamilySize.Some? && data[0].Title.Some?
    ensures Columns(data) == ["PassengerId", "Survived", "Pclass", "Name", "Sex", "Age", "SibSp", "Parch", "Fare", "Embarked", "FamilySize", "Title"]
  {
    assert DerivedKeys(data[0]) == ["FamilySize", "Title"];
  }

  /** Leaving out keys works piece by piece. */
  lemma {:induction false} ShownAppend(a: seq<string>, b: seq<string>)
    ensures Shown(a + b) == Shown(a) + Shown(b)
    decreases |a|
  {
    if |a| == 0 {
      assert a + b == b;
    } else {
      assert (a + b)[0] == a[0];
      assert (a + b)[1..] == a[1..] + b;
      ShownAppend(a[1..], b);
    }
  }

  /** Keys other than Ticket and Cabin are all shown, in order. */
  lemma {:induction false} ShownKeepsVisible(a: seq<string>)
    requires forall k :: 0 <= k < |a| ==> a[k] != "Ticket" && a[k] != "Cabin"
    ensures Shown(a) == a
    decreases |a|
  {
    if |a| > 0 {
      ShownKeepsVisible(a[1..]);
    }
  }

  /** The base keys before Ticket, all shown. */
  const FrontKeys: seq<string> := ["PassengerId", "Survived", "Pclass", "Name", "Sex", "Age", "SibSp", "Parch"]

  lemma FrontKeysShown()
    ensures Shown(FrontKeys) == FrontKeys
  {
    ShownKeepsVisible(FrontKeys);
  }

  /** Of the last four base keys, Fare and Embarked are shown. */
  lemma BackKeysShown()
    ensures Shown(["Ticket", "Fare", "Cabin", "Embarked"]) == ["Fare", "Embarked"]
  {
    var t := ["Ticket", "Fare", "Cabin", "Embarked"];
    assert t[1..] == ["Fare", "Cabin", "Embarked"];
    assert t[1..][1..] == ["Cabin", "Embarked"];
    assert t[1..][1..][1..] == ["Embarked"];
    assert t[1..][1..][1..][1..] == [];
  }

  /** The table keeps the base keys' order, leaving out Ticket and Cabin. */
  lemma ShownBase()
    ensures Shown(BaseKeys) == ShownBaseKeys
  {
    assert BaseKeys == FrontKeys + ["Ticket", "Fare", "Cabin", "Embarked"];
    ShownAppend(FrontKeys, ["Ticket", "Fare", "Cabin", "Embarked"]);
    FrontKeysShown();
    BackKeysShown();
  }

  /** `String(val)` for a non-null value. */
  function CellString(c: Cell, show: real -> string): string
  {
    match c
    case Null => ""
    case Bool(b) => if b then "true" else "false"
    case Num(x) => show(x)
    case Text(s) => s
  }

  /** `val !== null && val !== undefined && String(val).toLowerCase().includes(term)`. */
  predicate CellMatches(c: Cell, term: string, show: real -> string)
  {
    c != Null && Text.Contains(Text.Lower(CellString(c, show)), term)
  }

  /** `Object.values(row).some(...)`, as a scan over the pairs. */
  function AnyMatches(fs: seq<Field>, term: string, show: real -> string): (b: bool)
    ensures b <==> exists k :: 0 <= k < |fs| && CellMatches(fs[k].value, term, show)
    decreases |fs|
  {
    if |fs| == 0 then false
    else
      assert forall k :: 0 <= k < |fs| - 1 ==> fs[1..][k] == fs[k + 1];
      CellMatches(fs[0].value, term, show) || AnyMatches(fs[1..], term, show)
  }

  /** The search predicate with the term already lower-cased. */
  function RowMatches(term: string, show: real -> string): Passenger -> bool
  {
    p => AnyMatches(Fields(p), term, show)
  }

  /** `rows.filter(keep)`. */
  function Filter(rows: seq<Passenger>, keep: Passenger -> bool): (r: seq<Passenger>)
    ensures |r| == Count(rows, keep)
    ensures forall k :: 0 <= k < |r| ==> keep(r[k])
    ensures forall p :: p in r <==> p in rows && keep(p)
    ensures multiset(r) <= multiset(rows)
    decreases |rows|
  {
    if |rows| == 0 then []
    else
      var init := rows[..|rows| - 1];
      var last := rows[|rows| - 1];
      assert rows == init + [last];
      Filter(init, keep) + (if keep(last) then [last] else [])
  }

  /** Where each kept row came from, in the filter's own order. */
  function FilterPositions(rows: seq<Passenger>, keep: Passenger -> bool): (idx: seq<nat>)
    ensures |idx| == Count(rows, keep)
    ensures forall k :: 0 <= k < |idx| ==> idx[k] < |rows|
    decreases |rows|
  {
    if |rows| == 0 then []
    else
      var n := |rows| - 1;
      var idx := FilterPositions(rows[..n], keep);
      if keep(rows[n]) then idx + [n] else idx
  }

  /** `FilterPositions` one row at a time, from the end. */
  lemma PositionsStep(rows: seq<Passenger>, keep: Passenger -> bool)
    requires |rows| > 0
    ensures FilterPositions(rows, keep)
      == FilterPositions(rows[..|rows| - 1], keep) + (if keep(rows[|rows| - 1]) then [|rows| - 1] else [])
  {
  }

  /** The positions strictly increase: no row is taken twice. */
  lemma {:induction false} FilterPositionsIncrease(rows: seq<Passenger>, keep: Passenger -> bool, k: nat, l: nat)
    requires k < l < |FilterPositions(rows, keep)|
    ensures FilterPositions(rows, keep)[k] < FilterPositions(rows, keep)[l]
    decreases |rows|
  {
    var n := |rows| - 1;
    var prev := FilterPositions(rows[..n], keep);
    PositionsStep(rows, keep);
    if l < |prev| {
      FilterPositionsIncrease(rows[..n], keep, k, l);
    } else {
      assert FilterPositions(rows, keep)[l] == n;
      assert FilterPositions(rows, keep)[k] == prev[k] < n;
    }
  }

  /** `Filter` one row at a time, from the end. */
  lemma FilterStep(rows: seq<Passenger>, keep: Passenger -> bool)
    requires |rows| > 0
    ensures Filter(rows, keep)
      == Filter(rows[..|rows| - 1], keep) + (if keep(rows[|rows| - 1]) then [rows[|rows| - 1]] else [])
  {
  }

  /** The `k`-th kept row is the row at the `k`-th position. */
  lemma {:induction false} FilterAt(rows: seq<Passenger>, keep: Passenger -> bool, k: nat)
    requires k < Count(rows, keep)
    ensures FilterPositions(rows, keep)[k] < |rows|
    ensures Filter(rows, keep)[k] == rows[FilterPositions(rows, keep)[k]]
    decreases |rows|
  {
    var n := |rows| - 1;
    var init := rows[..n];
    PositionsStep(rows, keep);
    FilterStep(rows, keep);
    var prev := FilterPositions(init, keep);
    if k < |prev| {
      FilterAt(init, keep, k);
      assert Filter(rows, keep)[k] == Filter(init, keep)[k];
      assert FilterPositions(rows, keep)[k] == prev[k];
      assert rows[prev[k]] == init[prev[k]];
    } else {
      assert Filter(rows, keep)[k] == rows[n];
      assert FilterPositions(rows, keep)[k] == n;
    }
  }

  /** The filter keeps rows in their order: the kept rows are the rows at
      strictly increasing positions, each row taken at most once. */
  lemma {:induction false} FilterKeepsOrder(rows: seq<Passenger>, keep: Passenger -> bool)
    ensures var idx := FilterPositions(rows, keep);
      && |idx| == |Filter(rows, keep)|
      && (forall k :: 0 <= k < |idx| ==> Filter(rows, keep)[k] == rows[idx[k]])
      && (forall k, l :: 0 <= k < l < |idx| ==> idx[k] < idx[l])
  {
    var idx := FilterPositions(rows, keep);
    forall k | 0 <= k < |idx|
      ensures Filter(rows, keep)[k] == rows[idx[k]]
    {
      FilterAt(rows, keep, k);
    }
    forall k, l | 0 <= k < l < |idx|
      ensures idx[k] < idx[l]
    {
      FilterPositionsIncrease(rows, keep, k, l);
    }
  }

  /** The search step: an empty term keeps every row; otherwise the rows
      having some non-null value whose lower-cased text contains the
      lower-cased term — Ticket and Cabin included, though not shown. */
  function Search(rows: seq<Passenger>, term: string, show: real -> string): (r: seq<Passenger>)
    ensures term == "" ==> r == rows
    ensures term != "" ==> r == Filter(rows, RowMatches(Text.Lower(term), show))
    ensures forall p :: p in r <==> (p in rows &&
      (term == "" || (exists k :: 0 <= k < |Fields(p)| && CellMatches(Fields(p)[k].value, Text.Lower(term), show))))
    ensures multiset(r) <= multiset(rows)
  {
    if term == "" then rows else Filter(rows, RowMatches(Text.Lower(term), show))
  }

  /** The search looks at hidden columns too: a record whose ticket holds
      the term is found although Ticket is not a table column. */
  lemma SearchFindsTicket(rows: seq<Passenger>, term: string, show: real -> string, p: Passenger)
    requires term != "" && p in rows
    requires Text.Contains(Text.Lower(p.Ticket), Text.Lower(term))
    ensures p in Search(rows, term, show)
  {
    assert Fields(p)[8] == Field("Ticket", Text(p.Ticket));
  }

  /** Searching is case-insensitive in the term. */
  lemma SearchIgnoresTermCase(rows: seq<Passenger>, a: string, b: string, show: real -> string)
    requires Text.Lower(a) == Text.Lower(b)
    ensures Search(rows, a, show) == Search(rows, b, show)
  {
    if a == "" || b == "" {
      assert |a| == |Text.Lower(a)| == |Text.Lower(b)| == |b|;
    }
  }

  /** `formatCellValue`: a dash for null, Yes/No for booleans, `String(value)`
      otherwise. */
  function FormatCell(c: Cell, show: real -> string): (s: string)
    ensures c == Null ==> s == "—"
    ensures c.Bool? ==> s in {"Yes", "No"} && (s == "Yes" <==> c.b)
    ensures c.Num? ==> s == show(c.x)
    ensures c.Text? ==> s == c.s
  {
    match c
    case Null => "—"
    case Bool(b) => if b then "Yes" else "No"
    case Num(x) => show(x)
    case Text(t) => t
  }

  /** A null or absent value is shown as a dash: an unknown age, fare, cabin
      or port, and a derived column the record does not carry. */
  lemma MissingValuesShowDash(p: Passenger, show: real -> string)
    ensures p.Age.None? ==> FormatCell(CellOf(p, "Age"), show) == "—"
    ensures p.Fare.None? ==> FormatCell(CellOf(p, "Fare"), show) == "—"
    ensures p.Cabin.None? ==> FormatCell(CellOf(p, "Cabin"), show) == "—"
    ensures p.Embarked.None? ==> FormatCell(CellOf(p, "Embarked"), show) == "—"
    ensures p.Title.None? ==> FormatCell(CellOf(p, "Title"), show) == "—"
  {
    var fs := Fields(p);
    var base := BaseFields(p);
    assert fs[5] == base[5] == Field("Age", RealCell(p.Age));
    assert fs[9] == base[9] == Field("Fare", RealCell(p.Fare));
    assert fs[10] == base[10] == Field("Cabin", TextCell(p.Cabin));
    assert fs[11] == base[11] == Field("Embarked", TextCell(p.Embarked));
    LookupAt(fs, 5);
    LookupAt(fs, 9);
    LookupAt(fs, 10);
    LookupAt(fs, 11);
  }
}

=== FILE: tablesort.dfy ===
/** The explorer table's ordering: the comparator over one column's values
    in either direction, and the sort it drives. */
module TableSort {
  import opened Passengers
  import Text
  import Table

  datatype Direction = Asc | Desc

  function Flip(d: Direction): Direction
  {
    if d == Asc then Desc else Asc
  }

  /** The order between kinds, used only when one column mixes kinds. */
  function Rank(c: Table.Cell): nat
  {
    match c
    case Null => 0
    case Bool(_) => 1
    case Num(_) => 2
    case Text(_) => 3
  }

  /** `a < b` between two values: numbers numerically, booleans with false
      first, strings by character codes. */
  predicate ValueLt(a: Table.Cell, b: Table.Cell)
  {
    if Rank(a) != Rank(b) then Rank(a) < Rank(b)
    else match a
      case Null => false
      case Bool(x) => !x && b.b
      case Num(x) => x < b.x
      case Text(x) => Text.StrLe(x, b.s) && x != b.s
  }

  /** The comparator as written: a null left value sorts first (ascending)
      or last (descending) even when the right value is null as well. */
  function SourceCompare(a: Table.Cell, b: Table.Cell, d: Direction): int
  {
    if a == Table.Null then (if d == Asc then -1 else 1)
    else if b == Table.Null then (if d == Asc then 1 else -1)
    else if ValueLt(a, b) then (if d == Asc then -1 else 1)
    else if ValueLt(b, a) then (if d == Asc then 1 else -1)
    else 0
  }

  /** The as-written comparator is not consistent: two null values each
      claim to come before the other. */
  lemma SourceCompareNullsInconsistent(d: Direction)
    ensures SourceCompare(Table.Null, Table.Null, d) != -SourceCompare(Table.Null, Table.Null, d)
    ensures d == Asc ==> SourceCompare(Table.Null, Table.Null, d) < 0
  {
  }

  /** Ascending comparison with nulls first and two nulls equal. */
  function Ascending(a: Table.Cell, b: Table.Cell): (r: int)
    ensures r in {-1, 0, 1}
    ensures a == Table.Null && b != Table.Null ==> r == -1
    ensures a != Table.Null && b == Table.Null ==> r == 1
  {
    if a == Table.Null && b == Table.Null then 0
    else if a == Table.Null then -1
    else if b == Table.Null then 1
    else if ValueLt(a, b) then -1
    else if ValueLt(b, a) then 1
    else 0
  }

  /** The comparator the table sorts with; descending is ascending reversed. */
  function Compare(a: Table.Cell, b: Table.Cell, d: Direction): (r: int)
    ensures r in {-1, 0, 1}
    ensures a == Table.Null && b != Table.Null ==> r == (if d == Asc then -1 else 1)
    ensures a != Table.Null && b == Table.Null ==> r == (if d == Asc then 1 else -1)
    ensures a == Table.Null && b == Table.Null ==> r == 0
  {
    if d == Asc then Ascending(a, b) else -Ascending(a, b)
  }

  /** The comparator differs from the one written only on two nulls. */
  lemma CompareMatchesSource(a: Table.Cell, b: Table.Cell, d: Direction)
    requires a != Table.Null || b != Table.Null
    ensures Compare(a, b, d) == SourceCompare(a, b, d)
  {
  }

  lemma ValueLtAsymmetric(a: Table.Cell, b: Table.Cell)
    ensures !(ValueLt(a, b) && ValueLt(b, a))
  {
    if Rank(a) == Rank(b) && a.Text? && ValueLt(a, b) && ValueLt(b, a) {
      Text.StrLeAntisymmetric(a.s, b.s);
    }
  }

  /** Not being above is transitive: `ValueLt` is a strict weak order. */
  lemma ValueNotLtTransitive(a: Table.Cell, b: Table.Cell, c: Table.Cell)
    requires !ValueLt(b, a) && !ValueLt(c, b)
    ensures !ValueLt(c, a)
  {
    if Rank(a) == Rank(b) == Rank(c) && a.Text? {
      Text.StrLeTotal(a.s, b.s);
      Text.StrLeTotal(b.s, c.s);
      if Text.StrLe(c.s, a.s) && c.s != a.s {
        Text.StrLeTransitive(a.s, b.s, c.s);
        Text.StrLeAntisymmetric(a.s, c.s);
      }
    }
  }

  /** The comparator is consistent in the sense of section 23.1.3.30.2 of
      ECMA-262: swapping the arguments negates it, and both "not after"
      and "equal" are transitive. */
  lemma CompareConsistent(a: Table.Cell, b: Table.Cell, c: Table.Cell, d: Direction)
    ensures Compare(a, b, d) == -Compare(b, a, d)
    ensures Compare(a, b, d) <= 0 && Compare(b, c, d) <= 0 ==> Compare(a, c, d) <= 0
    ensures Compare(a, b, d) == 0 && Compare(b, c, d) == 0 ==> Compare(a, c, d) == 0
  {
    ValueLtAsymmetric(a, b);
    ValueLtAsymmetric(b, c);
    ValueLtAsymmetric(a, c);
    if d == Asc {
      if Compare(a, b, d) <= 0 && Compare(b, c, d) <= 0 && a != Table.Null && b != Table.Null && c != Table.Null {
        ValueNotLtTransitive(a, b, c);
      }
      if Compare(a, b, d) == 0 && Compare(b, c, d) == 0 && a != Table.Null && b != Table.Null && c != Table.Null {
        ValueNotLtTransitive(a, b, c);
        ValueNotLtTransitive(c, b, a);
      }
    } else {
      if Compare(a, b, d) <= 0 && Compare(b, c, d) <= 0 && a != Table.Null && b != Table.Null && c != Table.Null {
        ValueNotLtTransitive(c, b, a);
      }
      if Compare(a, b, d) == 0 && Compare(b, c, d) == 0 && a != Table.Null && b != Table.Null && c != Table.Null {
        ValueNotLtTransitive(a, b, c);
        ValueNotLtTransitive(c, b, a);
      }
    }
  }

  /** `row => row[sortField]`. */
  function KeyOf(field: string): Passenger -> Table.Cell
  {
    p => Table.CellOf(p, field)
  }

  /** Rows in comparator order on one column: no row is after a later one. */
  predicate SortedBy(rs: seq<Passenger>, key: Passenger -> Table.Cell, d: Direction)
  {
    forall i, j :: 0 <= i < j < |rs| ==> Compare(key(rs[i]), key(rs[j]), d) <= 0
  }

  /** Places `x` before the first row it does not come after. */
  function InsertRow(x: Passenger, s: seq<Passenger>, key: Passenger -> Table.Cell, d: Direction): (r: seq<Passenger>)
    ensures multiset(r) == multiset(s) + multiset{x}
    ensures |r| == |s| + 1
    ensures forall k :: 0 <= k < |r| ==> r[k] == x || r[k] in s
    decreases |s|
  {
    if |s| == 0 then [x]
    else if Compare(key(x), key(s[0]), d) <= 0 then [x] + s
    else
      assert s == [s[0]] + s[1..];
      var tail := InsertRow(x, s[1..], key, d);
      assert forall k :: 0 <= k < |tail| ==> tail[k] == x || tail[k] in s;
      [s[0]] + tail
  }

  /** In a sorted sequence the head is not after any element. */
  lemma HeadFirst(s: seq<Passenger>, key: Passenger -> Table.Cell, d: Direction, y: Passenger)
    requires SortedBy(s, key, d) && y in s
    ensures Compare(key(s[0]), key(y), d) <= 0
  {
    var k :| 0 <= k < |s| && s[k] == y;
    if k == 0 {
      CompareConsistent(key(y), key(y), key(y), d);
    }
  }

  /** A row not after the head of a sorted sequence can go in front. */
  lemma InsertFrontSorted(x: Passenger, s: seq<Passenger>, key: Passenger -> Table.Cell, d: Direction)
    requires SortedBy(s, key, d) && |s| > 0
    requires Compare(key(x), key(s[0]), d) <= 0
    ensures SortedBy([x] + s, key, d)
  {
    var r := [x] + s;
    forall i, j | 0 <= i < j < |r|
      ensures Compare(key(r[i]), key(r[j]), d) <= 0
    {
      assert r[j] == s[j - 1];
      if i == 0 {
        HeadFirst(s, key, d, s[j - 1]);
        CompareConsistent(key(x), key(s[0]), key(s[j - 1]), d);
      } else {
        assert r[i] == s[i - 1];
      }
    }
  }

  /** A head not after any element of a sorted tail keeps the whole sorted. */
  lemma PrependSorted(h: Passenger, tail: seq<Passenger>, key: Passenger -> Table.Cell, d: Direction)
    requires SortedBy(tail, key, d)
    requires forall j :: 0 <= j < |tail| ==> Compare(key(h), key(tail[j]), d) <= 0
    ensures SortedBy([h] + tail, key, d)
  {
    var r := [h] + tail;
    forall i, j | 0 <= i < j < |r|
      ensures Compare(key(r[i]), key(r[j]), d) <= 0
    {
      assert r[j] == tail[j - 1];
      if i > 0 {
        assert r[i] == tail[i - 1];
      }
    }
  }

  lemma {:induction false} InsertRowSorted(x: Passenger, s: seq<Passenger>, key: Passenger -> Table.Cell, d: Direction)
    requires SortedBy(s, key, d)
    ensures SortedBy(InsertRow(x, s, key, d), key, d)
    decreases |s|
  {
    if |s| == 0 {
    } else if Compare(key(x), key(s[0]), d) <= 0 {
      InsertFrontSorted(x, s, key, d);
    } else {
      var head := s[0];
      var tail := InsertRow(x, s[1..], key, d);
      assert SortedBy(s[1..], key, d) by {
        forall i, j | 0 <= i < j < |s[1..]|
          ensures Compare(key(s[1..][i]), key(s[1..][j]), d) <= 0
        {
          assert s[1..][i] == s[i + 1] && s[1..][j] == s[j + 1];
        }
      }
      InsertRowSorted(x, s[1..], key, d);
      CompareConsistent(key(x), key(head), key(x), d);
      forall j | 0 <= j < |tail|
        ensures Compare(key(head), key(tail[j]), d) <= 0
      {
        if tail[j] != x {
          assert tail[j] in s;
          HeadFirst(s, key, d, tail[j]);
        }
      }
      PrependSorted(head, tail, key, d);
    }
  }

  /** `result.sort(compare)` on one column, as an insertion sort. */
  function SortRows(rs: seq<Passenger>, key: Passenger -> Table.Cell, d: Direction): (r: seq<Passenger>)
    ensures multiset(r) == multiset(rs)
    ensures |r| == |rs|
    decreases |rs|
  {
    if |rs| == 0 then []
    else
      assert rs == [rs[0]] + rs[1..];
      InsertRow(rs[0], SortRows(rs[1..], key, d), key, d)
  }

  /** The sort returns a reordering of its rows in comparator order. */
  lemma {:induction false} SortRowsSorted(rs: seq<Passenger>, key: Passenger -> Table.Cell, d: Direction)
    ensures SortedBy(SortRows(rs, key, d), key, d)
    ensures multiset(SortRows(rs, key, d)) == multiset(rs)
    decreases |rs|
  {
    if |rs| > 0 {
      SortRowsSorted(rs[1..], key, d);
      InsertRowSorted(rs[0], SortRows(rs[1..], key, d), key, d);
    }
  }

  /** The rows whose sort value ties with `c`, in their order in `s`. */
  function Ties(s: seq<Passenger>, key: Passenger -> Table.Cell, c: Table.Cell, d: Direction): (t: seq<Passenger>)
    ensures |t| <= |s|
    decreases |s|
  {
    if |s| == 0 then []
    else (if Compare(key(s[0]), c, d) == 0 then [s[0]] else []) + Ties(s[1..], key, c, d)
  }

  /** `Ties` one row at a time. */
  lemma TiesCons(y: Passenger, s: seq<Passenger>, key: Passenger -> Table.Cell, c: Table.Cell, d: Direction)
    ensures Ties([y] + s, key, c, d) == (if Compare(key(y), c, d) == 0 then [y] else []) + Ties(s, key, c, d)
  {
    assert ([y] + s)[0] == y && ([y] + s)[1..] == s;
  }

  /** An inserted row goes in front of the rows it ties with. */
  lemma {:induction false} InsertRowTies(x: Passenger, s: seq<Passenger>, key: Passenger -> Table.Cell, c: Table.Cell, d: Direction)
    ensures Ties(InsertRow(x, s, key, d), key, c, d)
      == (if Compare(key(x), c, d) == 0 then [x] else []) + Ties(s, key, c, d)
    decreases |s|
  {
    if |s| == 0 {
      TiesCons(x, [], key, c, d);
    } else if Compare(key(x), key(s[0]), d) <= 0 {
      TiesCons(x, s, key, c, d);
    } else {
      InsertRowTies(x, s[1..], key, c, d);
      InsertPastTies(x, s, key, c, d);
    }
  }

  /** The step of `InsertRowTies` where `x` moves past the head of `s`. */
  lemma InsertPastTies(x: Passenger, s: seq<Passenger>, key: Passenger -> Table.Cell, c: Table.Cell, d: Direction)
    requires |s| > 0 && Compare(key(x), key(s[0]), d) > 0
    requires Ties(InsertRow(x, s[1..], key, d), key, c, d)
      == (if Compare(key(x), c, d) == 0 then [x] else []) + Ties(s[1..], key, c, d)
    ensures Ties(InsertRow(x, s, key, d), key, c, d)
      == (if Compare(key(x), c, d) == 0 then [x] else []) + Ties(s, key, c, d)
  {
    var tail := InsertRow(x, s[1..], key, d);
    var hx := if Compare(key(x), c, d) == 0 then [x] else [];
    var h0 := if Compare(key(s[0]), c, d) == 0 then [s[0]] else [];
    var rest := Ties(s[1..], key, c, d);
    assert InsertRow(x, s, key, d) == [s[0]] + tail;
    TiesCons(s[0], tail, key, c, d);
    assert s == [s[0]] + s[1..];
    TiesCons(s[0], s[1..], key, c, d);
    NotBothTie(key(x), key(s[0]), c, d);
    SwapPastEmpty(h0, hx, rest);
  }

  /** Two pieces of which one is empty can be swapped. */
  lemma SwapPastEmpty(a: seq<Passenger>, b: seq<Passenger>, rest: seq<Passenger>)
    requires a == [] || b == []
    ensures a + (b + rest) == b + (a + rest)
  {
    if a == [] {
      assert a + (b + rest) == b + rest == b + (a + rest);
    } else {
      assert a + (b + rest) == a + rest == b + (a + rest);
    }
  }

  /** Two values in strict order cannot both tie with a third. */
  lemma NotBothTie(a: Table.Cell, b: Table.Cell, c: Table.Cell, d: Direction)
    requires Compare(a, b, d) > 0
    ensures !(Compare(a, c, d) == 0 && Compare(b, c, d) == 0)
  {
    CompareConsistent(a, c, b, d);
    CompareConsistent(b, c, a, d);
  }

  /** The sort is stable: the rows tying on the sort column keep their input
      order, which with `SortRowsSorted` fixes the output completely. */
  lemma {:induction false} SortRowsStable(rs: seq<Passenger>, key: Passenger -> Table.Cell, c: Table.Cell, d: Direction)
    ensures Ties(SortRows(rs, key, d), key, c, d) == Ties(rs, key, c, d)
    decreases |rs|
  {
    if |rs| > 0 {
      SortRowsStable(rs[1..], key, c, d);
      InsertRowTies(rs[0], SortRows(rs[1..], key, d), key, c, d);
      TiesCons(rs[0], rs[1..], key, c, d);
      assert rs == [rs[0]] + rs[1..];
    }
  }

  /** Rows without a value in the sort column gather at the top when
      ascending and at the bottom when descending. */
  lemma NullsAtTheEnds(rs: seq<Passenger>, key: Passenger -> Table.Cell, d: Direction, i: nat, j: nat)
    requires i < j < |rs| && SortedBy(rs, key, d)
    ensures d == Asc && key(rs[j]) == Table.Null ==> key(rs[i]) == Table.Null
    ensures d == Desc && key(rs[i]) == Table.Null ==> key(rs[j]) == Table.Null
  {
  }

  /** Sorting on one column, ascending, orders its non-null values. */
  lemma AscendingOrdersValues(rs: seq<Passenger>, key: Passenger -> Table.Cell, i: nat, j: nat)
    requires i < j < |rs| && SortedBy(rs, key, Asc)
    requires key(rs[i]) != Table.Null && key(rs[j]) != Table.Null
    ensures !ValueLt(key(rs[j]), key(rs[i]))
  {
    assert Compare(key(rs[i]), key(rs[j]), Asc) <= 0;
    ValueLtAsymmetric(key(rs[i]), key(rs[j]));
  }
}

=== FILE: tableview.dfy ===
/** The explorer table as a state machine: its sort column and direction,
    search text and page, the events its controls raise, and the rows it
    renders. */
module TableView {
  import opened Passengers
  import Table
  import TableSort
  import Paging

  datatype TableState = TableState(
    sortField: string,
    direction: TableSort.Direction,
    searchTerm: string,
    page: int)

  /** Sorted by PassengerId ascending, no search, first page. */
  const Initial := TableState("PassengerId", TableSort.Asc, "", 1)

  /** `handleSort`: the sorted column's header flips the direction; another
      header sorts on its column ascending.  Search and page are kept. */
  function HandleSort(st: TableState, field: string): (r: TableState)
    ensures r.sortField == field
    ensures r.searchTerm == st.searchTerm && r.page == st.page
    ensures field == st.sortField ==> r.direction == TableSort.Flip(st.direction)
    ensures field != st.sortField ==> r.direction == TableSort.Asc
  {
    if st.sortField == field then st.(direction := TableSort.Flip(st.direction))
    else st.(sortField := field, direction := TableSort.Asc)
  }

  /** Clicking the same header twice restores the direction; clicking a new
      header twice sorts it descending. */
  lemma HandleSortTwice(st: TableState, field: string)
    ensures field == st.sortField ==> HandleSort(HandleSort(st, field), field) == st
    ensures field != st.sortField ==> HandleSort(HandleSort(st, field), field).direction == TableSort.Desc
  {
  }

  /** The search box's `onChange`: new text, back to page 1. */
  function SetSearch(st: TableState, term: string): (r: TableState)
    ensures r.searchTerm == term && r.page == 1
    ensures r.sortField == st.sortField && r.direction == st.direction
  {
    st.(searchTerm := term, page := 1)
  }

  /** `filteredAndSortedData`: the search, then the sort on the chosen column. */
  function Visible(data: seq<Passenger>, st: TableState, show: real -> string): (r: seq<Passenger>)
    ensures multiset(r) == multiset(Table.Search(data, st.searchTerm, show))
  {
    var found := Table.Search(data, st.searchTerm, show);
    if st.sortField == "" then found
    else TableSort.SortRows(found, TableSort.KeyOf(st.sortField), st.direction)
  }

  /** The rows rendered are the current page of the visible rows. */
  function Rendered(data: seq<Passenger>, st: TableState, show: real -> string): seq<Passenger>
  {
    Paging.PageRows(Visible(data, st, show), st.page)
  }

  function Pages(data: seq<Passenger>, st: TableState, show: real -> string): nat
  {
    Paging.TotalPages(|Visible(data, st, show)|)
  }

  /** What the table shows: matching rows only, in comparator order on the
      sort column, each matching row exactly as often as in the data, and
      rows that tie on the sort column in the order the search left them. */
  lemma VisibleSpec(data: seq<Passenger>, st: TableState, show: real -> string)
    requires st.sortField != ""
    ensures TableSort.SortedBy(Visible(data, st, show), TableSort.KeyOf(st.sortField), st.direction)
    ensures forall p :: p in Visible(data, st, show) <==> p in Table.Search(data, st.searchTerm, show)
    ensures |Visible(data, st, show)| == |Table.Search(data, st.searchTerm, show)|
    ensures forall c ::
      TableSort.Ties(Visible(data, st, show), TableSort.KeyOf(st.sortField), c, st.direction)
      == TableSort.Ties(Table.Search(data, st.searchTerm, show), TableSort.KeyOf(st.sortField), c, st.direction)
  {
    var found := Table.Search(data, st.searchTerm, show);
    TableSort.SortRowsSorted(found, TableSort.KeyOf(st.sortField), st.direction);
    forall c {
      TableSort.SortRowsStable(found, TableSort.KeyOf(st.sortField), c, st.direction);
    }
    var r := Visible(data, st, show);
    assert forall p :: p in r <==> p in multiset(r);
    assert forall p :: p in found <==> p in multiset(found);
  }

  /** The controls of the table. */
  datatype Event =
    | ClickHeader(field: string)
    | Type(term: string)
    | Previous
    | Next
    | PageButton(number: int)

  /** One event.  The pagination bar is rendered only with more than one
      page, so its buttons do nothing otherwise; a page button acts only if
      it is one of those rendered. */
  function Step(data: seq<Passenger>, show: real -> string, st: TableState, e: Event): TableState
  {
    var total := Pages(data, st, show);
    match e
    case ClickHeader(field) => HandleSort(st, field)
    case Type(term) => SetSearch(st, term)
    case Previous => if total > 1 then st.(page := Paging.PrevPage(st.page)) else st
    case Next => if total > 1 then st.(page := Paging.NextPage(st.page, total)) else st
    case PageButton(b) =>
      if total > 1 && b in Paging.PageButtons(st.page, total) then st.(page := b) else st
  }

  /** The current page is a page of the visible rows, or page 1 when there
      are none. */
  predicate Valid(data: seq<Passenger>, show: real -> string, st: TableState)
  {
    1 <= st.page <= Paging.Max(1, Pages(data, st, show))
  }

  lemma InitialValid(data: seq<Passenger>, show: real -> string)
    ensures Valid(data, show, Initial)
  {
  }

  /** Sorting never changes how many rows are visible. */
  lemma PagesIgnoreSort(data: seq<Passenger>, show: real -> string, a: TableState, b: TableState)
    requires a.searchTerm == b.searchTerm
    ensures Pages(data, a, show) == Pages(data, b, show)
  {
    assert |multiset(Visible(data, a, show))| == |Visible(data, a, show)|;
    assert |multiset(Visible(data, b, show))| == |Visible(data, b, show)|;
  }

  /** A change that keeps the search text and the page keeps the state valid. */
  lemma SamePageValid(data: seq<Passenger>, show: real -> string, st: TableState, r: TableState)
    requires Valid(data, show, st)
    requires r.searchTerm == st.searchTerm && r.page == st.page
    ensures Valid(data, show, r)
  {
    PagesIgnoreSort(data, show, st, r);
  }

  /** A move to a page between 1 and the page count keeps the state valid. */
  lemma MovedPageValid(data: seq<Passenger>, show: real -> string, st: TableState, p: int)
    requires 1 <= p <= Pages(data, st, show)
    ensures Valid(data, show, st.(page := p))
  {
    PagesIgnoreSort(data, show, st, st.(page := p));
  }

  /** No control can take the table to a page that does not exist. */
  lemma StepKeepsValid(data: seq<Passenger>, show: real -> string, st: TableState, e: Event)
    requires Valid(data, show, st)
    ensures Valid(data, show, Step(data, show, st, e))
  {
    var total := Pages(data, st, show);
    match e
    case ClickHeader(f) =>
      assert Step(data, show, st, e) == HandleSort(st, f);
      SamePageValid(data, show, st, HandleSort(st, f));
    case Type(t) =>
      assert Step(data, show, st, e) == SetSearch(st, t);
    case Previous =>
      if total > 1 {
        Paging.PrevNextSpec(st.page, total);
        assert Step(data, show, st, e) == st.(page := Paging.PrevPage(st.page));
        MovedPageValid(data, show, st, Paging.PrevPage(st.page));
      } else {
        assert Step(data, show, st, e) == st;
      }
    case Next =>
      if total > 1 {
        Paging.PrevNextSpec(st.page, total);
        assert Step(data, show, st, e) == st.(page := Paging.NextPage(st.page, total));
        MovedPageValid(data, show, st, Paging.NextPage(st.page, total));
      } else {
        assert Step(data, show, st, e) == st;
      }
    case PageButton(b) =>
      if total > 1 && b in Paging.PageButtons(st.page, total) {
        Paging.PageButtonsWindow(st.page, total);
        assert Step(data, show, st, e) == st.(page := b);
        MovedPageValid(data, show, st, b);
      } else {
        assert Step(data, show, st, e) == st;
      }
  }

  /** In a valid state the table says "No data found" exactly when no row
      matches the search. */
  lemma NoDataFoundExactlyWhenNoMatch(data: seq<Passenger>, show: real -> string, st: TableState)
    requires Valid(data, show, st)
    ensures |Rendered(data, st, show)| == 0 <==> |Table.Search(data, st.searchTerm, show)| == 0
  {
    PagesIgnoreSort(data, show, st, st);
    assert |multiset(Visible(data, st, show))| == |Visible(data, st, show)|;
    assert |multiset(Table.Search(data, st.searchTerm, show))| == |Table.Search(data, st.searchTerm, show)|;
    Paging.PageSizes(Visible(data, st, show), st.page);
  }
}

=== FILE: text.dfy ===
/** String helpers the dashboard borrows from JavaScript's `String.prototype`:
    lower-casing, substring search, suffix test, joining, decimal rendering of
    small integers and a string order: code-point order (JavaScript's `<`
    uses UTF-16 code units). */
module Text {

  predicate IsUpper(c: char) { 'A' <= c <= 'Z' }

  function LowerChar(c: char): char
  {
    if IsUpper(c) then (c as int + 32) as char else c
  }

  /** `s.toLowerCase()` on the ASCII letters; every other character is kept. */
  function Lower(s: string): (r: string)
    ensures |r| == |s|
    ensures forall i :: 0 <= i < |s| ==> r[i] == LowerChar(s[i])
    ensures forall i :: 0 <= i < |s| ==> !IsUpper(r[i])
  {
    seq(|s|, i requires 0 <= i < |s| => LowerChar(s[i]))
  }

  /** `needle` sits in `hay` starting at offset `i`. */
  predicate OccursAt(needle: string, hay: string, i: int)
  {
    0 <= i <= |hay| - |needle| && hay[i..i + |needle|] == needle
  }

  /** `needle` occurs in `hay` at some offset. */
  ghost predicate OccursIn(needle: string, hay: string)
  {
    exists i :: OccursAt(needle, hay, i)
  }

  /** An occurrence in the tail is an occurrence one further on. */
  lemma OccursInTail(needle: string, hay: string, i: int)
    requires |hay| > 0 && OccursAt(needle, hay[1..], i)
    ensures OccursAt(needle, hay, i + 1)
  {
    assert hay[i + 1..i + 1 + |needle|] == hay[1..][i..i + |needle|];
  }

  /** An occurrence past the first position is one in the tail. */
  lemma OccursPastHead(needle: string, hay: string, i: int)
    requires |hay| > 0 && OccursAt(needle, hay, i) && i > 0
    ensures OccursAt(needle, hay[1..], i - 1)
  {
    assert hay[1..][i - 1..i - 1 + |needle|] == hay[i..i + |needle|];
  }

  /** `hay.includes(needle)`, as a left-to-right scan of prefixes. */
  function Contains(hay: string, needle: string): (b: bool)
    ensures b <==> OccursIn(needle, hay)
    decreases |hay|
  {
    if needle <= hay then
      assert OccursAt(needle, hay, 0);
      true
    else if |hay| == 0 then
      false
    else
      var rest := Contains(hay[1..], needle);
      assert rest ==> OccursIn(needle, hay) by {
        if rest {
          var i :| OccursAt(needle, hay[1..], i);
          OccursInTail(needle, hay, i);
        }
      }
      assert OccursIn(needle, hay) ==> rest by {
        if OccursIn(needle, hay) {
          var i :| OccursAt(needle, hay, i);
          assert i != 0;
          OccursPastHead(needle, hay, i);
        }
      }
      rest
  }

  /** `s.endsWith(suffix)`. */
  predicate EndsWith(s: string, suffix: string)
  {
    |suffix| <= |s| && s[|s| - |suffix|..] == suffix
  }

  /** `parts.join(sep)`. */
  function Join(parts: seq<string>, sep: string): (r: string)
    ensures |parts| == 0 ==> r == ""
    ensures |parts| == 1 ==> r == parts[0]
    ensures |parts| > 0 ==> parts[0] <= r
    decreases |parts|
  {
    if |parts| == 0 then ""
    else if |parts| == 1 then parts[0]
    else parts[0] + sep + Join(parts[1..], sep)
  }

  /** Appending a part puts the separator and then that part at the end. */
  lemma {:induction false} JoinAppend(parts: seq<string>, x: string, sep: string)
    requires |parts| > 0
    ensures Join(parts + [x], sep) == Join(parts, sep) + sep + x
    decreases |parts|
  {
    if |parts| == 1 {
      assert parts + [x] == [parts[0], x];
      assert [parts[0], x][1..] == [x];
    } else {
      assert (parts + [x])[1..] == parts[1..] + [x];
      JoinAppend(parts[1..], x, sep);
    }
  }

  /** The joined string holds every part and a separator between each two. */
  lemma {:induction false} JoinLength(parts: seq<string>, sep: string)
    ensures |parts| > 0 ==> |Join(parts, sep)| == TotalLength(parts) + (|parts| - 1) * |sep|
    decreases |parts|
  {
    if |parts| > 1 {
      JoinLength(parts[1..], sep);
    }
  }

  /** The summed lengths of the parts. */
  function TotalLength(parts: seq<string>): nat
    decreases |parts|
  {
    if |parts| == 0 then 0 else |parts[0]| + TotalLength(parts[1..])
  }

  predicate IsDigit(c: char) { '0' <= c <= '9' }

  function DigitChar(d: nat): char
    requires d < 10
  {
    ('0' as int + d) as char
  }

  function DigitValue(c: char): nat
    requires IsDigit(c)
  {
    c as int - '0' as int
  }

  /** `String(n)` for a non-negative integer: its decimal digits, no leading zero. */
  function NatToString(n: nat): (s: string)
    ensures |s| > 0
    ensures forall i :: 0 <= i < |s| ==> IsDigit(s[i])
    ensures |s| > 1 ==> s[0] != '0'
    decreases n
  {
    if n < 10 then [DigitChar(n)]
    else NatToString(n / 10) + [DigitChar(n % 10)]
  }

  /** Reads a string of decimal digits back as a number. */
  function ParseDigits(s: string): nat
    requires forall i :: 0 <= i < |s| ==> IsDigit(s[i])
    decreases |s|
  {
    if |s| == 0 then 0
    else ParseDigits(s[..|s| - 1]) * 10 + DigitValue(s[|s| - 1])
  }

  /** Reading back a rendered number gives the number. */
  lemma {:induction false} NatToStringRoundTrip(n: nat)
    ensures ParseDigits(NatToString(n)) == n
    decreases n
  {
    var s := NatToString(n);
    if n >= 10 {
      NatToStringRoundTrip(n / 10);
      assert s[..|s| - 1] == NatToString(n / 10);
    }
  }

  /** `a <= b` on strings: lexicographic comparison of characters. */
  predicate StrLe(a: string, b: string)
    decreases |a|
  {
    if |a| == 0 then true
    else if |b| == 0 then false
    else if a[0] < b[0] then true
    else if a[0] > b[0] then false
    else StrLe(a[1..], b[1..])
  }

  lemma {:induction false} StrLeTotal(a: string, b: string)
    ensures StrLe(a, b) || StrLe(b, a)
    decreases |a|
  {
    if |a| > 0 && |b| > 0 && a[0] == b[0] {
      StrLeTotal(a[1..], b[1..]);
    }
  }

  lemma {:induction false} StrLeTransitive(a: string, b: string, c: string)
    requires StrLe(a, b) && StrLe(b, c)
    ensures StrLe(a, c)
    decreases |a|
  {
    if |a| > 0 && |b| > 0 && |c| > 0 && a[0] == b[0] && b[0] == c[0] {
      StrLeTransitive(a[1..], b[1..], c[1..]);
    }
  }

  lemma {:induction false} StrLeAntisymmetric(a: string, b: string)
    requires StrLe(a, b) && StrLe(b, a)
    ensures a == b
    decreases |a|
  {
    if |a| > 0 {
      StrLeAntisymmetric(a[1..], b[1..]);
      assert a == [a[0]] + a[1..];
      assert b == [b[0]] + b[1..];
    }
  }
}

=== FILE: titles.dfy ===
/** Title extraction: the first match of `\b([A-Za-z]+)\.` in a passenger's
    name, defaulting to "Mr", folded into six categories. */
module Titles {
  import opened Passengers

  predicate IsLetter(c: char) { 'A' <= c <= 'Z' || 'a' <= c <= 'z' }

  /** A regular-expression word character, `[A-Za-z0-9_]`. */
  predicate IsWordChar(c: char) { IsLetter(c) || '0' <= c <= '9' || c == '_' }

  /** `\b` before position `i`, given that `s[i]` is a word character. */
  predicate AtWordStart(s: string, i: nat)
    requires i < |s|
  {
    i == 0 || !IsWordChar(s[i - 1])
  }

  /** One past the run of letters that starts at `i`. */
  function RunEnd(s: string, i: nat): (j: nat)
    requires i <= |s|
    ensures i <= j <= |s|
    ensures forall k :: i <= k < j ==> IsLetter(s[k])
    ensures j == |s| || !IsLetter(s[j])
    decreases |s| - i
  {
    if i < |s| && IsLetter(s[i]) then RunEnd(s, i + 1) else i
  }

  /** The regular expression matches at `i` with group 1 equal to `s[i..j]`:
      a word boundary, one or more letters, then a literal period. */
  ghost predicate RegexMatch(s: string, i: int, j: int)
  {
    && 0 <= i < j < |s|
    && AtWordStart(s, i)
    && (forall k :: i <= k < j ==> IsLetter(s[k]))
    && s[j] == '.'
  }

  /** The scan's test at `i`: a letter at a word start whose whole letter
      run is followed by a period. */
  predicate MatchesAt(s: string, i: nat)
    requires i < |s|
  {
    IsLetter(s[i]) && AtWordStart(s, i) && RunEnd(s, i) < |s| && s[RunEnd(s, i)] == '.'
  }

  /** Backtracking cannot shorten the letter run: the regular expression
      matches at `i` exactly when the scan's test holds there, and then the
      group is the whole run. */
  lemma MatchesAtIsRegexMatch(s: string, i: nat, j: int)
    requires i < |s|
    ensures RegexMatch(s, i, j) <==> MatchesAt(s, i) && j == RunEnd(s, i)
  {
  }

  /** Leftmost position at or after `from` where the scan's test holds. */
  function FindTitle(s: string, from: nat): (r: Option<nat>)
    requires from <= |s|
    ensures r.Some? ==> from <= r.value < |s| && MatchesAt(s, r.value)
    ensures r.Some? ==> forall k :: from <= k < r.value ==> !MatchesAt(s, k)
    ensures r.None? ==> forall k :: from <= k < |s| ==> !MatchesAt(s, k)
    decreases |s| - from
  {
    if from == |s| then None
    else if MatchesAt(s, from) then Some(from)
    else FindTitle(s, from + 1)
  }

  /** `(name.match(/\b([A-Za-z]+)\./) || ["", "Mr"])[1]`. */
  function RawTitle(name: string): string
  {
    match FindTitle(name, 0)
    case None => "Mr"
    case Some(i) => name[i..RunEnd(name, i)]
  }

  /** The raw title is group 1 of the leftmost regular-expression match, or
      "Mr" when the expression does not match anywhere in the name. */
  lemma RawTitleIsLeftmostMatch(name: string)
    ensures (forall i, j :: !RegexMatch(name, i, j)) ==> RawTitle(name) == "Mr"
    ensures (exists i, j :: RegexMatch(name, i, j)) ==>
      exists i, j :: RegexMatch(name, i, j) && RawTitle(name) == name[i..j]
        && forall i', j' :: RegexMatch(name, i', j') ==> i <= i'
  {
    match FindTitle(name, 0)
    case None =>
      forall i, j | RegexMatch(name, i, j)
        ensures false
      {
        MatchesAtIsRegexMatch(name, i, j);
      }
    case Some(i) =>
      var j := RunEnd(name, i);
      MatchesAtIsRegexMatch(name, i, j);
      forall i', j' | RegexMatch(name, i', j')
        ensures i <= i'
      {
        MatchesAtIsRegexMatch(name, i', j');
      }
  }

  /** The six title categories cleaning produces. */
  predicate IsCategory(t: string)
  {
    t in {"Mr", "Miss", "Mrs", "Master", "Officer", "Other"}
  }

  /** The normalisation table: Mlle and Ms become Miss, Mme becomes Mrs,
      military, medical and clerical ranks become Officer, and anything that
      is not Mr, Miss, Mrs or Master becomes Other. */
  function NormalizeTitle(t: string): (r: string)
    ensures IsCategory(r)
    ensures t in {"Mr", "Miss", "Mrs", "Master"} ==> r == t
    ensures r == "Mr" <==> t == "Mr"
    ensures r == "Master" <==> t == "Master"
    ensures r == "Miss" <==> t in {"Mlle", "Ms", "Miss"}
    ensures r == "Mrs" <==> t in {"Mme", "Mrs"}
    ensures r == "Officer" <==> t in {"Capt", "Col", "Major", "Dr", "Rev"}
    ensures r == "Other" <==>
      t !in {"Mr", "Miss", "Mrs", "Master", "Mlle", "Ms", "Mme", "Capt", "Col", "Major", "Dr", "Rev"}
  {
    if t in ["Mlle", "Ms"] then "Miss"
    else if t in ["Mme", "Mrs"] then "Mrs"
    else if t in ["Capt", "Col", "Major", "Dr", "Rev"] then "Officer"
    else if t != "Mr" && t != "Miss" && t != "Master" then "Other"
    else t
  }

  /** The `Title` column cleaning attaches for a name. */
  function TitleOf(name: string): (r: string)
    ensures IsCategory(r)
  {
    NormalizeTitle(RawTitle(name))
  }

  /** Normalising a category again keeps it, except that "Officer" is not
      on the list of kept titles and becomes "Other". */
  lemma NormalizeTwice(t: string)
    ensures NormalizeTitle(NormalizeTitle(t)) ==
      (if NormalizeTitle(t) == "Officer" then "Other" else NormalizeTitle(t))
  {
  }

  /** Normalisation is not idempotent: "Officer" itself is folded into "Other". */
  lemma NormalizeNotIdempotent()
    ensures NormalizeTitle(NormalizeTitle("Dr")) == "Other"
  {
  }

  /** The run of letters from `i` ends at the first non-letter after it. */
  lemma RunEndAt(s: string, i: nat, j: nat)
    requires i <= j <= |s|
    requires forall k :: i <= k < j ==> IsLetter(s[k])
    requires j == |s| || !IsLetter(s[j])
    ensures RunEnd(s, i) == j
  {
  }

  predicate AllLetters(w: string)
  {
    forall k :: 0 <= k < |w| ==> IsLetter(w[k])
  }

  /** A name in the dataset's usual shape `Surname, Title. Given names`
      yields the title between the comma and the period. */
  lemma UsualNameTitle(surname: string, title: string, rest: string)
    requires |surname| > 0 && AllLetters(surname)
    requires |title| > 0 && AllLetters(title)
    ensures RawTitle(surname + ", " + title + "." + rest) == title
  {
    var s := surname + ", " + title + "." + rest;
    var n := |surname|;
    var t := n + 2;
    var e := t + |title|;
    assert forall k :: 0 <= k < n ==> s[k] == surname[k];
    assert s[n] == ',' && s[n + 1] == ' ';
    assert forall k :: t <= k < e ==> s[k] == title[k - t];
    assert s[e] == '.';
    RunEndAt(s, 0, n);
    RunEndAt(s, t, e);
    assert MatchesAt(s, t);
    forall k | 0 <= k < t
      ensures !MatchesAt(s, k)
    {
      if 0 < k < n {
        assert IsWordChar(s[k - 1]);
      }
    }
    assert s[t..e] == title;
  }

  lemma TitleExampleMr()
    ensures TitleOf("Braund, Mr. Owen Harris") == "Mr"
  {
    assert "Braund, Mr. Owen Harris" == "Braund" + ", " + "Mr" + "." + " Owen Harris";
    UsualNameTitle("Braund", "Mr", " Owen Harris");
  }

  lemma TitleExampleOfficer()
    ensures TitleOf("Minahan, Dr. William Edward") == "Officer"
  {
    assert "Minahan, Dr. William Edward" == "Minahan" + ", " + "Dr" + "." + " William Edward";
    UsualNameTitle("Minahan", "Dr", " William Edward");
  }
}

=== FILE: uploader.dfy ===
/** The upload step: the file-type gate, the parser's outcome, the
    required-column check and the store update, for a chosen file and for
    the bundled sample.  Parsing and fetching are inputs: a file comes with
    what the CSV parser made of it, the sample with what the fetch returned. */
module Uploader {
  import opened Passengers
  import Text
  import Store

  /** The picked or dropped file: its name and MIME type. */
  datatype FileInfo = FileInfo(name: string, mimeType: string)

  /** The parser's callbacks: `complete` with the header fields, the rows and
      the error messages, or `error` with a message. */
  datatype ParseOutcome =
    | Parsed(fields: seq<string>, rows: seq<Passenger>, errors: seq<string>)
    | ParseFailed(message: string)

  /** The sample fetch: a response that is not ok, a rejected promise with
      its message, or the parsed rows of the fetched text. */
  datatype FetchOutcome =
    | NotOk
    | FetchFailed(message: string)
    | FetchedRows(rows: seq<Passenger>)

  /** The uploader's own state: the error shown and the success banner. */
  datatype UploaderState = UploaderState(error: Option<string>, success: bool)

  const InitialUploader := UploaderState(None, false)

  /** What one upload attempt leaves behind; `advance` is the `onSuccess`
      call that moves the dashboard on. */
  datatype Outcome = Outcome(store: Store.Store, ui: UploaderState, advance: bool)

  const RequiredColumns: seq<string> := ["PassengerId", "Survived", "Pclass", "Name", "Sex"]

  /** `file.type === 'text/csv' || file.name.endsWith('.csv')`. */
  predicate IsCsv(f: FileInfo)
  {
    f.mimeType == "text/csv" || Text.EndsWith(f.name, ".csv")
  }

  /** `requiredColumns.filter(col => !fields.includes(col))`, over `cols`. */
  function Missing(cols: seq<string>, fields: seq<string>): (m: seq<string>)
    ensures |m| <= |cols|
    decreases |cols|
  {
    if |cols| == 0 then []
    else (if cols[0] in fields then [] else [cols[0]]) + Missing(cols[1..], fields)
  }

  /** The missing columns are the listed ones the header lacks. */
  lemma {:induction false} MissingMembers(cols: seq<string>, fields: seq<string>)
    ensures forall c :: c in Missing(cols, fields) <==> c in cols && c !in fields
    decreases |cols|
  {
    if |cols| > 0 {
      MissingMembers(cols[1..], fields);
      assert cols == [cols[0]] + cols[1..];
    }
  }

  /** The missing columns are listed in the order of the required list. */
  lemma {:induction false} MissingKeepsOrder(cols: seq<string>, fields: seq<string>)
    ensures Subsequence(Missing(cols, fields), cols)
    decreases |cols|
  {
    if |cols| > 0 {
      MissingKeepsOrder(cols[1..], fields);
      var rest := Missing(cols[1..], fields);
      if cols[0] !in fields {
        assert Missing(cols, fields) == [cols[0]] + rest;
        assert ([cols[0]] + rest)[1..] == rest;
      } else {
        assert Missing(cols, fields) == rest;
        if |rest| > 0 {
          MissingMembers(cols[1..], fields);
          assert rest[0] in rest;
        }
      }
    }
  }

  function MissingColumns(fields: seq<string>): (m: seq<string>)
    ensures m == [] <==> forall k :: 0 <= k < |RequiredColumns| ==> RequiredColumns[k] in fields
  {
    var m := Missing(RequiredColumns, fields);
    MissingMembers(RequiredColumns, fields);
    assert forall k :: 0 <= k < |RequiredColumns| ==> RequiredColumns[k] in RequiredColumns;
    if m != [] then assert m[0] in m; m else m
  }

  /** A failed attempt: the message is shown, loading ends, nothing else
      in the store changes and the success banner stays as it was. */
  function Fail(s: Store.Store, ui: UploaderState, message: string): (o: Outcome)
    ensures o.store == s.(loading := false)
    ensures o.ui == ui.(error := Some(message)) && !o.advance
  {
    Outcome(s.(loading := false), ui.(error := Some(message)), false)
  }

  /** `processFile`. */
  function ProcessFile(s: Store.Store, ui: UploaderState, f: FileInfo, parse: ParseOutcome): (o: Outcome)
    ensures !o.store.loading
    ensures o.advance <==> o.ui.error.None?
    ensures o.advance ==> o.ui.success && Store.StatsCurrent(o.store)
  {
    if !IsCsv(f) then Fail(s, ui, "Please upload a CSV file")
    else match parse
      case ParseFailed(msg) => Fail(s, ui, "Error parsing file: " + msg)
      case Parsed(fields, rows, errors) =>
        if |errors| > 0 then Fail(s, ui, "Error parsing CSV: " + errors[0])
        else
          var missing := MissingColumns(fields);
          if |missing| > 0 then Fail(s, ui, "Missing required columns: " + Text.Join(missing, ", "))
          else Outcome(Store.LoadRows(s, rows, f.name), UploaderState(None, true), true)
  }

  /** The gates in order: wrong type, then the parser's error, then its
      first reported error, then missing columns, each leaving the store's
      data alone; a file passing all of them replaces raw and cleaned data
      by its rows and records its name. */
  lemma ProcessFileSpec(s: Store.Store, ui: UploaderState, f: FileInfo, parse: ParseOutcome)
    ensures var o := ProcessFile(s, ui, f, parse);
      && (!IsCsv(f) ==> o == Fail(s, ui, "Please upload a CSV file"))
      && (IsCsv(f) && parse.ParseFailed? ==> o == Fail(s, ui, "Error parsing file: " + parse.message))
      && (IsCsv(f) && parse.Parsed? && |parse.errors| > 0 ==> o == Fail(s, ui, "Error parsing CSV: " + parse.errors[0]))
      && (IsCsv(f) && parse.Parsed? && |parse.errors| == 0 && MissingColumns(parse.fields) != [] ==>
            o == Fail(s, ui, "Missing required columns: " + Text.Join(MissingColumns(parse.fields), ", ")))
      && (o.advance <==> IsCsv(f) && parse.Parsed? && |parse.errors| == 0 && MissingColumns(parse.fields) == [])
      && (o.advance ==> o.store.rawData == parse.rows && o.store.cleanedData == parse.rows && o.store.fileName == f.name)
      && (!o.advance ==> (o.store.rawData == s.rawData && o.store.cleanedData == s.cleanedData
            && o.store.dataStats == s.dataStats && o.store.fileName == s.fileName))
  {
  }

  /** `Missing` one column at a time. */
  lemma MissingCons(x: string, rest: seq<string>, fields: seq<string>)
    ensures Missing([x] + rest, fields) == (if x in fields then [] else [x]) + Missing(rest, fields)
  {
    assert ([x] + rest)[0] == x && ([x] + rest)[1..] == rest;
  }

  /** A header without Sex lacks exactly that required column. */
  lemma OnlySexMissing()
    ensures MissingColumns(["PassengerId", "Survived", "Pclass", "Name", "Age"]) == ["Sex"]
  {
    var fields := ["PassengerId", "Survived", "Pclass", "Name", "Age"];
    assert "Sex" !in fields;
    MissingCons("Sex", [], fields);
    assert Missing(["Sex"], fields) == ["Sex"];
    MissingCons("Name", ["Sex"], fields);
    assert ["Name"] + ["Sex"] == ["Name", "Sex"];
    MissingCons("Pclass", ["Name", "Sex"], fields);
    assert ["Pclass"] + ["Name", "Sex"] == ["Pclass", "Name", "Sex"];
    MissingCons("Survived", ["Pclass", "Name", "Sex"], fields);
    assert ["Survived"] + ["Pclass", "Name", "Sex"] == ["Survived", "Pclass", "Name", "Sex"];
    MissingCons("PassengerId", ["Survived", "Pclass", "Name", "Sex"], fields);
    assert ["PassengerId"] + ["Survived", "Pclass", "Name", "Sex"] == RequiredColumns;
  }

  /** A file without a Sex column is turned away, naming just that column. */
  lemma MissingSexColumn(s: Store.Store, ui: UploaderState, rows: seq<Passenger>)
    ensures ProcessFile(s, ui, FileInfo("train.csv", "text/csv"),
      Parsed(["PassengerId", "Survived", "Pclass", "Name", "Age"], rows, [])).ui.error
      == Some("Missing required columns: Sex")
  {
    var f := FileInfo("train.csv", "text/csv");
    var parse := Parsed(["PassengerId", "Survived", "Pclass", "Name", "Age"], rows, []);
    OnlySexMissing();
    ProcessFileSpec(s, ui, f, parse);
    assert Text.Join(["Sex"], ", ") == "Sex";
    assert "Missing required columns: " + "Sex" == "Missing required columns: Sex";
  }

  const SampleName := "titanic.csv (sample)"

  /** `handleSampleData`: no type or column checks; the fetched rows always
      load under the sample's name. */
  function HandleSampleData(s: Store.Store, ui: UploaderState, fetch: FetchOutcome): (o: Outcome)
    ensures !o.store.loading
    ensures o.advance <==> fetch.FetchedRows?
    ensures fetch.FetchedRows? ==> (o.store.rawData == fetch.rows && o.store.cleanedData == fetch.rows
      && o.store.fileName == SampleName && o.ui == UploaderState(None, true))
    ensures fetch.NotOk? ==> o == Fail(s, ui, "Error loading sample data: Failed to fetch sample data")
    ensures fetch.FetchFailed? ==> o == Fail(s, ui, "Error loading sample data: " + fetch.message)
  {
    match fetch
    case NotOk =>
      assert "Error loading sample data: " + "Failed to fetch sample data"
        == "Error loading sample data: Failed to fetch sample data";
      Fail(s, ui, "Error loading sample data: " + "Failed to fetch sample data")
    case FetchFailed(msg) => Fail(s, ui, "Error loading sample data: " + msg)
    case FetchedRows(rows) => Outcome(Store.LoadRows(s, rows, SampleName), UploaderState(None, true), true)
  }
}
